=== FILE: README.md ===
# Anonymous support groups and posts — a Dafny model

This project models the server-side core of an anonymous mental-health support
app. There are three parts:

- **Group lifecycle** (`GroupService`). Users join interest or mood groups under a
  count-based alias such as "Anonymous 3", send messages and read the last 50
  messages of a chat. Mood groups are found or created by name.
- **Expiry sweep** (`GroupCleanupService`). Groups with an `expires_at` are torn
  down once it has passed: their messages go first, then their memberships,
  then the group record. The sweep reports how many records it deleted.
- **Post bookkeeping** (`PostService`, `CommentService`, `SupportService`).
  Anonymous posts carry comments, comment likes and typed "support" records.
  The store keeps counters denormalised on the post and the comment. The
  services offer paginated listings, a substring search, per-post support
  statistics and a trending report.

The document store is a generic `Store.Table<T>`: a finite map from numeric
id to record, with a counter for fresh ids. A query selects the records that
satisfy a predicate in ascending id order, then sorts and takes. Every
operation is a pure function from a store to a new store plus a `Result`.
`Reply(db, result)` keeps the writes made before a throw. Time is an integer
count of milliseconds passed in as `now`. Store failures in the sweep are a
parameter: the set of (group, stage) pairs whose delete throws.

Modules:

- `Wrappers`: `Option`, `Result` and the three error kinds.
- `Store`: tables, queries and the stable sort.
- `Text`: ASCII case mapping, `includes`, number formatting.
- `Groups`, `GroupProperties`, `Cleanup`: the group side.
- `PostStore`: records and pagination.
- `SupportStats`: the type tally shared by the two statistics endpoints.
- `Posts`, `Comments`, `Supports`, `PostProperties`: the post side.

Outside the sweep, the code consults only `is_active`, never `expires_at`:

- `getOrCreateMoodGroup` returns an existing active mood group even when it is
  past `expires_at`. It never tears an expired group down first.
- `getGroupChat` checks only `is_active`, so an expired but not yet swept
  group can still be read. `joinGroup` likewise checks only `is_active`.

## Model

| member | source | states |
|---|---|---|
| Groups.CreateGroup | src/modules/group/group.service.ts:18-34 | a new group is active with `member_count` 0 and `created_at` now; `expires_at` is now + h·3600000 exactly when `expires_in_hours` is present and non-zero, otherwise null; it is stored under a fresh id and nothing else changes |
| Groups.GetOrCreateMoodGroup | src/modules/group/group.service.ts:36-57 | the group returned is an active mood-based group named "Feeling " plus the capitalised mood; an existing one is returned with the store untouched; otherwise exactly one group is added, with a 24-hour expiry, member count 0 and the "Support group for people feeling …" description |
| Groups.MoodGroupLookupIsStable | src/modules/group/group.service.ts:36-57 | two lookups in a row return the same group, and the second one writes nothing |
| Groups.AnonymousNameInjective | src/modules/group/group.service.ts:84 | different active counts give different "Anonymous n" aliases |
| Groups.JoinGroup | src/modules/group/group.service.ts:59-101 | fails with NotFound("Group not found") exactly when the group is absent or inactive, and `expires_at` plays no part; an existing active membership is returned with nothing written; otherwise one active membership named "Anonymous (n+1)" is added, where n is the number of active members, the stored `member_count` goes up by one and nothing else changes |
| Groups.LeaveGroup | src/modules/group/group.service.ts:197-215 | without an active membership nothing happens; otherwise exactly that membership is deactivated and `member_count` becomes max(c−1, 0), where c is the stored count or 1 when it is 0, so the count is never negative; messages and other groups are untouched |
| Groups.AutoJoinMoodGroup | src/modules/group/group.service.ts:103-106 | always succeeds with an active membership of the caller, stored in the resulting store, in the mood group the lookup returned, which carries that mood's name |
| Groups.SendMessage | src/modules/group/group.service.ts:108-136 | fails with BadRequest exactly for an invalid body or a non-member, writing nothing; otherwise appends one active message whose sender is the member's current alias, and groups and memberships are unchanged |
| Groups.GetGroupChat | src/modules/group/group.service.ts:138-171 | membership is checked first (BadRequest), then the group's existence and activity (NotFound); it succeeds exactly when both hold, with the caller's alias and the recent messages |
| Groups.RecentActiveMessages | src/modules/group/group.service.ts:157-164 | at most 50 of the group's active stored messages, in ascending `created_at` order; every active message left out is no newer than any shown |
| Groups.ListenToGroupMessages | src/modules/group/group.service.ts:217-231 | NotFound("Group not found or inactive") exactly for an absent or inactive group; otherwise the same window as the chat, with no membership check |
| Groups.GetAvailableGroups | src/modules/group/group.service.ts:173-180 | exactly the active stored groups, as a permutation of the query hits, ordered by `member_count` descending |
| Groups.GetUserGroups | src/modules/group/group.service.ts:182-195 | every group returned is stored and the caller is an active member of it; every active membership whose group still exists contributes its group, active or not |
| GroupProperties.ApplyAllKeepsInv | src/modules/group/group.service.ts:59-215 | any sequence of creates, mood lookups, joins, leaves and sends keeps member counts non-negative, at most one active membership per (group, user), and every membership and message attached to a stored group |
| GroupProperties.JoinIsIdempotent | src/modules/group/group.service.ts:67-77 | a second join of the same pair returns the same membership and leaves the store as the first join left it |
| GroupProperties.JoinKeepsAliasesDistinct | src/modules/group/group.service.ts:79-97 | with joins alone, the active aliases within a group stay pairwise distinct |
| GroupProperties.LeaveThenJoinReusesAlias | src/modules/group/group.service.ts:79-97 | after a leave, the next new member receives the same alias as the newest live member, so the aliases are no longer unique |
| Cleanup.SelectsExactlyExpired | src/modules/group/group-cleanup.service.ts:23-26 | a stored group is selected exactly when it is active and has an `expires_at` at or before now; a group without expiry is never selected |
| Cleanup.CleanupGroup | src/modules/group/group-cleanup.service.ts:50-84 | succeeds exactly when no stage fails; a failure is rethrown as a store error and leaves the group record in place |
| Cleanup.CleanupGroupEffect | src/modules/group/group-cleanup.service.ts:54-78 | a teardown only deletes; on success the group and every message and membership of it are gone; other groups' records survive; a failure after the message stage has still removed all of the group's messages |
| Cleanup.CleanupGroupKeepsInv | src/modules/group/group-cleanup.service.ts:54-78 | whichever stage fails, no message or membership is left without its group record |
| Cleanup.CleanupGroupWithStats | src/modules/group/group-cleanup.service.ts:130-168 | the same writes and outcome as `cleanupGroup`, reporting one deleted group on success |
| Cleanup.CleanupGroupCounts | src/modules/group/group-cleanup.service.ts:137-156 | the reported message and member counts are the numbers of records that carried the group's id, which are exactly the records removed |
| Cleanup.Sweep | src/modules/group/group-cleanup.service.ts:109-116 | the batch succeeds exactly when every group's teardown does, and then reports one deleted group per id |
| Cleanup.SweepRemovesExactly | src/modules/group/group-cleanup.service.ts:36-39 | after a successful batch, the groups left are exactly those not in the batch, and so are the messages and memberships |
| Cleanup.SweepKeepsInv | src/modules/group/group-cleanup.service.ts:36-39 | a complete or aborted batch keeps every group invariant, so a partial run never orphans children |
| Cleanup.SweepCounts | src/modules/group/group-cleanup.service.ts:109-116 | the summed message and member counts are the numbers of records that carried one of the selected ids |
| Cleanup.SweepLoop | src/modules/group/group-cleanup.service.ts:109-116 | the accumulating loop returns the same store and totals as the batch definition, and stops at the first failure |
| Cleanup.ManualCleanup | src/modules/group/group-cleanup.service.ts:89-125 | all zeros and no writes when nothing is expired; otherwise `deletedGroups` is the number of selected groups, and the message and member totals count their records |
| Cleanup.CleanupExpiredGroups | src/modules/group/group-cleanup.service.ts:16-45 | the resulting store is the one the sweep over the selection leaves, so Cleanup.SweepRemovesExactly and Cleanup.SweepKeepsInv apply to it; writes nothing when nothing is expired; completes exactly when every teardown succeeds; a failure is logged as a store error and not propagated |
| Cleanup.SweepIsIdempotent | src/modules/group/group-cleanup.service.ts:16-45 | after a run that did not fail, a second run at the same now finds nothing and writes nothing |
| Cleanup.GetCleanupStats | src/modules/group/group-cleanup.service.ts:173-203 | expiredGroups ≤ activeGroups ≤ totalGroups, with totalGroups the number of stored groups, activeGroups the number of groups with `is_active` set and expiredGroups the size of the sweep's selection |
| PostStore.Paginate | src/modules/post/post.service.ts:58-77 | a negative limit or offset fails with the endpoint's BadRequest; otherwise the items are the slice at offset (page−1)·limit of length min(limit, rest), and `hasMore` holds exactly when the page is full |
| PostStore.ShortPageIsLast | src/modules/post/post.service.ts:58-77 | a page shorter than the limit has no page after it |
| PostStore.PagesAreAdjacent | src/modules/post/post.service.ts:58-77 | page p+1 continues exactly where page p ended |
| Posts.CreatePost | src/modules/post/post.service.ts:13-40 | the new post has the caller as author, status active, anonymous, all four counters 0, `created_at` = `updated_at` = now and the request's fields; it is stored under a fresh id and nothing else changes |
| Posts.GetAllPosts | src/modules/post/post.service.ts:45-82 | fails exactly for a negative limit or offset; items are stored active posts that match the category and mood filters, newest first, and `hasMore` holds exactly when the page is full; the page is exactly the `limit` matching posts after the first (page−1)·limit of them, newest first |
| Posts.EveryFeedPostListed | src/modules/post/post.service.ts:45-82 | for a positive limit, every stored active post that passes the filters appears on some page of the feed |
| Posts.GetPostsByUser | src/modules/post/post.service.ts:209-241 | the same paging contract over the caller's active posts: the page is exactly the `limit` of them after the first (page−1)·limit, newest first |
| Posts.EveryUserPostListed | src/modules/post/post.service.ts:209-241 | for a positive limit, every stored active post of the user appears on some page of their posts |
| Posts.Preview | src/modules/post/post.service.ts:97-112 | min(50, number of hits) stored active comments of the post, newest first; a hit left out is no newer than any comment shown |
| Posts.PreviewSize | src/modules/post/post.service.ts:97-112 | the preview holds min(50, number of stored active comments of the post) comments |
| Posts.PreviewHasNewest | src/modules/post/post.service.ts:97-112 | an active comment of the post is left out of the preview only when the preview holds 50 comments, each no older than it |
| Posts.GetPostById | src/modules/post/post.service.ts:87-138 | NotFound exactly for a missing post; otherwise the view count read as (n \|\| 0) goes up by exactly one, nothing else in the post changes, and the reply carries the post as read with its comment preview and its support statistics (SupportStats.GetPostSupportStats) |
| Posts.Overlay | src/modules/post/post.service.ts:155-160 | each field the edit carries replaces the stored one, each field it omits is kept, `updated_at` becomes now and no other field changes |
| Posts.UpdatePost | src/modules/post/post.service.ts:143-174 | NotFound for a missing post and BadRequest for a non-author, writing nothing; otherwise the stored post and the reply are the old post overlaid with the edit; the edit carries only the editable fields |
| Posts.UpdatePostAsWritten | src/modules/post/post.service.ts:143-174 | the same outcomes, but the raw body's support counter and status are stored as given; with only editable fields it is Posts.UpdatePost |
| PostProperties.RawPostEditBreaksSupportCounts | src/modules/post/post.service.ts:155-160 | a post's author who sends a support counter other than the number of supports leaves the support counters out of step |
| Posts.UpdateTwiceIsOnce | src/modules/post/post.service.ts:155-167 | repeating an edit stores the same post apart from the timestamp |
| Posts.DeletePost | src/modules/post/post.service.ts:179-204 | the same checks as an edit; on success the record stays with status 'deleted' and a fresh `updated_at`, and nothing else changes |
| Posts.DeletedPostLeavesFeeds | src/modules/post/post.service.ts:179-204 | a deleted post is still readable by id but appears on no page of the feed under any category and mood filter, of any user's posts, or of any search |
| Posts.MatchesIffSubstring | src/modules/post/post.service.ts:293-302 | a post matches exactly when the lower-cased query occurs in the lower-cased content, category, mood or some tag |
| Posts.SearchCandidates | src/modules/post/post.service.ts:282-286 | min(100, number of active posts) stored active posts, newest first; an active post left out is no newer than any examined |
| Posts.SearchCandidatesSize | src/modules/post/post.service.ts:282-286 | the search examines min(100, number of stored active posts) posts |
| Posts.SearchCandidatesAreNewest | src/modules/post/post.service.ts:282-286 | an active post is left out of the search only when 100 posts are examined, each no older than it |
| Posts.SearchPosts | src/modules/post/post.service.ts:278-327 | the total is the number of matches the scan collected; for limit ≥ 1, page 1 is exactly what the scan collected; every item is a stored active post that matches the query |
| Posts.ScanIsPrefixMatches | src/modules/post/post.service.ts:290-314 | the scan's result is the matches in some prefix of the candidates, in candidate order |
| Posts.ScanBound | src/modules/post/post.service.ts:313 | the scan never collects more than `limit` matches (for limit ≥ 1) |
| Posts.SearchHasOnePage | src/modules/post/post.service.ts:313-321 | for limit ≥ 1 and page ≥ 1, `hasMore` is always false and every page after the first is empty |
| Posts.SearchFindsAllWhenFew | src/modules/post/post.service.ts:290-321 | when fewer than `limit` candidates match, page 1 lists every match in candidate order |
| SupportStats.TypeName | src/modules/post/support.service.ts:120 | an absent or empty type counts as 'other'; any other type counts as itself |
| SupportStats.Summarise | src/modules/post/support.service.ts:112-135 | total is the record count; the per-type counts have distinct keys, each equals the number of records of that type, every record's type is present and they sum to total; `recent_support` is the first min(10, total) records |
| SupportStats.GetPostSupportStats | src/modules/post/post.service.ts:246-273 | the statistics over the post's support records: total is their number, the per-type counts sum to it and at most 10 recent entries are shown |
| SupportStats.TallyCounts | src/modules/post/support.service.ts:118-125 | folding the types gives one entry per type, with that type's multiplicity |
| Comments.CreateComment | src/modules/post/comment.service.ts:12-56 | NotFound("Post not found") for a missing post and BadRequest for an inactive one, writing nothing; otherwise one active comment by the caller with likes 0 is stored, and the post's `comments_count` goes up by one and `updated_at` becomes now |
| Comments.CreateCommentKeepsCounts | src/modules/post/comment.service.ts:26-43 | creating keeps every post's comment counter equal to its active comments |
| Comments.GetCommentsByPost | src/modules/post/comment.service.ts:61-92 | the paging contract over the post's active comments: the page is exactly the `limit` of them after the first (page−1)·limit, newest first |
| Comments.EveryCommentListed | src/modules/post/comment.service.ts:61-92 | for a positive limit, every stored active comment of the post appears on some page of its comments |
| Comments.UpdateComment | src/modules/post/comment.service.ts:97-128 | NotFound for a missing comment and BadRequest for a non-author, writing nothing; otherwise the comment overlaid with the edit; the edit carries only the editable fields |
| Comments.UpdateCommentAsWritten | src/modules/post/comment.service.ts:97-128 | the same outcomes, but the raw body's post, like counter and status are stored as given; with only editable fields it is Comments.UpdateComment |
| Comments.RawEditBreaksInvariants | src/modules/post/comment.service.ts:109-114 | a comment's author who sends a like counter other than the number of likes breaks the like-count invariant, and one who sends a post that is not stored leaves the comment detached |
| Comments.DeleteCommentAsWritten | src/modules/post/comment.service.ts:133-163 | the delete as written: the soft delete is stored, then the counter update throws, so every author's delete reports BadRequest |
| Comments.DeleteAsWrittenLeavesStaleCount | src/modules/post/comment.service.ts:146-162 | after the delete as written, the comment is marked deleted but the post's counter is unchanged, so the counter no longer matches |
| Comments.DeleteAsWrittenExample | src/modules/post/comment.service.ts:146-162 | a concrete store where the delete as written marks the comment deleted, reports BadRequest and leaves `comments_count` at 1 |
| Comments.DeleteComment | src/modules/post/comment.service.ts:133-163 | NotFound for a missing comment, BadRequest for a non-author; otherwise the comment is marked deleted first and the post's count then drops by one; a missing post keeps the soft delete and reports BadRequest |
| Comments.DeleteCommentKeepsCounts | src/modules/post/comment.service.ts:146-154 | deleting an active comment keeps every post's comment counter equal to its active comments |
| Comments.DeleteTwiceDecrementsTwice | src/modules/post/comment.service.ts:133-154 | the status is not checked, so deleting the same comment twice lowers the counter twice |
| Comments.ToggleCommentLike | src/modules/post/comment.service.ts:168-216 | NotFound for a missing comment and BadRequest for an inactive one; with no like by the caller it adds one, counts +1 and answers true; otherwise it removes that like, sets the count to max(0, c−1) and answers false; a like stores one new record for the caller under a fresh id, an unlike removes exactly one of the caller's likes and no other |
| Comments.ToggleKeepsOneLike | src/modules/post/comment.service.ts:181-208 | a toggle keeps at most one like per (comment, user) |
| Comments.ToggleKeepsLikeCounts | src/modules/post/comment.service.ts:187-208 | a toggle keeps every comment's like counter equal to its likes |
| Comments.LikeStep | src/modules/post/comment.service.ts:187-199 | with no like by the caller, a toggle answers true and adds exactly one like to the comment and one to its counter |
| Comments.UnlikeStep | src/modules/post/comment.service.ts:200-208 | with a like by the caller and a counter in step with the likes, a toggle answers false and takes exactly one like and one count off, so the max(0, …) clamp never bites |
| Comments.UnlikeLeavesNone | src/modules/post/comment.service.ts:181-203 | with one like per user, after an unlike the caller has no like left on the comment |
| Comments.ToggleTwiceRestores | src/modules/post/comment.service.ts:187-208 | two toggles answer opposite values and bring back the number of likes on the comment, its like counter (read as n \|\| 0) and every other field of the comment |
| Supports.SupportPost | src/modules/post/support.service.ts:11-68 | NotFound for a missing post, BadRequest for an inactive post, and BadRequest exactly when a record for (post, user, type) exists; otherwise one anonymous record is stored and the post's `support_count` goes up by one |
| Supports.RemoveSupport | src/modules/post/support.service.ts:73-101 | NotFound exactly when no record matches (post, user, type); otherwise one matching record is deleted and `support_count` drops by one with no floor; a missing post keeps the deletion and reports BadRequest |
| Supports.SupportThenRemoveRestores | src/modules/post/support.service.ts:40-92 | a support followed by its removal restores the support records and the post's counter |
| Supports.SupportKeepsOneSupport | src/modules/post/support.service.ts:29-55 | supporting keeps at most one record per (post, user, type) |
| Supports.SupportKeepsCounts | src/modules/post/support.service.ts:40-55 | supporting keeps every post's support counter equal to its records |
| Supports.RemoveKeepsCounts | src/modules/post/support.service.ts:75-92 | removing keeps every post's support counter equal to its records |
| Supports.GetUserSupportHistory | src/modules/post/support.service.ts:147-177 | the paging contract over the caller's support records: the page is exactly the `limit` of them after the first (page−1)·limit, newest first |
| Supports.EverySupportListed | src/modules/post/support.service.ts:147-177 | for a positive limit, every stored support record of the user appears on some page of their history |
| Supports.GetTrendingSupportTypes | src/modules/post/support.service.ts:250-281 | at most 10 types, by count non-increasing; `total_supports` is the number of records since the cutoff |
| Supports.TrendingCountsAreExact | src/modules/post/support.service.ts:255-270 | each reported type appears once with exactly its count in the window, and the counts shown never exceed the total |
| Supports.TrendingHasTop | src/modules/post/support.service.ts:264-270 | a type left out of the report is no more frequent than any type shown; with at most 10 types, all are shown |
| PostProperties.ApplyAllKeepsInv | src/modules/post/comment.service.ts:187-208 | any sequence of post, comment, like and support operations whose edits carry only the editable fields keeps records attached to their parents, one like per (comment, user), one support per (post, user, type), and the like and support counters in step with their records, so both are never negative |

## Left out

- Firestore I/O, async/await and concurrent execution are not modelled. Read-modify-write counter races and duplicate mood groups under racing callers are therefore not modelled either; every call runs alone.
- Firestore auto-ids are random. The model hands out ids in increasing order, so ties in a sort fall back to ascending id.
- `new Date()` is an integer `now` parameter. `setDate` with daylight saving is taken as whole days of 86400000 ms.
- Scheduling is not modelled: the cron job is an explicit call. Log output is not modelled; the scheduled run returns a log value instead.
- Store failures are modelled only where a partial write is observable: each sweep stage, the support-count update on a missing post, and the comment-count update.
- Cleanup.CleanupGroup treats each stage as all-or-nothing. In the code, each stage deletes documents one by one under `Promise.all` (src/modules/group/group-cleanup.service.ts:60-61 and 71-72), so a failure can leave some of a group's messages or memberships deleted and others not. Either way the group record itself stays, so the invariant that every message and membership has its group is unaffected.
- Cleanup.CleanupExpiredGroups tears groups down in ascending id order. The sweep query filters `expires_at` by range (src/modules/group/group-cleanup.service.ts:23-26), and the store orders such a query by `expires_at` first. When a teardown fails part-way, the groups already removed are therefore an id-ordered prefix in the model but an `expires_at`-ordered prefix in the code.
- The generic "Failed to create post", "Failed to fetch post" and similar wrappers around a failing store are not modelled.
- Groups.ValidMessageBody counts characters. `@MaxLength(100)` (src/modules/group/dto/send-message.dto.ts:10) counts UTF-16 code units, so a message with characters outside the Basic Multilingual Plane is accepted by the model at lengths the code rejects.
- SupportStats.TypeName, SupportStats.Summarise and Supports.GetTrendingSupportTypes count every type as an ordinary key. The code counts into plain objects (src/modules/post/support.service.ts:122-125 and 263, src/modules/post/post.service.ts:257-260), so a type named after an `Object.prototype` member such as "constructor" or "toString" starts from that member and ends as NaN or a string.
- Groups.ExpiryFor takes a whole number of hours. `expires_in_hours` carries no number validator (src/modules/group/dto/create-group.dto.ts:14-15), so the code also accepts fractional or non-numeric values.
- Posts.GetAllPosts, Posts.GetPostsByUser, Posts.GetPostById, Posts.SearchPosts, Comments.GetCommentsByPost and Supports.GetUserSupportHistory return the stored times as they are. The code calls `.toISOString()` on the `created_at` and `updated_at` it reads back (src/modules/post/post.service.ts:66-67, 110, 129-130, 225-226 and 307-308, src/modules/post/comment.service.ts:77, src/modules/post/support.service.ts:162). A timestamp read back from the store has no such method, so in the code every listed record throws and the call fails with its generic error. For Posts.GetPostById the throw at line 129 comes after the `views_count` write at lines 122-124 when the post has no active comments, so the view is counted even though the read fails. The model treats stored times as already converted.
- Group ids are one `Id` type. `JoinGroupDto` declares `group_id` a number (src/modules/group/dto/join-group.dto.ts:5) while the service and the other DTOs use string ids; the model does not distinguish them.
- Case folding is ASCII only. JavaScript's full Unicode `toLowerCase`/`toUpperCase` is not modelled.
- The order of JavaScript object keys is taken to be first-insertion order. The engine's rule that integer-like keys come first is not modelled.
- The edit bodies of `updatePost` and `updateComment` are typed `any` (src/modules/post/post.controller.ts:80 and 114). The global validation pipe (src/main.ts:19-23) therefore neither validates nor whitelists them, and the services spread them into the stored document. Posts.UpdatePost and Comments.UpdateComment take only the editable fields: content, mood, category and tags for a post; content and support type for a comment. Posts.UpdatePostAsWritten and Comments.UpdateCommentAsWritten also take the stored fields that break the invariants (see Findings). Other stored fields such a body could overwrite (the author, the timestamps, the remaining counters, the anonymity flag) are not modelled.
- PostProperties.ApplyAllKeepsInv holds only for runs whose edits carry the editable fields alone. An edit carrying a counter, a post id or a status can break the invariant, as Comments.RawEditBreaksInvariants and PostProperties.RawPostEditBreaksSupportCounts show.
- Default `page` and `limit` values are applied by the caller.
- `parseInt` producing NaN is not modelled.
- Supports.SupportPost: `support_type` is a required string, as the DTO declares. Firestore's refusal of an `undefined` where-value is not modelled, and neither is the "Post data not found" branch, which a stored document cannot reach.
- `getPostsSupportedByUser` lies outside the modelled operations.
- Posts.SearchPosts pins its items down only on page 1, where they are exactly what the scan collected. What the scan collects is described by Posts.ScanIsPrefixMatches (the matches in the prefix it tests, in candidate order) and Posts.SearchFindsAllWhenFew (every match, when there are fewer than `limit`). Later pages are empty (Posts.SearchHasOnePage).
- SupportStats.GetPostSupportStats states the count and bound facts only. The exact per-type counts come from SupportStats.Summarise, which both statistics endpoints share.
- Comments.DeleteCommentKeepsCounts requires the comment to be active. Deleting an already deleted comment decrements again (Comments.DeleteTwiceDecrementsTwice), so the comment-count invariant is not part of PostProperties.Inv.
- Comments.ToggleTwiceRestores restores the number of likes on the comment, the like counter read as (n || 0) and every other field. An unlike followed by a like stores a new like record with a new id and time, and an absent `likes_count` becomes 0.
- `getGroupChat` and `joinGroup` on an expired group: this follows the code, which consults only `is_active`.
- WebSocket gateway, chat (Gemini) service, authentication, guards, controllers, migration scripts and entity decorators are not part of this model.

## Findings

| source | as written | input that shows it | evidently intended | confidence | as-written member | corrected member |
|---|---|---|---|---|---|---|
| src/modules/post/comment.service.ts:152-154 | `admin.firestore.FieldValue.increment(-1)` uses `admin`, which this file never imports, so the counter update throws after the soft delete and the author gets BadRequest("Failed to delete comment") | the store in Comments.DeleteAsWrittenExample: one active post with `comments_count` 1 and its author's one active comment; deleting it marks it deleted, reports BadRequest and leaves the count at 1 | the post's `comments_count` drops by one and the delete succeeds | not executed | Comments.DeleteCommentAsWritten | Comments.DeleteComment |
| src/modules/post/comment.service.ts:109-114 | `updateData` comes from a body typed `any` and is spread into the stored comment, so its author can overwrite `likes_count`, `post_id` or `status` | Comments.RawEditBreaksInvariants: the author of a comment with no likes sends `{"likes_count": -1}`; the stored counter becomes -1 while the comment has 0 likes | an edit changes only the content and the support type, and so keeps the invariant (PostProperties.UpdateCommentKeepsInv) | not executed | Comments.UpdateCommentAsWritten | Comments.UpdateComment |
| src/modules/post/post.service.ts:155-160 | `updateData` comes from a body typed `any` and is spread into the stored post, so its author can overwrite `support_count` or `status`, for instance reviving a deleted post | PostProperties.RawPostEditBreaksSupportCounts: the author of a post with no supports sends `{"support_count": 7}`; the stored counter becomes 7 while the post has 0 supports | an edit changes only the content, mood, category and tags, and so keeps the invariant (PostProperties.UpdatePostKeepsInv) | not executed | Posts.UpdatePostAsWritten | Posts.UpdatePost |

=== FILE: cleanup.dfy ===
/** The expiry sweep: selects the active groups whose expiry has passed and
    tears each one down — its messages, then its memberships, then the
    group record — reporting how many records went. Store failures are a
    parameter: the set of (group, stage) pairs whose delete throws. */
module Cleanup {

  import opened Wrappers
  import opened Store
  import opened Groups
  import GroupProperties

  /** The three store writes of a teardown, in the order they are issued. */
  datatype Stage = DeleteMessages | DeleteMembers | DeleteGroupRecord

  /** `(g, s)` in the set makes stage `s` of group `g`'s teardown throw. */
  type Faults = set<(Id, Stage)>

  datatype Stats = Stats(deletedGroups: nat, deletedMessages: nat, deletedMembers: nat)

  const NoneDeleted := Stats(0, 0, 0)

  function Add(a: Stats, b: Stats): (r: Stats)
    ensures r.deletedGroups == a.deletedGroups + b.deletedGroups
    ensures r.deletedMessages == a.deletedMessages + b.deletedMessages
    ensures r.deletedMembers == a.deletedMembers + b.deletedMembers
  {
    Stats(a.deletedGroups + b.deletedGroups, a.deletedMessages + b.deletedMessages,
          a.deletedMembers + b.deletedMembers)
  }

  // ---------------------------------------------------------------------------
  // Selection
  // ---------------------------------------------------------------------------

  /** `expires_at <= now` and `is_active == true`; a group without an expiry
      has no `expires_at` to compare and never matches. */
  predicate IsExpired(g: Group, now: Millis) {
    g.isActive && g.expiresAt.Some? && g.expiresAt.value <= now
  }

  function ExpiredAt(now: Millis): Group -> bool {
    (g: Group) => IsExpired(g, now)
  }

  function ExpiredGroups(db: GroupDb, now: Millis): seq<Doc<Group>> {
    db.groups.Select(ExpiredAt(now))
  }

  function ExpiredIds(db: GroupDb, now: Millis): (r: seq<Id>)
    ensures |r| == |ExpiredGroups(db, now)|
    ensures forall i :: 0 <= i < |r| ==> r[i] == ExpiredGroups(db, now)[i].id
  {
    var e := ExpiredGroups(db, now);
    seq(|e|, i requires 0 <= i < |e| => e[i].id)
  }

  /** The sweep selects exactly the stored groups that are active and whose
      expiry is at or before `now`; a group without expiry is never selected. */
  lemma SelectsExactlyExpired(db: GroupDb, now: Millis, id: Id)
    requires db.Valid()
    ensures id in ExpiredIds(db, now) <==>
              id in db.groups.rows && db.groups.rows[id].isActive &&
              db.groups.rows[id].expiresAt.Some? && db.groups.rows[id].expiresAt.value <= now
    ensures id in db.groups.rows && db.groups.rows[id].expiresAt.None? ==> id !in ExpiredIds(db, now)
  {
    var e := ExpiredGroups(db, now);
    if id in ExpiredIds(db, now) {
      var i :| 0 <= i < |e| && e[i].id == id;
      SelectSpec(db.groups, ExpiredAt(now), e[i]);
    }
    if id in db.groups.rows && IsExpired(db.groups.rows[id], now) {
      SelectSpec(db.groups, ExpiredAt(now), Doc(id, db.groups.rows[id]));
      var i :| 0 <= i < |e| && e[i] == Doc(id, db.groups.rows[id]);
      assert ExpiredIds(db, now)[i] == id;
    }
  }

  /** Selected ids are distinct. */
  lemma ExpiredIdsDistinct(db: GroupDb, now: Millis)
    ensures Distinct(ExpiredIds(db, now))
  {
    var e := ExpiredGroups(db, now);
    assert IdsAscending(e);
  }

  predicate Distinct(ids: seq<Id>) {
    forall i, j :: 0 <= i < j < |ids| ==> ids[i] != ids[j]
  }

  // ---------------------------------------------------------------------------
  // Tearing down one group
  // ---------------------------------------------------------------------------

  function MessageIn(g: Id): Message -> bool {
    (m: Message) => m.groupId == g
  }

  function MemberIn(g: Id): Member -> bool {
    (m: Member) => m.groupId == g
  }

  /** The messages (any status) whose group is one of `ids`. */
  ghost function MessagesOf(db: GroupDb, ids: seq<Id>): set<Id> {
    set k | k in db.messages.rows && db.messages.rows[k].groupId in ids
  }

  /** The memberships (active or not) whose group is one of `ids`. */
  ghost function MembersOf(db: GroupDb, ids: seq<Id>): set<Id> {
    set k | k in db.members.rows && db.members.rows[k].groupId in ids
  }

  /** `db'` is `db` with some records deleted and nothing added or rewritten. */
  ghost predicate Shrinks(db: GroupDb, db': GroupDb) {
    && db'.groups.next == db.groups.next
    && db'.members.next == db.members.next
    && db'.messages.next == db.messages.next
    && (forall k :: k in db'.groups.rows ==> k in db.groups.rows && db'.groups.rows[k] == db.groups.rows[k])
    && (forall k :: k in db'.members.rows ==> k in db.members.rows && db'.members.rows[k] == db.members.rows[k])
    && (forall k :: k in db'.messages.rows ==> k in db.messages.rows && db'.messages.rows[k] == db.messages.rows[k])
  }

  /** No stage of `g`'s teardown throws. */
  predicate Healthy(g: Id, faults: Faults) {
    (g, DeleteMessages) !in faults && (g, DeleteMembers) !in faults && (g, DeleteGroupRecord) !in faults
  }

  /** `cleanupGroup`: deletes the group's messages, then its memberships, then
      the group record; the first failing stage throws and later stages never run. */
  function CleanupGroup(db: GroupDb, g: Id, faults: Faults): (r: Reply<()>)
    ensures r.result.Ok? <==> Healthy(g, faults)
    ensures r.result.Err? ==> r.result.error.StoreError?
    ensures r.result.Err? && g in db.groups.rows ==> g in r.db.groups.rows
  {
    if (g, DeleteMessages) in faults then
      Reply(db, Err(StoreError("Failed to delete group messages")))
    else
      var db1 := db.(messages := db.messages.DeleteWhere(MessageIn(g)));
      if (g, DeleteMembers) in faults then
        Reply(db1, Err(StoreError("Failed to delete group members")))
      else
        var db2 := db1.(members := db1.members.DeleteWhere(MemberIn(g)));
        if (g, DeleteGroupRecord) in faults then
          Reply(db2, Err(StoreError("Failed to delete group")))
        else
          Reply(db2.(groups := db2.groups.Remove(g)), Ok(()))
  }

  /** What a teardown writes: it only deletes; on success group `g`, every
      message and every membership of `g` are gone; records of other groups
      survive whatever happens; a failure after the message stage has still
      removed all of `g`'s messages. */
  lemma CleanupGroupEffect(db: GroupDb, g: Id, faults: Faults)
    ensures var r := CleanupGroup(db, g, faults);
            && Shrinks(db, r.db)
            && (r.result.Ok? ==> g !in r.db.groups.rows)
            && (r.result.Ok? ==> forall k :: k in r.db.messages.rows ==> r.db.messages.rows[k].groupId != g)
            && (r.result.Ok? ==> forall k :: k in r.db.members.rows ==> r.db.members.rows[k].groupId != g)
            && (forall k :: k in db.groups.rows && k != g ==> k in r.db.groups.rows)
            && (forall k :: k in db.messages.rows && db.messages.rows[k].groupId != g ==> k in r.db.messages.rows)
            && (forall k :: k in db.members.rows && db.members.rows[k].groupId != g ==> k in r.db.members.rows)
            && ((r.result.Err? && (g, DeleteMessages) !in faults) ==>
                  forall k :: k in r.db.messages.rows ==> r.db.messages.rows[k].groupId != g)
  {
  }

  /** `cleanupGroupWithStats`: the same teardown, reporting the sizes of the
      two child queries it ran before deleting. */
  function CleanupGroupWithStats(db: GroupDb, g: Id, faults: Faults): (r: Reply<Stats>)
    ensures r.db == CleanupGroup(db, g, faults).db
    ensures r.result.Ok? <==> CleanupGroup(db, g, faults).result.Ok?
    ensures r.result.Err? ==> r.result.error == CleanupGroup(db, g, faults).result.error
    ensures r.result.Ok? ==> r.result.value.deletedGroups == 1
  {
    var c := CleanupGroup(db, g, faults);
    if c.result.Err? then Reply(c.db, Err(c.result.error))
    else Reply(c.db, Ok(Stats(1, |db.messages.Select(MessageIn(g))|, |db.members.Select(MemberIn(g))|)))
  }

  /** The reported counts are exactly the records of that group that the
      teardown removed. */
  lemma CleanupGroupCounts(db: GroupDb, g: Id, faults: Faults)
    requires db.Valid()
    ensures var r := CleanupGroupWithStats(db, g, faults);
            r.result.Ok? ==>
              && r.result.value.deletedMessages == |MessagesOf(db, [g])|
              && r.result.value.deletedMembers == |MembersOf(db, [g])|
              && r.db.messages.rows.Keys == db.messages.rows.Keys - MessagesOf(db, [g])
              && r.db.members.rows.Keys == db.members.rows.Keys - MembersOf(db, [g])
  {
    SelectCountIsMatchCount(db.messages, MessageIn(g));
    SelectCountIsMatchCount(db.members, MemberIn(g));
    assert db.messages.MatchIds(MessageIn(g)) == MessagesOf(db, [g]);
    assert db.members.MatchIds(MemberIn(g)) == MembersOf(db, [g]);
  }

  /** Deleting only records keeps every group invariant, as long as no
      child is left without its group. */
  lemma ShrinkKeepsInv(db: GroupDb, db': GroupDb)
    requires GroupProperties.Inv(db) && Shrinks(db, db') && GroupProperties.NoOrphans(db')
    ensures GroupProperties.Inv(db')
  {
  }

  /** Whichever stage fails, no message or membership is left without its
      group record: children go first and the group last. */
  lemma CleanupGroupKeepsInv(db: GroupDb, g: Id, faults: Faults)
    requires GroupProperties.Inv(db)
    ensures GroupProperties.Inv(CleanupGroup(db, g, faults).db)
  {
    var r := CleanupGroup(db, g, faults);
    CleanupGroupEffect(db, g, faults);
    ShrinkKeepsInv(db, r.db);
  }

  // ---------------------------------------------------------------------------
  // The sweep
  // ---------------------------------------------------------------------------

  /** Tears the groups down one after the other; the first failure aborts the
      rest of the batch and carries the writes made so far. */
  function Sweep(db: GroupDb, ids: seq<Id>, faults: Faults): (r: Reply<Stats>)
    ensures r.result.Ok? <==> forall i :: 0 <= i < |ids| ==> Healthy(ids[i], faults)
    ensures r.result.Ok? ==> r.result.value.deletedGroups == |ids|
    decreases |ids|
  {
    if |ids| == 0 then Reply(db, Ok(NoneDeleted))
    else
      var c := CleanupGroupWithStats(db, ids[0], faults);
      if c.result.Err? then Reply(c.db, Err(c.result.error))
      else
        var rest := Sweep(c.db, ids[1..], faults);
        assert forall i :: 1 <= i < |ids| ==> ids[i] == ids[1..][i - 1];
        Reply(rest.db, if rest.result.Err? then rest.result else Ok(Add(c.result.value, rest.result.value)))
  }

  /** On success every selected group is gone together with all its messages
      and memberships, and every other record is still there. */
  lemma {:induction false} SweepRemovesExactly(db: GroupDb, ids: seq<Id>, faults: Faults)
    ensures var r := Sweep(db, ids, faults);
            r.result.Ok? ==>
              && (forall k :: k in r.db.groups.rows <==> k in db.groups.rows && k !in ids)
              && (forall k :: k in r.db.messages.rows <==> k in db.messages.rows && db.messages.rows[k].groupId !in ids)
              && (forall k :: k in r.db.members.rows <==> k in db.members.rows && db.members.rows[k].groupId !in ids)
    decreases |ids|
  {
    if |ids| > 0 {
      var c := CleanupGroupWithStats(db, ids[0], faults);
      CleanupGroupEffect(db, ids[0], faults);
      if c.result.Ok? {
        SweepRemovesExactly(c.db, ids[1..], faults);
        assert forall x :: x in ids <==> x == ids[0] || x in ids[1..];
      }
    }
  }

  /** A sweep, complete or aborted, only deletes. */
  lemma {:induction false} SweepShrinks(db: GroupDb, ids: seq<Id>, faults: Faults)
    ensures Shrinks(db, Sweep(db, ids, faults).db)
    decreases |ids|
  {
    if |ids| > 0 {
      var c := CleanupGroupWithStats(db, ids[0], faults);
      CleanupGroupEffect(db, ids[0], faults);
      if c.result.Ok? {
        SweepShrinks(c.db, ids[1..], faults);
      }
    }
  }

  /** Every partial or complete sweep keeps the group invariants. */
  lemma {:induction false} SweepKeepsInv(db: GroupDb, ids: seq<Id>, faults: Faults)
    requires GroupProperties.Inv(db)
    ensures GroupProperties.Inv(Sweep(db, ids, faults).db)
    decreases |ids|
  {
    if |ids| > 0 {
      CleanupGroupKeepsInv(db, ids[0], faults);
      var c := CleanupGroupWithStats(db, ids[0], faults);
      if c.result.Ok? {
        SweepKeepsInv(c.db, ids[1..], faults);
      }
    }
  }

  /** The totals are the numbers of records that carried one of the ids. */
  lemma {:induction false} SweepCounts(db: GroupDb, ids: seq<Id>, faults: Faults)
    requires db.Valid() && Distinct(ids)
    ensures var r := Sweep(db, ids, faults);
            r.result.Ok? ==>
              && r.result.value.deletedMessages == |MessagesOf(db, ids)|
              && r.result.value.deletedMembers == |MembersOf(db, ids)|
    decreases |ids|
  {
    if |ids| > 0 {
      var g := ids[0];
      var rest := ids[1..];
      var c := CleanupGroupWithStats(db, g, faults);
      if c.result.Ok? {
        DistinctTail(ids);
        TeardownCounts(db, g, rest, faults);
        SweepCounts(c.db, rest, faults);
        SweepStep(db, ids, faults);
        assert ids == [g] + rest;
        ChildrenSplit(db, g, rest);
      }
    }
  }

  /** One successful teardown: its counts are the group's children, and the
      children of the groups still to come are left as they were. */
  lemma TeardownCounts(db: GroupDb, g: Id, rest: seq<Id>, faults: Faults)
    requires db.Valid() && g !in rest && CleanupGroupWithStats(db, g, faults).result.Ok?
    ensures var c := CleanupGroupWithStats(db, g, faults);
            && c.db.Valid()
            && c.result.value.deletedMessages == |MessagesOf(db, [g])|
            && c.result.value.deletedMembers == |MembersOf(db, [g])|
            && MessagesOf(c.db, rest) == MessagesOf(db, rest)
            && MembersOf(c.db, rest) == MembersOf(db, rest)
  {
    var c := CleanupGroupWithStats(db, g, faults);
    CleanupGroupCounts(db, g, faults);
    CleanupGroupEffect(db, g, faults);
    ChildrenOfOthersKept(db, c.db, g, rest);
  }

  /** Tearing down `g` does not touch the children of groups other than `g`. */
  lemma ChildrenOfOthersKept(db: GroupDb, db1: GroupDb, g: Id, rest: seq<Id>)
    requires g !in rest && Shrinks(db, db1)
    requires db1.messages.rows.Keys == db.messages.rows.Keys - MessagesOf(db, [g])
    requires db1.members.rows.Keys == db.members.rows.Keys - MembersOf(db, [g])
    ensures MessagesOf(db1, rest) == MessagesOf(db, rest)
    ensures MembersOf(db1, rest) == MembersOf(db, rest)
  {
  }

  /** The children of `[g] + rest` split into those of `g` and those of `rest`. */
  lemma ChildrenSplit(db: GroupDb, g: Id, rest: seq<Id>)
    requires g !in rest
    ensures |MessagesOf(db, [g] + rest)| == |MessagesOf(db, [g])| + |MessagesOf(db, rest)|
    ensures |MembersOf(db, [g] + rest)| == |MembersOf(db, [g])| + |MembersOf(db, rest)|
  {
    assert forall x :: x in [g] + rest <==> x == g || x in rest;
    assert MessagesOf(db, [g] + rest) == MessagesOf(db, [g]) + MessagesOf(db, rest);
    assert MessagesOf(db, [g]) !! MessagesOf(db, rest);
    assert MembersOf(db, [g] + rest) == MembersOf(db, [g]) + MembersOf(db, rest);
    assert MembersOf(db, [g]) !! MembersOf(db, rest);
  }

  /** One step of the sweep, unfolded. */
  lemma SweepStep(db: GroupDb, ids: seq<Id>, faults: Faults)
    requires |ids| > 0
    ensures var c := CleanupGroupWithStats(db, ids[0], faults);
            && (c.result.Ok? ==> Sweep(db, ids, faults) == Continue(c.result.value, Sweep(c.db, ids[1..], faults)))
            && (c.result.Err? ==> Sweep(db, ids, faults) == Reply(c.db, Err(c.result.error)))
  {
  }

  lemma ContinueAdd(a: Stats, b: Stats, rest: Reply<Stats>)
    ensures Continue(a, Continue(b, rest)) == Continue(Add(a, b), rest)
  {
  }

  lemma ContinueNone(rest: Reply<Stats>)
    ensures Continue(NoneDeleted, rest) == rest
  {
  }

  lemma AddNone(a: Stats)
    ensures Add(a, NoneDeleted) == a
  {
  }

  lemma DistinctTail(ids: seq<Id>)
    requires |ids| > 0 && Distinct(ids)
    ensures Distinct(ids[1..]) && ids[0] !in ids[1..]
  {
    assert forall i :: 0 <= i < |ids| - 1 ==> ids[1..][i] == ids[i + 1];
  }

  /** `Stats` of the prefix already processed, combined with what the rest
      of the batch reports. */
  function Continue(done: Stats, rest: Reply<Stats>): Reply<Stats> {
    Reply(rest.db, if rest.result.Err? then rest.result else Ok(Add(done, rest.result.value)))
  }

  /** One iteration of the batch loop preserves what the whole batch returns. */
  lemma LoopStep(total: Stats, cur: GroupDb, ids: seq<Id>, faults: Faults)
    requires |ids| > 0
    ensures var c := CleanupGroupWithStats(cur, ids[0], faults);
            && (c.result.Ok? ==>
                  Continue(total, Sweep(cur, ids, faults)) == Continue(Add(total, c.result.value), Sweep(c.db, ids[1..], faults)))
            && (c.result.Err? ==> Continue(total, Sweep(cur, ids, faults)) == Reply(c.db, Err(c.result.error)))
  {
    var c := CleanupGroupWithStats(cur, ids[0], faults);
    SweepStep(cur, ids, faults);
    if c.result.Ok? {
      ContinueAdd(total, c.result.value, Sweep(c.db, ids[1..], faults));
    }
  }

  /** The batch loop: tears the groups down in order, adding up the per-group
      counts, and stops at the first failure. */
  method SweepLoop(db: GroupDb, ids: seq<Id>, faults: Faults) returns (r: Reply<Stats>)
    ensures r == Sweep(db, ids, faults)
  {
    var cur := db;
    var total := NoneDeleted;
    var rest := ids;
    ContinueNone(Sweep(db, ids, faults));
    while |rest| > 0
      invariant Sweep(db, ids, faults) == Continue(total, Sweep(cur, rest, faults))
    {
      var c := CleanupGroupWithStats(cur, rest[0], faults);
      LoopStep(total, cur, rest, faults);
      if c.result.Err? {
        return Reply(c.db, Err(c.result.error));
      }
      total := Add(total, c.result.value);
      cur := c.db;
      rest := rest[1..];
    }
    AddNone(total);
    r := Reply(cur, Ok(total));
  }

  /** `manualCleanup`: selects the expired groups once, tears them down in
      order and sums the per-group counts; a failure aborts and is rethrown. */
  method ManualCleanup(db: GroupDb, now: Millis, faults: Faults) returns (r: Reply<Stats>)
    ensures r == Sweep(db, ExpiredIds(db, now), faults)
    ensures |ExpiredIds(db, now)| == 0 ==> r == Reply(db, Ok(NoneDeleted))
    ensures r.result.Ok? ==> r.result.value.deletedGroups == |ExpiredIds(db, now)|
    ensures r.result.Ok? && db.Valid() ==>
              && r.result.value.deletedMessages == |MessagesOf(db, ExpiredIds(db, now))|
              && r.result.value.deletedMembers == |MembersOf(db, ExpiredIds(db, now))|
  {
    var ids := ExpiredIds(db, now);
    ExpiredIdsDistinct(db, now);
    if db.Valid() {
      SweepCounts(db, ids, faults);
    }
    if |ids| == 0 {
      return Reply(db, Ok(NoneDeleted));
    }
    r := SweepLoop(db, ids, faults);
  }

  /** What the scheduled run logs; it never rethrows. */
  datatype SweepLog = NothingExpired | Completed(found: nat) | Failed(found: nat, error: Error)

  /** `cleanupExpiredGroups`: the scheduled sweep. An empty selection writes
      nothing; a failure is logged, keeps the writes made before it, and is
      not propagated. */
  function CleanupExpiredGroups(db: GroupDb, now: Millis, faults: Faults): (r: (GroupDb, SweepLog))
    ensures r.1.NothingExpired? <==> |ExpiredIds(db, now)| == 0
    ensures r.1.NothingExpired? ==> r.0 == db
    ensures r.0 == Sweep(db, ExpiredIds(db, now), faults).db
    ensures r.1.Completed? ==> r.1.found == |ExpiredIds(db, now)| > 0
    ensures r.1.Failed? ==> r.1.error.StoreError?
    ensures r.1.Completed? <==>
              |ExpiredIds(db, now)| > 0 &&
              forall i :: 0 <= i < |ExpiredIds(db, now)| ==> Healthy(ExpiredIds(db, now)[i], faults)
  {
    var ids := ExpiredIds(db, now);
    if |ids| == 0 then (db, NothingExpired)
    else
      var s := Sweep(db, ids, faults);
      SweepErrorIsStoreError(db, ids, faults);
      (s.db, if s.result.Ok? then Completed(|ids|) else Failed(|ids|, s.result.error))
  }

  lemma {:induction false} SweepErrorIsStoreError(db: GroupDb, ids: seq<Id>, faults: Faults)
    ensures var r := Sweep(db, ids, faults); r.result.Err? ==> r.result.error.StoreError?
    decreases |ids|
  {
    if |ids| > 0 {
      var c := CleanupGroupWithStats(db, ids[0], faults);
      if c.result.Ok? {
        SweepErrorIsStoreError(c.db, ids[1..], faults);
      }
    }
  }

  /** A completed sweep leaves nothing expired at the same `now`: a second
      run finds nothing and writes nothing, whatever the store would do. */
  lemma SweepIsIdempotent(db: GroupDb, now: Millis, faults1: Faults, faults2: Faults)
    requires db.Valid()
    ensures var (db1, log) := CleanupExpiredGroups(db, now, faults1);
            !log.Failed? ==> CleanupExpiredGroups(db1, now, faults2) == (db1, NothingExpired)
  {
    var ids := ExpiredIds(db, now);
    var (db1, log) := CleanupExpiredGroups(db, now, faults1);
    if log.Completed? {
      SweepRemovesExactly(db, ids, faults1);
      SweepShrinks(db, ids, faults1);
      forall k | k in db1.groups.rows ensures !IsExpired(db1.groups.rows[k], now) {
        SelectsExactlyExpired(db, now, k);
      }
      assert db1.groups.MatchIds(ExpiredAt(now)) == {};
      SelectCountIsMatchCount(db1.groups, ExpiredAt(now));
    }
  }

  // ---------------------------------------------------------------------------
  // Summary
  // ---------------------------------------------------------------------------

  datatype CleanupStats = CleanupStats(totalGroups: nat, expiredGroups: nat, activeGroups: nat)

  /** `getCleanupStats`: the sizes of three queries over the groups. */
  function GetCleanupStats(db: GroupDb, now: Millis): (r: CleanupStats)
    ensures r.expiredGroups <= r.activeGroups
    ensures db.Valid() ==> r.activeGroups <= r.totalGroups
    ensures db.Valid() ==> r.totalGroups == |db.groups.rows|
    ensures r.expiredGroups == |ExpiredIds(db, now)|
    ensures db.Valid() ==> r.activeGroups == |db.groups.MatchIds(IsActiveGroup)|
  {
    var all := db.groups.Select((g: Group) => true);
    var expired := ExpiredGroups(db, now);
    var active := db.groups.Select(IsActiveGroup);
    SelectBelowMono(db.groups, db.groups.next, ExpiredAt(now), IsActiveGroup);
    SelectBelowMono(db.groups, db.groups.next, IsActiveGroup, (g: Group) => true);
    if db.Valid() then
      SelectAllCount(db.groups, (g: Group) => true);
      SelectCountIsMatchCount(db.groups, IsActiveGroup);
      CleanupStats(|all|, |expired|, |active|)
    else
      CleanupStats(|all|, |expired|, |active|)
  }
}

=== FILE: comments.dfy ===
/** `CommentService`: comments on posts, their edits and soft deletion, and
    one like per user per comment. A post's `comments_count` is meant to
    count its active comments; a comment's `likes_count` counts its likes. */
module Comments {

  import opened Wrappers
  import opened Store
  import opened PostStore

  /** The body of a create-comment request. */
  datatype CommentRequest = CommentRequest(content: string, supportType: Option<string>)

  /** The fields an edit may carry; `None` leaves the field as it is. */
  datatype CommentPatch = CommentPatch(content: Option<string>, supportType: Option<string>)

  // ---------------------------------------------------------------------------
  // Invariants the counters are meant to keep
  // ---------------------------------------------------------------------------

  /** Every post's comment counter equals the number of its active comments. */
  ghost predicate CommentCountsMatch(db: PostDb) {
    forall p :: p in db.posts.rows ==>
      OrZero(db.posts.rows[p].commentsCount) == |db.comments.MatchIds(ActiveCommentOn(p))|
  }

  /** Every comment belongs to a stored post. */
  ghost predicate CommentsAttached(db: PostDb) {
    forall c :: c in db.comments.rows ==> db.comments.rows[c].postId in db.posts.rows
  }

  function LikesOn(commentId: Id): Like -> bool {
    (l: Like) => l.commentId == commentId
  }

  function LikeBy(commentId: Id, userId: UserId): Like -> bool {
    (l: Like) => l.commentId == commentId && l.userId == userId
  }

  /** A user likes a comment at most once. */
  ghost predicate OneLikePerUser(db: PostDb) {
    forall i, j ::
      (&& i in db.likes.rows && j in db.likes.rows
       && db.likes.rows[i].commentId == db.likes.rows[j].commentId
       && db.likes.rows[i].userId == db.likes.rows[j].userId) ==> i == j
  }

  /** Every comment's like counter equals the number of its likes. */
  ghost predicate LikeCountsMatch(db: PostDb) {
    forall c :: c in db.comments.rows ==>
      OrZero(db.comments.rows[c].likesCount) == |db.likes.MatchIds(LikesOn(c))|
  }

  /** Every like belongs to a stored comment. */
  ghost predicate LikesAttached(db: PostDb) {
    forall l :: l in db.likes.rows ==> db.likes.rows[l].commentId in db.comments.rows
  }

  // ---------------------------------------------------------------------------
  // Operations
  // ---------------------------------------------------------------------------

  /** `createComment`: the post must exist and be active; the comment is
      stored active, anonymous and unliked, and the post's comment counter
      goes up by one. */
  function CreateComment(db: PostDb, userId: UserId, postId: Id, req: CommentRequest, now: Millis): (r: Reply<Doc<Comment>>)
    ensures r.result.Err? <==> postId !in db.posts.rows || db.posts.rows[postId].status != Active
    ensures postId !in db.posts.rows ==> r.result == Err(NotFound("Post not found"))
    ensures postId in db.posts.rows && db.posts.rows[postId].status != Active ==>
              r.result == Err(BadRequest("Cannot comment on inactive post"))
    ensures r.result.Err? ==> r.db == db
    ensures r.db.posts.rows.Keys == db.posts.rows.Keys
    ensures r.result.Ok? ==>
              var c := r.result.value;
              && c.data.postId == postId && c.data.authorId == userId
              && c.data.content == req.content && c.data.supportType == req.supportType
              && c.data.createdAt == now && c.data.updatedAt == now
              && c.data.likesCount == Some(0) && c.data.isAnonymous && c.data.status == Active
              && r.db.comments.rows == db.comments.rows[c.id := c.data]
              && (db.Valid() ==> c.id !in db.comments.rows)
    ensures r.result.Ok? ==>
              var before := db.posts.rows[postId];
              var after := r.db.posts.rows[postId];
              && OrZero(after.commentsCount) == OrZero(before.commentsCount) + 1
              && after.updatedAt == now
              && after.(commentsCount := before.commentsCount, updatedAt := before.updatedAt) == before
    ensures forall k :: k in db.posts.rows && k != postId ==> r.db.posts.rows[k] == db.posts.rows[k]
    ensures r.db.likes == db.likes && r.db.supports == db.supports
    ensures db.Valid() ==> r.db.Valid()
  {
    if postId !in db.posts.rows then Reply(db, Err(NotFound("Post not found")))
    else
      var post := db.posts.rows[postId];
      if post.status != Active then Reply(db, Err(BadRequest("Cannot comment on inactive post")))
      else
        var comment := Comment(postId, userId, req.content, req.supportType, now, now, Some(0), true, Active);
        var (comments, id) := db.comments.Insert(comment);
        var counted := post.(commentsCount := Some(OrZero(post.commentsCount) + 1), updatedAt := now);
        Reply(PostDb(db.posts.Put(postId, counted), comments, db.likes, db.supports), Ok(Doc(id, comment)))
  }

  /** `getCommentsByPost`: the post's active comments, newest first, one page. */
  function GetCommentsByPost(db: PostDb, postId: Id, page: int, limit: int): (r: Result<Listing<Doc<Comment>>>)
    ensures r.Err? <==> limit < 0 || (limit > 0 && page < 1)
    ensures r.Err? ==> r.error == BadRequest("Failed to fetch comments")
    ensures r.Ok? ==> forall i :: 0 <= i < |r.value.items| ==>
              var d := r.value.items[i];
              d.id in db.comments.rows && db.comments.rows[d.id] == d.data
              && d.data.postId == postId && d.data.status == Active
    ensures r.Ok? ==> NonIncreasing(r.value.items, DocKey(CreatedAtOfComment))
    ensures r.Ok? ==> (r.value.hasMore <==> |r.value.items| == limit)
    ensures r.Ok? ==> (page - 1) * limit >= 0
    ensures r.Ok? ==> r.value.items == Window(SelectDesc(db.comments, ActiveCommentOn(postId), CreatedAtOfComment), (page - 1) * limit, limit)
  {
    ListNewest(db.comments, ActiveCommentOn(postId), CreatedAtOfComment, page, limit, "Failed to fetch comments")
  }

  /** Every active comment of the post is on some page of its comments. */
  lemma EveryCommentListed(db: PostDb, postId: Id, limit: int, k: Id)
    requires db.Valid() && limit > 0 && k in db.comments.rows
    requires db.comments.rows[k].postId == postId && db.comments.rows[k].status == Active
    ensures exists page :: page >= 1
              && GetCommentsByPost(db, postId, page, limit).Ok?
              && Doc(k, db.comments.rows[k]) in GetCommentsByPost(db, postId, page, limit).value.items
  {
    var f := ActiveCommentOn(postId);
    EveryHitOnSomePage(db.comments, f, CreatedAtOfComment, limit, "Failed to fetch comments", k);
    var page :| page >= 1
      && ListNewest(db.comments, f, CreatedAtOfComment, page, limit, "Failed to fetch comments").Ok?
      && Doc(k, db.comments.rows[k]) in ListNewest(db.comments, f, CreatedAtOfComment, page, limit, "Failed to fetch comments").value.items;
    assert GetCommentsByPost(db, postId, page, limit) == ListNewest(db.comments, f, CreatedAtOfComment, page, limit, "Failed to fetch comments");
  }

  /** `{ ...commentData, ...updateData, updated_at: now }`. */
  function OverlayComment(c: Comment, patch: CommentPatch, now: Millis): (r: Comment)
    ensures r.content == (if patch.content.Some? then patch.content.value else c.content)
    ensures patch.supportType.Some? ==> r.supportType == patch.supportType
    ensures patch.supportType.None? ==> r.supportType == c.supportType
    ensures r.updatedAt == now
    ensures r.(content := c.content, supportType := c.supportType, updatedAt := c.updatedAt) == c
  {
    c.(content := if patch.content.Some? then patch.content.value else c.content,
       supportType := if patch.supportType.Some? then patch.supportType else c.supportType,
       updatedAt := now)
  }

  /** `updateComment`: only the author may edit. */
  function UpdateComment(db: PostDb, commentId: Id, userId: UserId, patch: CommentPatch, now: Millis): (r: Reply<Doc<Comment>>)
    ensures r.result.Err? <==> commentId !in db.comments.rows || db.comments.rows[commentId].authorId != userId
    ensures commentId !in db.comments.rows ==> r.result == Err(NotFound("Comment not found"))
    ensures commentId in db.comments.rows && db.comments.rows[commentId].authorId != userId ==>
              r.result == Err(BadRequest("You can only edit your own comments"))
    ensures r.result.Err? ==> r.db == db
    ensures r.db.comments.rows.Keys == db.comments.rows.Keys
    ensures r.result.Ok? ==>
              && r.result.value.id == commentId
              && r.db.comments.rows[commentId] == r.result.value.data
              && r.result.value.data == OverlayComment(db.comments.rows[commentId], patch, now)
    ensures forall k :: k in db.comments.rows && k != commentId ==> r.db.comments.rows[k] == db.comments.rows[k]
    ensures r.db.posts == db.posts && r.db.likes == db.likes && r.db.supports == db.supports
    ensures db.Valid() ==> r.db.Valid()
  {
    if commentId !in db.comments.rows then Reply(db, Err(NotFound("Comment not found")))
    else
      var c := db.comments.rows[commentId];
      if c.authorId != userId then Reply(db, Err(BadRequest("You can only edit your own comments")))
      else
        var updated := OverlayComment(c, patch, now);
        Reply(db.(comments := db.comments.Put(commentId, updated)), Ok(Doc(commentId, updated)))
  }

  /** The body `updateComment` actually receives. Its route parameter is
      typed `any`, so no validation or whitelisting applies and the body may
      carry stored fields besides the editable ones; the spread writes them
      as given. Of those, the post, the like counter and the status are
      modelled. */
  datatype RawCommentPatch = RawCommentPatch(
    fields: CommentPatch,
    postId: Option<Id>,
    likesCount: Option<int>,
    status: Option<Status>)

  /** A raw edit that carries only editable fields. */
  predicate EditableOnly(patch: RawCommentPatch) {
    patch.postId.None? && patch.likesCount.None? && patch.status.None?
  }

  /** `{ ...commentData, ...updateData, updated_at: now }` for a raw body. */
  function OverlayCommentRaw(c: Comment, patch: RawCommentPatch, now: Millis): (r: Comment)
    ensures patch.postId.Some? ==> r.postId == patch.postId.value
    ensures patch.likesCount.Some? ==> r.likesCount == patch.likesCount
    ensures patch.status.Some? ==> r.status == patch.status.value
    ensures r.(postId := c.postId, likesCount := c.likesCount, status := c.status) == OverlayComment(c, patch.fields, now)
  {
    var o := OverlayComment(c, patch.fields, now);
    o.(postId := if patch.postId.Some? then patch.postId.value else o.postId,
       likesCount := if patch.likesCount.Some? then patch.likesCount else o.likesCount,
       status := if patch.status.Some? then patch.status.value else o.status)
  }

  /** `updateComment` as written: the same checks as Comments.UpdateComment,
      but the raw body is stored, stored fields included. */
  function UpdateCommentAsWritten(db: PostDb, commentId: Id, userId: UserId, patch: RawCommentPatch, now: Millis): (r: Reply<Doc<Comment>>)
    ensures r.result.Err? <==> commentId !in db.comments.rows || db.comments.rows[commentId].authorId != userId
    ensures r.result.Err? ==> r.db == db
    ensures r.db.comments.rows.Keys == db.comments.rows.Keys
    ensures r.result.Ok? ==>
              && r.result.value.id == commentId
              && r.db.comments.rows[commentId] == r.result.value.data
              && r.result.value.data == OverlayCommentRaw(db.comments.rows[commentId], patch, now)
    ensures EditableOnly(patch) ==> r == UpdateComment(db, commentId, userId, patch.fields, now)
    ensures forall k :: k in db.comments.rows && k != commentId ==> r.db.comments.rows[k] == db.comments.rows[k]
    ensures r.db.posts == db.posts && r.db.likes == db.likes && r.db.supports == db.supports
  {
    if commentId !in db.comments.rows then Reply(db, Err(NotFound("Comment not found")))
    else
      var c := db.comments.rows[commentId];
      if c.authorId != userId then Reply(db, Err(BadRequest("You can only edit your own comments")))
      else
        var updated := OverlayCommentRaw(c, patch, now);
        Reply(db.(comments := db.comments.Put(commentId, updated)), Ok(Doc(commentId, updated)))
  }

  /** The author of a comment can break the like and attachment invariants
      through the edit route: a like counter other than the number of likes,
      or a post that is not stored, is written as given. */
  lemma RawEditBreaksInvariants(db: PostDb, commentId: Id, userId: UserId, patch: RawCommentPatch, now: Millis)
    requires commentId in db.comments.rows && db.comments.rows[commentId].authorId == userId
    ensures var db' := UpdateCommentAsWritten(db, commentId, userId, patch, now).db;
            patch.likesCount.Some? && OrZero(patch.likesCount) != |db.likes.MatchIds(LikesOn(commentId))| ==>
              !LikeCountsMatch(db')
    ensures var db' := UpdateCommentAsWritten(db, commentId, userId, patch, now).db;
            patch.postId.Some? && patch.postId.value !in db.posts.rows ==> !CommentsAttached(db')
  {
    var db' := UpdateCommentAsWritten(db, commentId, userId, patch, now).db;
    assert commentId in db'.comments.rows;
    assert db'.likes == db.likes;
  }

  /** The soft delete both versions of `deleteComment` start with. */
  function SoftDelete(db: PostDb, commentId: Id, now: Millis): (r: PostDb)
    requires commentId in db.comments.rows
    ensures r.comments.rows.Keys == db.comments.rows.Keys
    ensures r.comments.rows[commentId].status == Deleted && r.comments.rows[commentId].updatedAt == now
    ensures r.comments.rows[commentId].(status := db.comments.rows[commentId].status,
                                        updatedAt := db.comments.rows[commentId].updatedAt)
            == db.comments.rows[commentId]
    ensures forall k :: k in db.comments.rows && k != commentId ==> r.comments.rows[k] == db.comments.rows[k]
    ensures r.posts == db.posts && r.likes == db.likes && r.supports == db.supports
    ensures db.Valid() ==> r.Valid()
  {
    var c := db.comments.rows[commentId];
    db.(comments := db.comments.Put(commentId, c.(status := Deleted, updatedAt := now)))
  }

  /** `deleteComment` as written: the counter update names `admin`, which the
      file never imports, so after the soft delete the call throws a
      ReferenceError that surfaces as "Failed to delete comment". */
  function DeleteCommentAsWritten(db: PostDb, commentId: Id, userId: UserId, now: Millis): (r: Reply<()>)
    ensures r.result.Err?
    ensures commentId !in db.comments.rows ==> r.result == Err(NotFound("Comment not found")) && r.db == db
    ensures commentId in db.comments.rows && db.comments.rows[commentId].authorId != userId ==>
              r.result == Err(BadRequest("You can only delete your own comments")) && r.db == db
    ensures commentId in db.comments.rows && db.comments.rows[commentId].authorId == userId ==>
              && r.result == Err(BadRequest("Failed to delete comment"))
              && r.db == SoftDelete(db, commentId, now)
  {
    if commentId !in db.comments.rows then Reply(db, Err(NotFound("Comment not found")))
    else
      var c := db.comments.rows[commentId];
      if c.authorId != userId then Reply(db, Err(BadRequest("You can only delete your own comments")))
      else Reply(SoftDelete(db, commentId, now), Err(BadRequest("Failed to delete comment")))
  }

  /** `deleteComment` with the counter update it evidently intends: the soft
      delete, then `comments_count` decremented on the comment's post. A
      missing post makes the update throw after the soft delete. */
  function DeleteComment(db: PostDb, commentId: Id, userId: UserId, now: Millis): (r: Reply<()>)
    ensures r.result.Ok? <==>
              && commentId in db.comments.rows && db.comments.rows[commentId].authorId == userId
              && db.comments.rows[commentId].postId in db.posts.rows
    ensures commentId !in db.comments.rows ==> r.result == Err(NotFound("Comment not found")) && r.db == db
    ensures commentId in db.comments.rows && db.comments.rows[commentId].authorId != userId ==>
              r.result == Err(BadRequest("You can only delete your own comments")) && r.db == db
    ensures commentId in db.comments.rows && db.comments.rows[commentId].authorId == userId ==>
              var soft := SoftDelete(db, commentId, now);
              var postId := db.comments.rows[commentId].postId;
              if postId in db.posts.rows then
                && r.db.comments == soft.comments && r.db.likes == db.likes && r.db.supports == db.supports
                && r.db.posts.rows.Keys == db.posts.rows.Keys
                && OrZero(r.db.posts.rows[postId].commentsCount) == OrZero(db.posts.rows[postId].commentsCount) - 1
                && r.db.posts.rows[postId].(commentsCount := db.posts.rows[postId].commentsCount) == db.posts.rows[postId]
                && forall k :: k in db.posts.rows && k != postId ==> r.db.posts.rows[k] == db.posts.rows[k]
              else
                r.db == soft && r.result == Err(BadRequest("Failed to delete comment"))
    ensures db.Valid() ==> r.db.Valid()
  {
    if commentId !in db.comments.rows then Reply(db, Err(NotFound("Comment not found")))
    else
      var c := db.comments.rows[commentId];
      if c.authorId != userId then Reply(db, Err(BadRequest("You can only delete your own comments")))
      else
        var soft := SoftDelete(db, commentId, now);
        if c.postId !in soft.posts.rows then Reply(soft, Err(BadRequest("Failed to delete comment")))
        else
          var post := soft.posts.rows[c.postId];
          var counted := post.(commentsCount := Some(OrZero(post.commentsCount) - 1));
          Reply(soft.(posts := soft.posts.Put(c.postId, counted)), Ok(()))
  }

  /** `toggleCommentLike`: on an active comment, adds the user's like when
      there is none (answering true) and otherwise removes the first one
      (answering false), moving the like counter with it, never below zero. */
  function ToggleCommentLike(db: PostDb, commentId: Id, userId: UserId, now: Millis): (r: Reply<bool>)
    ensures r.result.Err? <==> commentId !in db.comments.rows || db.comments.rows[commentId].status != Active
    ensures commentId !in db.comments.rows ==> r.result == Err(NotFound("Comment not found"))
    ensures commentId in db.comments.rows && db.comments.rows[commentId].status != Active ==>
              r.result == Err(BadRequest("Cannot like inactive comment"))
    ensures r.result.Err? ==> r.db == db
    ensures r.db.comments.rows.Keys == db.comments.rows.Keys
    ensures r.result.Ok? ==>
              var before := db.comments.rows[commentId];
              var after := r.db.comments.rows[commentId];
              && after.(likesCount := before.likesCount) == before
              && OrZero(after.likesCount)
                 == if r.result.value then OrZero(before.likesCount) + 1
                    else if OrZero(before.likesCount) - 1 < 0 then 0 else OrZero(before.likesCount) - 1
    ensures db.Valid() && r.result.Ok? ==>
              (r.result.value <==> db.likes.MatchIds(LikeBy(commentId, userId)) == {})
    ensures db.Valid() && r.result == Ok(true) ==>
              exists id: Id :: id !in db.likes.rows && r.db.likes.rows == db.likes.rows[id := Like(commentId, userId, now)]
    ensures r.result == Ok(false) ==>
              exists id :: id in db.likes.rows && LikeBy(commentId, userId)(db.likes.rows[id])
                && r.db.likes == db.likes.Remove(id)
    ensures forall k :: k in db.comments.rows && k != commentId ==> r.db.comments.rows[k] == db.comments.rows[k]
    ensures r.db.posts == db.posts && r.db.supports == db.supports
    ensures db.Valid() ==> r.db.Valid()
  {
    if commentId !in db.comments.rows then Reply(db, Err(NotFound("Comment not found")))
    else
      var c := db.comments.rows[commentId];
      if c.status != Active then Reply(db, Err(BadRequest("Cannot like inactive comment")))
      else
        match db.likes.First(LikeBy(commentId, userId))
        case None =>
          var (likes, _) := db.likes.Insert(Like(commentId, userId, now));
          var liked := c.(likesCount := Some(OrZero(c.likesCount) + 1));
          Reply(PostDb(db.posts, db.comments.Put(commentId, liked), likes, db.supports), Ok(true))
        case Some(found) =>
          var n := OrZero(c.likesCount) - 1;
          var unliked := c.(likesCount := Some(if n < 0 then 0 else n));
          assert found.id in db.likes.MatchIds(LikeBy(commentId, userId));
          Reply(PostDb(db.posts, db.comments.Put(commentId, unliked), db.likes.Remove(found.id), db.supports), Ok(false))
  }

  // ---------------------------------------------------------------------------
  // What the operations do to the invariants
  // ---------------------------------------------------------------------------

  /** Commenting keeps every post's comment counter in step. */
  lemma CreateCommentKeepsCounts(db: PostDb, userId: UserId, postId: Id, req: CommentRequest, now: Millis)
    requires db.Valid() && CommentCountsMatch(db)
    ensures CommentCountsMatch(CreateComment(db, userId, postId, req, now).db)
  {
    var r := CreateComment(db, userId, postId, req, now);
    if r.result.Ok? {
      var c := r.result.value;
      assert r.db.comments.rows.Keys == db.comments.rows.Keys + {c.id};
      AddedCommentCounts(db, r.db, c.id, c.data);
    }
  }

  /** Storing one new active comment while adding one to its post's counter
      (when the post exists) keeps every comment counter in step. */
  lemma AddedCommentCounts(db: PostDb, db': PostDb, id: Id, v: Comment)
    requires CommentCountsMatch(db)
    requires id !in db.comments.rows && v.status == Active
    requires db'.comments.rows.Keys == db.comments.rows.Keys + {id} && db'.comments.rows[id] == v
    requires forall k :: k in db.comments.rows ==> db'.comments.rows[k] == db.comments.rows[k]
    requires db'.posts.rows.Keys == db.posts.rows.Keys
    requires forall k :: k in db.posts.rows && k != v.postId ==> db'.posts.rows[k] == db.posts.rows[k]
    requires v.postId in db.posts.rows ==>
               OrZero(db'.posts.rows[v.postId].commentsCount) == OrZero(db.posts.rows[v.postId].commentsCount) + 1
    ensures CommentCountsMatch(db')
  {
    forall p | p in db'.posts.rows
      ensures OrZero(db'.posts.rows[p].commentsCount) == |db'.comments.MatchIds(ActiveCommentOn(p))|
    {
      ChangedRowMatchIds(db.comments, db'.comments, id, ActiveCommentOn(p));
      CardReplace(db.comments.MatchIds(ActiveCommentOn(p)), id, ActiveCommentOn(p)(v));
    }
  }

  /** Commenting keeps every like counter in step: the new comment starts
      at zero and no like can point at a fresh id. */
  lemma CreateCommentKeepsLikeCounts(db: PostDb, userId: UserId, postId: Id, req: CommentRequest, now: Millis)
    requires db.Valid() && LikeCountsMatch(db) && LikesAttached(db)
    ensures var db' := CreateComment(db, userId, postId, req, now).db;
            LikeCountsMatch(db') && LikesAttached(db')
  {
    var r := CreateComment(db, userId, postId, req, now);
    if r.result.Ok? {
      var id := r.result.value.id;
      assert db.likes.MatchIds(LikesOn(id)) == {};
    }
  }

  /** As written, deleting one's own active comment leaves its post's
      counter one above the number of active comments it has left. */
  lemma DeleteAsWrittenLeavesStaleCount(db: PostDb, commentId: Id, userId: UserId, now: Millis)
    requires db.Valid() && CommentCountsMatch(db) && CommentsAttached(db)
    requires commentId in db.comments.rows
    requires db.comments.rows[commentId].authorId == userId && db.comments.rows[commentId].status == Active
    ensures var db' := DeleteCommentAsWritten(db, commentId, userId, now).db;
            var p := db.comments.rows[commentId].postId;
            && p in db'.posts.rows
            && OrZero(db'.posts.rows[p].commentsCount) == |db'.comments.MatchIds(ActiveCommentOn(p))| + 1
            && !CommentCountsMatch(db')
  {
    var c := db.comments.rows[commentId];
    var db' := DeleteCommentAsWritten(db, commentId, userId, now).db;
    PutMatchIds(db.comments, commentId, c.(status := Deleted, updatedAt := now), ActiveCommentOn(c.postId));
    assert commentId in db.comments.MatchIds(ActiveCommentOn(c.postId));
  }

  /** The same on a concrete database: one active post whose only comment is
      deleted by its author still reports one comment. */
  lemma DeleteAsWrittenExample()
    ensures var post := Post("author", Some("hello"), None, None, None, 0, 0, Some(0), Some(1), Some(0), Some(0), true, Active);
            var comment := Comment(0, "u", "hi", None, 0, 0, Some(0), true, Active);
            var db := PostDb(Table(map[0 := post], 1), Table(map[0 := comment], 1), Table(map[], 0), Table(map[], 0));
            var r := DeleteCommentAsWritten(db, 0, "u", 5);
            && CommentCountsMatch(db)
            && r.result == Err(BadRequest("Failed to delete comment"))
            && r.db.comments.rows[0].status == Deleted
            && r.db.posts.rows[0].commentsCount == Some(1)
            && r.db.comments.MatchIds(ActiveCommentOn(0)) == {}
  {
    var post := Post("author", Some("hello"), None, None, None, 0, 0, Some(0), Some(1), Some(0), Some(0), true, Active);
    var comment := Comment(0, "u", "hi", None, 0, 0, Some(0), true, Active);
    var db := PostDb(Table(map[0 := post], 1), Table(map[0 := comment], 1), Table(map[], 0), Table(map[], 0));
    assert db.comments.MatchIds(ActiveCommentOn(0)) == {0};
  }

  /** The intended delete of an active comment keeps every comment counter in step. */
  lemma DeleteCommentKeepsCounts(db: PostDb, commentId: Id, userId: UserId, now: Millis)
    requires db.Valid() && CommentCountsMatch(db) && CommentsAttached(db)
    requires commentId in db.comments.rows ==> db.comments.rows[commentId].status == Active
    ensures CommentCountsMatch(DeleteComment(db, commentId, userId, now).db)
  {
    var r := DeleteComment(db, commentId, userId, now);
    if r.result.Ok? {
      RemovedCommentCounts(db, r.db, commentId, db.comments.rows[commentId].postId);
    }
  }

  /** Marking one active comment deleted while taking one off its post's
      counter keeps every comment counter in step. */
  lemma RemovedCommentCounts(db: PostDb, db': PostDb, id: Id, postId: Id)
    requires CommentCountsMatch(db)
    requires id in db.comments.rows && db.comments.rows[id].status == Active && db.comments.rows[id].postId == postId
    requires db'.comments.rows.Keys == db.comments.rows.Keys && db'.comments.rows[id].status == Deleted
    requires forall k :: k in db.comments.rows && k != id ==> db'.comments.rows[k] == db.comments.rows[k]
    requires postId in db.posts.rows && db'.posts.rows.Keys == db.posts.rows.Keys
    requires forall k :: k in db.posts.rows && k != postId ==> db'.posts.rows[k] == db.posts.rows[k]
    requires OrZero(db'.posts.rows[postId].commentsCount) == OrZero(db.posts.rows[postId].commentsCount) - 1
    ensures CommentCountsMatch(db')
  {
    forall p | p in db'.posts.rows
      ensures OrZero(db'.posts.rows[p].commentsCount) == |db'.comments.MatchIds(ActiveCommentOn(p))|
    {
      ChangedRowMatchIds(db.comments, db'.comments, id, ActiveCommentOn(p));
      assert id in db.comments.MatchIds(ActiveCommentOn(p)) <==> p == postId;
      CardReplace(db.comments.MatchIds(ActiveCommentOn(p)), id, false);
    }
  }

  /** Toggling a like keeps one like per user and every like attached. */
  lemma ToggleKeepsOneLike(db: PostDb, commentId: Id, userId: UserId, now: Millis)
    requires db.Valid() && OneLikePerUser(db) && LikesAttached(db)
    ensures var db' := ToggleCommentLike(db, commentId, userId, now).db;
            OneLikePerUser(db') && LikesAttached(db')
  {
    var r := ToggleCommentLike(db, commentId, userId, now);
    if r.result.Ok? && db.likes.First(LikeBy(commentId, userId)).None? {
      var n := db.likes.next;
      forall i | i in r.db.likes.rows && i != n
        ensures r.db.likes.rows[i].commentId != commentId || r.db.likes.rows[i].userId != userId
      {
        assert !LikeBy(commentId, userId)(db.likes.rows[i]);
      }
    }
  }

  /** Adding a like moves exactly its comment's like count up by one. */
  lemma AddLikeCounts(db: PostDb, commentId: Id, userId: UserId, now: Millis)
    requires db.Valid() && LikeCountsMatch(db)
    requires commentId in db.comments.rows && db.comments.rows[commentId].status == Active
    requires db.likes.First(LikeBy(commentId, userId)).None?
    ensures LikeCountsMatch(ToggleCommentLike(db, commentId, userId, now).db)
  {
    var r := ToggleCommentLike(db, commentId, userId, now);
    var like := Like(commentId, userId, now);
    forall c | c in r.db.comments.rows
      ensures OrZero(r.db.comments.rows[c].likesCount) == |r.db.likes.MatchIds(LikesOn(c))|
    {
      InsertMatchIds(db.likes, like, LikesOn(c));
    }
  }

  /** Removing a like moves exactly its comment's like count down by one. */
  lemma RemoveLikeCounts(db: PostDb, commentId: Id, userId: UserId, now: Millis)
    requires db.Valid() && LikeCountsMatch(db)
    requires commentId in db.comments.rows && db.comments.rows[commentId].status == Active
    requires db.likes.First(LikeBy(commentId, userId)).Some?
    ensures LikeCountsMatch(ToggleCommentLike(db, commentId, userId, now).db)
  {
    var r := ToggleCommentLike(db, commentId, userId, now);
    var found := db.likes.First(LikeBy(commentId, userId)).value;
    assert found.id in db.likes.MatchIds(LikesOn(commentId));
    forall c | c in r.db.comments.rows
      ensures OrZero(r.db.comments.rows[c].likesCount) == |r.db.likes.MatchIds(LikesOn(c))|
    {
      RemoveMatchIds(db.likes, found.id, LikesOn(c));
      assert found.id in db.likes.MatchIds(LikesOn(c)) <==> c == commentId;
      CardReplace(db.likes.MatchIds(LikesOn(c)), found.id, false);
    }
  }

  /** Toggling a like keeps every like counter in step. */
  lemma ToggleKeepsLikeCounts(db: PostDb, commentId: Id, userId: UserId, now: Millis)
    requires db.Valid() && LikeCountsMatch(db)
    ensures LikeCountsMatch(ToggleCommentLike(db, commentId, userId, now).db)
  {
    if commentId in db.comments.rows && db.comments.rows[commentId].status == Active {
      if db.likes.First(LikeBy(commentId, userId)).None? {
        AddLikeCounts(db, commentId, userId, now);
      } else {
        RemoveLikeCounts(db, commentId, userId, now);
      }
    }
  }

  /** Toggling twice undoes the first toggle: the answers alternate and the
      comment's counter (read as a number) and like count come back. */
  lemma ToggleTwiceRestores(db: PostDb, commentId: Id, userId: UserId, now1: Millis, now2: Millis)
    requires db.Valid() && OneLikePerUser(db) && LikeCountsMatch(db)
    requires ToggleCommentLike(db, commentId, userId, now1).result.Ok?
    ensures var r1 := ToggleCommentLike(db, commentId, userId, now1);
            var r2 := ToggleCommentLike(r1.db, commentId, userId, now2);
            && r2.result.Ok? && r2.result.value == !r1.result.value
            && r2.db.comments.rows.Keys == db.comments.rows.Keys
            && OrZero(r2.db.comments.rows[commentId].likesCount) == OrZero(db.comments.rows[commentId].likesCount)
            && r2.db.comments.rows[commentId].(likesCount := db.comments.rows[commentId].likesCount)
               == db.comments.rows[commentId]
            && |r2.db.likes.MatchIds(LikesOn(commentId))| == |db.likes.MatchIds(LikesOn(commentId))|
  {
    if db.likes.First(LikeBy(commentId, userId)).None? {
      LikeThenUnlike(db, commentId, userId, now1, now2);
    } else {
      UnlikeThenLike(db, commentId, userId, now1, now2);
    }
  }

  lemma LikeThenUnlike(db: PostDb, commentId: Id, userId: UserId, now1: Millis, now2: Millis)
    requires db.Valid() && LikeCountsMatch(db)
    requires ToggleCommentLike(db, commentId, userId, now1).result.Ok?
    requires db.likes.First(LikeBy(commentId, userId)).None?
    ensures var r1 := ToggleCommentLike(db, commentId, userId, now1);
            var r2 := ToggleCommentLike(r1.db, commentId, userId, now2);
            && r1.result == Ok(true) && r2.result == Ok(false)
            && r2.db.comments.rows.Keys == db.comments.rows.Keys
            && OrZero(r2.db.comments.rows[commentId].likesCount) == OrZero(db.comments.rows[commentId].likesCount)
            && r2.db.comments.rows[commentId].(likesCount := db.comments.rows[commentId].likesCount)
               == db.comments.rows[commentId]
            && |r2.db.likes.MatchIds(LikesOn(commentId))| == |db.likes.MatchIds(LikesOn(commentId))|
  {
    var mine := LikeBy(commentId, userId);
    var r1 := ToggleCommentLike(db, commentId, userId, now1);
    LikeStep(db, commentId, userId, now1);
    AddLikeCounts(db, commentId, userId, now1);
    var n := db.likes.next;
    InsertMatchIds(db.likes, Like(commentId, userId, now1), mine);
    assert n in r1.db.likes.MatchIds(mine);
    assert r1.db.likes.First(mine).Some?;
    UnlikeStep(r1.db, commentId, userId, now2);
  }

  lemma UnlikeThenLike(db: PostDb, commentId: Id, userId: UserId, now1: Millis, now2: Millis)
    requires db.Valid() && OneLikePerUser(db) && LikeCountsMatch(db)
    requires ToggleCommentLike(db, commentId, userId, now1).result.Ok?
    requires db.likes.First(LikeBy(commentId, userId)).Some?
    ensures var r1 := ToggleCommentLike(db, commentId, userId, now1);
            var r2 := ToggleCommentLike(r1.db, commentId, userId, now2);
            && r1.result == Ok(false) && r2.result == Ok(true)
            && r2.db.comments.rows.Keys == db.comments.rows.Keys
            && OrZero(r2.db.comments.rows[commentId].likesCount) == OrZero(db.comments.rows[commentId].likesCount)
            && r2.db.comments.rows[commentId].(likesCount := db.comments.rows[commentId].likesCount)
               == db.comments.rows[commentId]
            && |r2.db.likes.MatchIds(LikesOn(commentId))| == |db.likes.MatchIds(LikesOn(commentId))|
  {
    UnlikeStep(db, commentId, userId, now1);
    UnlikeLeavesNone(db, commentId, userId, now1);
    var r1 := ToggleCommentLike(db, commentId, userId, now1);
    LikeStep(r1.db, commentId, userId, now2);
  }

  /** Liking a comment the user has not liked answers true and adds one to
      both the counter and the comment's likes. */
  lemma LikeStep(db: PostDb, commentId: Id, userId: UserId, now: Millis)
    requires db.Valid()
    requires commentId in db.comments.rows && db.comments.rows[commentId].status == Active
    requires db.likes.First(LikeBy(commentId, userId)).None?
    ensures var r := ToggleCommentLike(db, commentId, userId, now);
            && r.result == Ok(true)
            && OrZero(r.db.comments.rows[commentId].likesCount) == OrZero(db.comments.rows[commentId].likesCount) + 1
            && |r.db.likes.MatchIds(LikesOn(commentId))| == |db.likes.MatchIds(LikesOn(commentId))| + 1
  {
    var hits := db.likes.MatchIds(LikesOn(commentId));
    InsertMatchIds(db.likes, Like(commentId, userId, now), LikesOn(commentId));
    assert hits - {db.likes.next} == hits;
    CardReplace(hits, db.likes.next, true);
  }

  /** Unliking a comment answers false and takes one off both the counter
      and the comment's likes; the counter had that like to lose. */
  lemma UnlikeStep(db: PostDb, commentId: Id, userId: UserId, now: Millis)
    requires db.Valid() && LikeCountsMatch(db)
    requires commentId in db.comments.rows && db.comments.rows[commentId].status == Active
    requires db.likes.First(LikeBy(commentId, userId)).Some?
    ensures var r := ToggleCommentLike(db, commentId, userId, now);
            && r.result == Ok(false)
            && OrZero(r.db.comments.rows[commentId].likesCount) == OrZero(db.comments.rows[commentId].likesCount) - 1
            && |r.db.likes.MatchIds(LikesOn(commentId))| == |db.likes.MatchIds(LikesOn(commentId))| - 1
  {
    var found := db.likes.First(LikeBy(commentId, userId)).value;
    var hits := db.likes.MatchIds(LikesOn(commentId));
    RemoveMatchIds(db.likes, found.id, LikesOn(commentId));
    assert found.id in hits;
    CardReplace(hits, found.id, false);
    assert |hits| >= 1;
  }

  /** With one like per user, unliking leaves the user no like on the comment. */
  lemma UnlikeLeavesNone(db: PostDb, commentId: Id, userId: UserId, now: Millis)
    requires db.Valid() && OneLikePerUser(db)
    requires commentId in db.comments.rows && db.comments.rows[commentId].status == Active
    requires db.likes.First(LikeBy(commentId, userId)).Some?
    ensures ToggleCommentLike(db, commentId, userId, now).db.likes.First(LikeBy(commentId, userId)).None?
  {
    var mine := LikeBy(commentId, userId);
    var r := ToggleCommentLike(db, commentId, userId, now);
    var found := db.likes.First(mine).value;
    RemoveMatchIds(db.likes, found.id, mine);
    assert db.likes.MatchIds(mine) == {found.id};
    assert r.db.likes.MatchIds(mine) == {};
  }

  /** The intended delete does not look at the comment's status, so deleting
      an already deleted comment decrements the post's counter again. */
  lemma DeleteTwiceDecrementsTwice(db: PostDb, commentId: Id, userId: UserId, now1: Millis, now2: Millis)
    requires DeleteComment(db, commentId, userId, now1).result.Ok?
    ensures var r1 := DeleteComment(db, commentId, userId, now1);
            var r2 := DeleteComment(r1.db, commentId, userId, now2);
            var p := db.comments.rows[commentId].postId;
            && r2.result.Ok?
            && OrZero(r2.db.posts.rows[p].commentsCount) == OrZero(db.posts.rows[p].commentsCount) - 2
  {
  }
}

=== FILE: group_properties.dfy ===
/** Properties of the group lifecycle that relate several calls: idempotent
    join, the invariants every operation keeps, and what the count-based
    aliases do and do not guarantee. */
module GroupProperties {

  import opened Wrappers
  import opened Store
  import opened Groups

  // ---------------------------------------------------------------------------
  // Invariants of the three collections
  // ---------------------------------------------------------------------------

  ghost predicate CountsNonNegative(db: GroupDb) {
    forall k :: k in db.groups.rows ==> db.groups.rows[k].memberCount >= 0
  }

  /** At most one active membership per (group, user). */
  ghost predicate OneActiveMembership(db: GroupDb) {
    forall i, j ::
      i in db.members.rows && j in db.members.rows && db.members.rows[i].isActive &&
      ActiveMembershipOf(db.members.rows[i].groupId, db.members.rows[i].userId)(db.members.rows[j])
      ==> i == j
  }

  /** Every membership and every message belongs to a stored group. */
  ghost predicate NoOrphans(db: GroupDb) {
    && (forall k :: k in db.members.rows ==> db.members.rows[k].groupId in db.groups.rows)
    && (forall k :: k in db.messages.rows ==> db.messages.rows[k].groupId in db.groups.rows)
  }

  ghost predicate Inv(db: GroupDb) {
    db.Valid() && CountsNonNegative(db) && OneActiveMembership(db) && NoOrphans(db)
  }

  /** A membership found by `Membership` is the only active one of its pair. */
  lemma MembershipNoneMeansNoMatch(db: GroupDb, groupId: Id, userId: UserId)
    requires db.Valid() && Membership(db, groupId, userId).None?
    ensures forall k :: k in db.members.rows ==> !ActiveMembershipOf(groupId, userId)(db.members.rows[k])
  {
  }

  lemma CreateGroupKeepsInv(db: GroupDb, req: GroupRequest, now: Millis)
    requires Inv(db)
    ensures Inv(CreateGroup(db, req, now).0)
  {
  }

  lemma MoodGroupKeepsInv(db: GroupDb, mood: string, now: Millis)
    requires Inv(db)
    ensures Inv(GetOrCreateMoodGroup(db, mood, now).0)
  {
  }

  lemma JoinKeepsInv(db: GroupDb, userId: UserId, groupId: Id, now: Millis)
    requires Inv(db)
    ensures Inv(JoinGroup(db, userId, groupId, now).db)
  {
    var r := JoinGroup(db, userId, groupId, now);
    if r.result.Ok? && Membership(db, groupId, userId).None? {
      var id := r.result.value.id;
      var m := r.result.value.data;
      MembershipNoneMeansNoMatch(db, groupId, userId);
      forall i, j | i in r.db.members.rows && j in r.db.members.rows && r.db.members.rows[i].isActive &&
          ActiveMembershipOf(r.db.members.rows[i].groupId, r.db.members.rows[i].userId)(r.db.members.rows[j])
        ensures i == j
      {
        if i != id && j != id {
          assert r.db.members.rows[i] == db.members.rows[i];
          assert r.db.members.rows[j] == db.members.rows[j];
        }
      }
    }
  }

  lemma LeaveKeepsInv(db: GroupDb, userId: UserId, groupId: Id)
    requires Inv(db)
    ensures Inv(LeaveGroup(db, userId, groupId).db)
  {
    var r := LeaveGroup(db, userId, groupId);
    if Membership(db, groupId, userId).Some? {
      var d := Membership(db, groupId, userId).value;
      forall i, j | i in r.db.members.rows && j in r.db.members.rows && r.db.members.rows[i].isActive &&
          ActiveMembershipOf(r.db.members.rows[i].groupId, r.db.members.rows[i].userId)(r.db.members.rows[j])
        ensures i == j
      {
        assert i != d.id && j != d.id;
        assert r.db.members.rows[i] == db.members.rows[i];
        assert r.db.members.rows[j] == db.members.rows[j];
      }
    }
  }

  lemma SendKeepsInv(db: GroupDb, userId: UserId, groupId: Id, body: string, now: Millis)
    requires Inv(db)
    ensures Inv(SendMessage(db, userId, groupId, body, now).db)
  {
    var r := SendMessage(db, userId, groupId, body, now);
    if r.result.Ok? {
      var member := Membership(db, groupId, userId).value;
      assert member.data.groupId == groupId;
      assert groupId in db.groups.rows;
    }
  }

  /** The operations a client can issue against the group collections. */
  datatype Command =
    | Create(req: GroupRequest)
    | MoodLookup(mood: string)
    | Join(userId: UserId, groupId: Id)
    | AutoJoin(userId: UserId, mood: string)
    | Leave(userId: UserId, groupId: Id)
    | Send(userId: UserId, groupId: Id, body: string)

  function Apply(db: GroupDb, c: Command, now: Millis): GroupDb {
    match c
    case Create(req) => CreateGroup(db, req, now).0
    case MoodLookup(mood) => GetOrCreateMoodGroup(db, mood, now).0
    case Join(u, g) => JoinGroup(db, u, g, now).db
    case AutoJoin(u, mood) => AutoJoinMoodGroup(db, u, mood, now).db
    case Leave(u, g) => LeaveGroup(db, u, g).db
    case Send(u, g, body) => SendMessage(db, u, g, body, now).db
  }

  /** Every operation keeps member counts non-negative, at most one active
      membership per (group, user), and every child attached to a group. */
  lemma ApplyKeepsInv(db: GroupDb, c: Command, now: Millis)
    requires Inv(db)
    ensures Inv(Apply(db, c, now))
  {
    if c.Create? || c.MoodLookup? {
      ApplyCreateKeepsInv(db, c, now);
    } else if c.Join? || c.AutoJoin? {
      ApplyJoinKeepsInv(db, c, now);
    } else if c.Leave? {
      ApplyLeaveKeepsInv(db, c, now);
    } else {
      ApplySendKeepsInv(db, c, now);
    }
  }

  lemma ApplyCreateKeepsInv(db: GroupDb, c: Command, now: Millis)
    requires Inv(db) && (c.Create? || c.MoodLookup?)
    ensures Inv(Apply(db, c, now))
  {
    if c.Create? {
      CreateGroupKeepsInv(db, c.req, now);
    } else {
      MoodGroupKeepsInv(db, c.mood, now);
    }
  }

  lemma ApplyJoinKeepsInv(db: GroupDb, c: Command, now: Millis)
    requires Inv(db) && (c.Join? || c.AutoJoin?)
    ensures Inv(Apply(db, c, now))
  {
    if c.Join? {
      JoinKeepsInv(db, c.userId, c.groupId, now);
    } else {
      MoodGroupKeepsInv(db, c.mood, now);
      var (db1, group) := GetOrCreateMoodGroup(db, c.mood, now);
      JoinKeepsInv(db1, c.userId, group.id, now);
    }
  }

  lemma ApplyLeaveKeepsInv(db: GroupDb, c: Command, now: Millis)
    requires Inv(db) && c.Leave?
    ensures Inv(Apply(db, c, now))
  {
    LeaveKeepsInv(db, c.userId, c.groupId);
  }

  lemma ApplySendKeepsInv(db: GroupDb, c: Command, now: Millis)
    requires Inv(db) && c.Send?
    ensures Inv(Apply(db, c, now))
  {
    SendKeepsInv(db, c.userId, c.groupId, c.body, now);
  }

  /** Any sequence of operations keeps the invariant. */
  lemma {:induction false} ApplyAllKeepsInv(db: GroupDb, cs: seq<(Command, Millis)>)
    requires Inv(db)
    ensures Inv(ApplyAll(db, cs))
    decreases |cs|
  {
    if |cs| > 0 {
      ApplyKeepsInv(db, cs[0].0, cs[0].1);
      ApplyAllKeepsInv(Apply(db, cs[0].0, cs[0].1), cs[1..]);
    }
  }

  function ApplyAll(db: GroupDb, cs: seq<(Command, Millis)>): GroupDb
    decreases |cs|
  {
    if |cs| == 0 then db else ApplyAll(Apply(db, cs[0].0, cs[0].1), cs[1..])
  }

  // ---------------------------------------------------------------------------
  // Joining twice
  // ---------------------------------------------------------------------------

  /** A second join of the same pair returns the same membership and writes nothing. */
  lemma JoinIsIdempotent(db: GroupDb, userId: UserId, groupId: Id, now1: Millis, now2: Millis)
    requires db.Valid()
    ensures var r1 := JoinGroup(db, userId, groupId, now1);
            r1.result.Ok? ==> JoinGroup(r1.db, userId, groupId, now2) == r1
  {
    var r1 := JoinGroup(db, userId, groupId, now1);
    if r1.result.Ok? && Membership(db, groupId, userId).None? {
      var p := ActiveMembershipOf(groupId, userId);
      var id := r1.result.value.id;
      MembershipNoneMeansNoMatch(db, groupId, userId);
      forall k | k in r1.db.members.rows && k != id ensures !p(r1.db.members.rows[k]) {
        assert r1.db.members.rows[k] == db.members.rows[k];
      }
      var f := r1.db.members.First(p);
      assert p(r1.db.members.rows[id]);
      assert f.Some? && f.value.id == id;
      assert Joinable(r1.db, groupId);
    }
  }

  // ---------------------------------------------------------------------------
  // Count-based aliases
  // ---------------------------------------------------------------------------

  /** Every active alias of a group is "Anonymous n" for some n up to the
      group's active count. */
  ghost predicate AliasesWithinCount(db: GroupDb) {
    forall k :: k in db.members.rows && db.members.rows[k].isActive ==>
      exists n :: 1 <= n <= ActiveCount(db, db.members.rows[k].groupId)
        && db.members.rows[k].anonymousName == AnonymousName(n)
  }

  /** No two active members of a group share an alias. */
  ghost predicate AliasesDistinct(db: GroupDb) {
    forall i, j ::
      i in db.members.rows && j in db.members.rows && i != j &&
      db.members.rows[i].isActive && db.members.rows[j].isActive &&
      db.members.rows[i].groupId == db.members.rows[j].groupId
      ==> db.members.rows[i].anonymousName != db.members.rows[j].anonymousName
  }

  /** A fresh join adds one active member to its group's count and none elsewhere. */
  lemma JoinActiveCount(db: GroupDb, userId: UserId, groupId: Id, now: Millis, h: Id)
    requires db.Valid()
    requires JoinGroup(db, userId, groupId, now).result.Ok? && Membership(db, groupId, userId).None?
    ensures ActiveCount(JoinGroup(db, userId, groupId, now).db, h)
            == ActiveCount(db, h) + (if h == groupId then 1 else 0)
  {
    var m := Member(groupId, userId, AnonymousName(ActiveCount(db, groupId) + 1), true, now);
    InsertCount(db.members, m, ActiveMemberOf(h));
  }

  /** Joins alone keep the aliases of every group pairwise distinct. */
  lemma JoinKeepsAliasesDistinct(db: GroupDb, userId: UserId, groupId: Id, now: Millis)
    requires db.Valid() && AliasesWithinCount(db) && AliasesDistinct(db)
    ensures var db' := JoinGroup(db, userId, groupId, now).db;
            AliasesWithinCount(db') && AliasesDistinct(db')
  {
    var r := JoinGroup(db, userId, groupId, now);
    if r.result.Ok? && Membership(db, groupId, userId).None? {
      FreshJoinAliasesWithinCount(db, userId, groupId, now);
      FreshJoinAliasesDistinct(db, userId, groupId, now);
    }
  }

  /** The fresh alias "Anonymous (c+1)" lies within the new count, and the
      counts only grow. */
  lemma FreshJoinAliasesWithinCount(db: GroupDb, userId: UserId, groupId: Id, now: Millis)
    requires db.Valid() && AliasesWithinCount(db)
    requires JoinGroup(db, userId, groupId, now).result.Ok? && Membership(db, groupId, userId).None?
    ensures AliasesWithinCount(JoinGroup(db, userId, groupId, now).db)
  {
    var r := JoinGroup(db, userId, groupId, now);
    var db' := r.db;
    var id := r.result.value.id;
    var c := ActiveCount(db, groupId);
    forall k | k in db'.members.rows && db'.members.rows[k].isActive
      ensures exists n :: 1 <= n <= ActiveCount(db', db'.members.rows[k].groupId)
                && db'.members.rows[k].anonymousName == AnonymousName(n)
    {
      var h := db'.members.rows[k].groupId;
      JoinActiveCount(db, userId, groupId, now, h);
      if k == id {
        assert 1 <= c + 1 <= ActiveCount(db', h);
      } else {
        assert db'.members.rows[k] == db.members.rows[k];
        var n :| 1 <= n <= ActiveCount(db, h) && db.members.rows[k].anonymousName == AnonymousName(n);
        assert 1 <= n <= ActiveCount(db', h);
      }
    }
  }

  /** Every earlier alias of the group is "Anonymous n" with n at most the
      old count, so it differs from "Anonymous (c+1)". */
  lemma FreshJoinAliasesDistinct(db: GroupDb, userId: UserId, groupId: Id, now: Millis)
    requires db.Valid() && AliasesWithinCount(db) && AliasesDistinct(db)
    requires JoinGroup(db, userId, groupId, now).result.Ok? && Membership(db, groupId, userId).None?
    ensures AliasesDistinct(JoinGroup(db, userId, groupId, now).db)
  {
    var r := JoinGroup(db, userId, groupId, now);
    var db' := r.db;
    var id := r.result.value.id;
    var c := ActiveCount(db, groupId);
    forall i, j | i in db'.members.rows && j in db'.members.rows && i != j &&
        db'.members.rows[i].isActive && db'.members.rows[j].isActive &&
        db'.members.rows[i].groupId == db'.members.rows[j].groupId
      ensures db'.members.rows[i].anonymousName != db'.members.rows[j].anonymousName
    {
      if i != id && j != id {
        assert db'.members.rows[i] == db.members.rows[i];
        assert db'.members.rows[j] == db.members.rows[j];
      } else {
        var prior := if i == id then j else i;
        assert db'.members.rows[prior] == db.members.rows[prior];
        assert db.members.rows[prior].groupId == groupId;
        var n :| 1 <= n <= c && db.members.rows[prior].anonymousName == AnonymousName(n);
        AnonymousNameInjective(n, c + 1);
      }
    }
  }

  /** After a leave, the next joiner is handed the alias of the newest live
      member: the count-based alias is not unique once anyone has left. */
  lemma LeaveThenJoinReusesAlias(
    db: GroupDb, leaver: UserId, joiner: UserId, groupId: Id, newest: Id, now: Millis)
    requires db.Valid() && Joinable(db, groupId)
    requires Membership(db, groupId, leaver).Some?
    requires Membership(db, groupId, joiner).None? && joiner != leaver
    requires newest in db.members.rows && ActiveMemberOf(groupId)(db.members.rows[newest])
    requires db.members.rows[newest].userId != leaver
    requires db.members.rows[newest].anonymousName == AnonymousName(ActiveCount(db, groupId))
    ensures var db1 := LeaveGroup(db, leaver, groupId).db;
            var r := JoinGroup(db1, joiner, groupId, now);
            && r.result.Ok?
            && r.result.value.id != newest
            && newest in r.db.members.rows
            && ActiveMemberOf(groupId)(r.db.members.rows[newest])
            && r.result.value.data.anonymousName == r.db.members.rows[newest].anonymousName
  {
    var d := Membership(db, groupId, leaver).value;
    var db1 := LeaveGroup(db, leaver, groupId).db;
    PutCount(db.members, d.id, d.data.(isActive := false), ActiveMemberOf(groupId));
    assert ActiveCount(db1, groupId) == ActiveCount(db, groupId) - 1;
    assert db1.members.rows[newest] == db.members.rows[newest];
    forall k | k in db1.members.rows ensures !ActiveMembershipOf(groupId, joiner)(db1.members.rows[k]) {
      MembershipNoneMeansNoMatch(db, groupId, joiner);
      if k != d.id { assert db1.members.rows[k] == db.members.rows[k]; }
    }
    assert Membership(db1, groupId, joiner).None?;
  }
}

=== FILE: groups.dfy ===
/** The group lifecycle of `GroupService`: creating groups, the mood-group
    lookup, joining and leaving with count-based anonymous aliases, sending
    messages and reading a group's chat.

    The three collections `groups`, `group_members` and `group_messages` are
    tables of one `GroupDb`; every operation is a pure function of the
    database and the current time in milliseconds. */
module Groups {

  import opened Wrappers
  import opened Store
  import Text

  type UserId = string

  /** Milliseconds since the epoch. */
  type Millis = int

  const HourMillis: int := 3600000
  const MoodGroupTtlHours: int := 24
  /** Messages returned by a chat read. */
  const ChatWindow: nat := 50
  /** `@MaxLength(100)` on a message body. */
  const MaxMessageLength: nat := 100

  datatype GroupType = MoodBased | TopicBased | TimeBased | CommunityBased

  datatype Group = Group(
    name: string,
    description: string,
    kind: GroupType,
    memberCount: int,
    isActive: bool,
    expiresAt: Option<Millis>,
    createdAt: Millis)

  datatype Member = Member(
    groupId: Id,
    userId: UserId,
    anonymousName: string,
    isActive: bool,
    joinedAt: Millis)

  datatype Message = Message(
    groupId: Id,
    userId: UserId,
    anonymousSender: string,
    body: string,
    isActive: bool,
    createdAt: Millis)

  datatype GroupDb = GroupDb(groups: Table<Group>, members: Table<Member>, messages: Table<Message>) {
    predicate Valid() {
      groups.Valid() && members.Valid() && messages.Valid()
    }
  }

  /** The database after an operation together with what it returned or threw.
      A throw after a write keeps the write. */
  datatype Reply<T> = Reply(db: GroupDb, result: Result<T>)

  /** The body of a create-group request. */
  datatype GroupRequest = GroupRequest(
    name: string,
    description: string,
    kind: GroupType,
    expiresInHours: Option<int>)

  /** What a chat read returns. */
  datatype Chat = Chat(group: Group, messages: seq<Doc<Message>>, myAnonymousName: string)

  // ---------------------------------------------------------------------------
  // Queries
  // ---------------------------------------------------------------------------

  function ActiveMembershipOf(groupId: Id, userId: UserId): Member -> bool {
    (m: Member) => m.groupId == groupId && m.userId == userId && m.isActive
  }

  function ActiveMemberOf(groupId: Id): Member -> bool {
    (m: Member) => m.groupId == groupId && m.isActive
  }

  function ActiveMessageOf(groupId: Id): Message -> bool {
    (m: Message) => m.groupId == groupId && m.isActive
  }

  function ActiveMoodGroupNamed(name: string): Group -> bool {
    (g: Group) => g.name == name && g.kind == MoodBased && g.isActive
  }

  predicate IsActiveGroup(g: Group) {
    g.isActive
  }

  function ActiveMembershipsOf(userId: UserId): Member -> bool {
    (m: Member) => m.userId == userId && m.isActive
  }

  /** The caller's active membership of a group, if any. */
  function Membership(db: GroupDb, groupId: Id, userId: UserId): Option<Doc<Member>> {
    db.members.First(ActiveMembershipOf(groupId, userId))
  }

  /** Some stored membership of the user in the group is active. */
  ghost predicate IsMember(db: GroupDb, groupId: Id, userId: UserId) {
    exists k :: k in db.members.rows && ActiveMembershipOf(groupId, userId)(db.members.rows[k])
  }

  /** The size of the active-member query of a group. */
  function ActiveCount(db: GroupDb, groupId: Id): nat {
    |db.members.Select(ActiveMemberOf(groupId))|
  }

  function MessageTime(d: Doc<Message>): int {
    d.data.createdAt
  }

  function MemberCountOf(d: Doc<Group>): int {
    d.data.memberCount
  }

  predicate Joinable(db: GroupDb, groupId: Id) {
    groupId in db.groups.rows && db.groups.rows[groupId].isActive
  }

  // ---------------------------------------------------------------------------
  // Creating groups
  // ---------------------------------------------------------------------------

  /** `expires_at` of a new group: only a truthy (non-zero) hour count sets it. */
  function ExpiryFor(hours: Option<int>, now: Millis): Option<Millis> {
    if hours.Some? && hours.value != 0 then Some(now + hours.value * HourMillis) else None
  }

  function CreateGroup(db: GroupDb, req: GroupRequest, now: Millis): (r: (GroupDb, Doc<Group>))
    ensures r.1.data.isActive && r.1.data.memberCount == 0 && r.1.data.createdAt == now
    ensures r.1.data.name == req.name && r.1.data.description == req.description
    ensures r.1.data.kind == req.kind
    ensures req.expiresInHours.Some? && req.expiresInHours.value != 0 ==>
              r.1.data.expiresAt == Some(now + req.expiresInHours.value * 3600000)
    ensures req.expiresInHours.None? || req.expiresInHours.value == 0 ==> r.1.data.expiresAt.None?
    ensures db.Valid() ==> r.0.Valid() && r.1.id !in db.groups.rows
    ensures r.0.groups.rows == db.groups.rows[r.1.id := r.1.data]
    ensures r.0.members == db.members && r.0.messages == db.messages
  {
    var g := Group(req.name, req.description, req.kind, 0, true, ExpiryFor(req.expiresInHours, now), now);
    var (groups', id) := db.groups.Insert(g);
    (db.(groups := groups'), Doc(id, g))
  }

  /** "Feeling " followed by the mood with its first character upper-cased. */
  function MoodGroupName(mood: string): (r: string)
    ensures |r| == 8 + |mood| && r[..8] == "Feeling "
    ensures |mood| > 0 ==> r[8] == Text.UpperChar(mood[0]) && r[9..] == mood[1..]
  {
    "Feeling " + Text.Capitalise(mood)
  }

  ghost predicate HasActiveMoodGroup(db: GroupDb, name: string) {
    exists k :: k in db.groups.rows && ActiveMoodGroupNamed(name)(db.groups.rows[k])
  }

  /** Returns the first active mood group with the mood's name, whether or not
      it is past `expires_at`; creates a 24-hour group only when none exists. */
  function GetOrCreateMoodGroup(db: GroupDb, mood: string, now: Millis): (r: (GroupDb, Doc<Group>))
    ensures r.1.data.name == MoodGroupName(mood) && r.1.data.kind == MoodBased && r.1.data.isActive
    ensures r.1.id in r.0.groups.rows && r.0.groups.rows[r.1.id] == r.1.data
    ensures r.0.members == db.members && r.0.messages == db.messages
    ensures db.Valid() ==> r.0.Valid()
    ensures db.Valid() && HasActiveMoodGroup(db, MoodGroupName(mood)) ==> r.0 == db
    ensures db.Valid() && !HasActiveMoodGroup(db, MoodGroupName(mood)) ==>
              && r.1.id !in db.groups.rows
              && r.0.groups.rows == db.groups.rows[r.1.id := r.1.data]
              && r.1.data.expiresAt == Some(now + 24 * 3600000)
              && r.1.data.memberCount == 0
              && r.1.data.description == "Support group for people feeling " + mood
  {
    var name := MoodGroupName(mood);
    match db.groups.First(ActiveMoodGroupNamed(name))
    case Some(d) => (db, d)
    case None =>
      CreateGroup(db, GroupRequest(name, "Support group for people feeling " + mood, MoodBased, Some(MoodGroupTtlHours)), now)
  }

  /** Two lookups in a row return the same group, and the second one writes nothing. */
  lemma MoodGroupLookupIsStable(db: GroupDb, mood: string, now1: Millis, now2: Millis)
    requires db.Valid()
    ensures var (db1, d1) := GetOrCreateMoodGroup(db, mood, now1);
            GetOrCreateMoodGroup(db1, mood, now2) == (db1, d1)
  {
    var name := MoodGroupName(mood);
    var p := ActiveMoodGroupNamed(name);
    var (db1, d1) := GetOrCreateMoodGroup(db, mood, now1);
    if db.groups.First(p).None? {
      assert !HasActiveMoodGroup(db, name);
      assert p(db1.groups.rows[d1.id]);
      forall k | k in db1.groups.rows && k != d1.id ensures !p(db1.groups.rows[k]) {
        assert db1.groups.rows[k] == db.groups.rows[k];
      }
      var f := db1.groups.First(p);
      assert f.Some?;
      assert f.value.id == d1.id;
    }
  }

  // ---------------------------------------------------------------------------
  // Joining and leaving
  // ---------------------------------------------------------------------------

  /** The alias a fresh member receives when `n - 1` members are active. */
  function AnonymousName(n: nat): string {
    "Anonymous " + Text.NatToString(n)
  }

  /** Different counts give different aliases. */
  lemma AnonymousNameInjective(a: nat, b: nat)
    ensures AnonymousName(a) == AnonymousName(b) ==> a == b
  {
    if AnonymousName(a) == AnonymousName(b) {
      assert Text.NatToString(a) == AnonymousName(a)[10..];
      assert Text.NatToString(b) == AnonymousName(b)[10..];
      Text.NatToStringInjective(a, b);
    }
  }

  /** Joins an active group. Only `is_active` is consulted, never `expires_at`.
      An existing active membership is returned unchanged; otherwise a member
      named after the current active count is added and `member_count` is
      set to the stored value plus one. */
  function JoinGroup(db: GroupDb, userId: UserId, groupId: Id, now: Millis): (r: Reply<Doc<Member>>)
    ensures r.result.Err? <==> !Joinable(db, groupId)
    ensures r.result.Err? ==> r.result.error == NotFound("Group not found") && r.db == db
    ensures r.result.Ok? ==>
              && ActiveMembershipOf(groupId, userId)(r.result.value.data)
              && r.result.value.id in r.db.members.rows
              && r.db.members.rows[r.result.value.id] == r.result.value.data
    ensures r.result.Ok? && Membership(db, groupId, userId).Some? ==>
              r.db == db && r.result.value == Membership(db, groupId, userId).value
    ensures db.Valid() ==> r.db.Valid()
    ensures db.Valid() && r.result.Ok? && Membership(db, groupId, userId).None? ==>
              && r.result.value.id !in db.members.rows
              && r.db.members.rows == db.members.rows[r.result.value.id := r.result.value.data]
              && r.result.value.data.anonymousName == AnonymousName(ActiveCount(db, groupId) + 1)
              && r.result.value.data.joinedAt == now
              && r.db.groups.rows.Keys == db.groups.rows.Keys
              && r.db.groups.rows[groupId]
                 == db.groups.rows[groupId].(memberCount := db.groups.rows[groupId].memberCount + 1)
              && (forall k :: k in db.groups.rows && k != groupId ==> r.db.groups.rows[k] == db.groups.rows[k])
              && r.db.messages == db.messages
  {
    if !Joinable(db, groupId) then
      Reply(db, Err(NotFound("Group not found")))
    else
      match Membership(db, groupId, userId)
      case Some(existing) => Reply(db, Ok(existing))
      case None =>
        var member := Member(groupId, userId, AnonymousName(ActiveCount(db, groupId) + 1), true, now);
        var (members', id) := db.members.Insert(member);
        var group := db.groups.rows[groupId];
        var groups' := db.groups.Put(groupId, group.(memberCount := group.memberCount + 1));
        Reply(db.(members := members', groups := groups'), Ok(Doc(id, member)))
  }

  /** Leaves a group. Without an active membership nothing happens. Otherwise
      that membership is deactivated and `member_count` becomes
      max(c - 1, 0), where c is the stored count or 1 when it is zero. */
  function LeaveGroup(db: GroupDb, userId: UserId, groupId: Id): (r: Reply<()>)
    ensures Membership(db, groupId, userId).None? ==> r == Reply(db, Ok(()))
    ensures Membership(db, groupId, userId).Some? ==>
              var d := Membership(db, groupId, userId).value;
              && r.db.members == db.members.Put(d.id, d.data.(isActive := false))
              && r.db.messages == db.messages
              && r.db.groups.rows.Keys == db.groups.rows.Keys
              && (forall k :: k in db.groups.rows && k != groupId ==> r.db.groups.rows[k] == db.groups.rows[k])
    ensures Membership(db, groupId, userId).Some? && groupId in db.groups.rows ==>
              var c := db.groups.rows[groupId].memberCount;
              && r.result == Ok(())
              && r.db.groups.rows[groupId] == db.groups.rows[groupId].(memberCount := r.db.groups.rows[groupId].memberCount)
              && r.db.groups.rows[groupId].memberCount >= 0
              && (c > 0 ==> r.db.groups.rows[groupId].memberCount == c - 1)
              && (c <= 0 ==> r.db.groups.rows[groupId].memberCount == 0)
    ensures Membership(db, groupId, userId).Some? && groupId !in db.groups.rows ==>
              r.result.Err? && r.result.error.StoreError?
    ensures db.Valid() ==> r.db.Valid()
  {
    match Membership(db, groupId, userId)
    case None => Reply(db, Ok(()))
    case Some(d) =>
      var db1 := db.(members := db.members.Put(d.id, d.data.(isActive := false)));
      if groupId !in db.groups.rows then
        Reply(db1, Err(StoreError("No document to update")))
      else
        var group := db.groups.rows[groupId];
        var current := if group.memberCount == 0 then 1 else group.memberCount;
        var count := if current - 1 > 0 then current - 1 else 0;
        Reply(db1.(groups := db.groups.Put(groupId, group.(memberCount := count))), Ok(()))
  }

  /** `getOrCreateMoodGroup` followed by a join of the group it returns. */
  function AutoJoinMoodGroup(db: GroupDb, userId: UserId, mood: string, now: Millis): (r: Reply<Doc<Member>>)
    ensures r.result.Ok?
    ensures r.result.value.data.userId == userId && r.result.value.data.isActive
    ensures r.result.value.data.groupId in r.db.groups.rows
    ensures r.db.groups.rows[r.result.value.data.groupId].name == MoodGroupName(mood)
    ensures r.db.groups.rows[r.result.value.data.groupId].kind == MoodBased
    ensures r.result.value.data.groupId == GetOrCreateMoodGroup(db, mood, now).1.id
    ensures r.result.value.id in r.db.members.rows && r.db.members.rows[r.result.value.id] == r.result.value.data
    ensures db.Valid() ==> r.db.Valid()
  {
    var (db1, group) := GetOrCreateMoodGroup(db, mood, now);
    JoinGroup(db1, userId, group.id, now)
  }

  // ---------------------------------------------------------------------------
  // Messages
  // ---------------------------------------------------------------------------

  /** `@IsNotEmpty() @MaxLength(100)` on the message body. */
  predicate ValidMessageBody(body: string) {
    0 < |body| <= MaxMessageLength
  }

  /** Sends a message as the caller's current alias. Only membership is
      checked; the group itself is not read. */
  function SendMessage(db: GroupDb, userId: UserId, groupId: Id, body: string, now: Millis): (r: Reply<Doc<Message>>)
    ensures r.result.Err? <==> !ValidMessageBody(body) || Membership(db, groupId, userId).None?
    ensures r.result.Err? ==> r.db == db && r.result.error.BadRequest?
    ensures ValidMessageBody(body) && Membership(db, groupId, userId).None? ==>
              r.result.error == BadRequest("You are not a member of this group")
    ensures r.result.Ok? ==>
              && r.result.value.data
                 == Message(groupId, userId, Membership(db, groupId, userId).value.data.anonymousName, body, true, now)
              && r.db.messages.rows == db.messages.rows[r.result.value.id := r.result.value.data]
              && r.db.groups == db.groups && r.db.members == db.members
    ensures db.Valid() && r.result.Ok? ==> r.result.value.id !in db.messages.rows && r.db.Valid()
    ensures db.Valid() ==> r.db.Valid()
  {
    if !ValidMessageBody(body) then
      Reply(db, Err(BadRequest("message must be a non-empty string of at most 100 characters")))
    else
      match Membership(db, groupId, userId)
      case None => Reply(db, Err(BadRequest("You are not a member of this group")))
      case Some(member) =>
        var msg := Message(groupId, userId, member.data.anonymousName, body, true, now);
        var (messages', id) := db.messages.Insert(msg);
        Reply(db.(messages := messages'), Ok(Doc(id, msg)))
  }

  /** `where(group_id == g).where(is_active == true)` on the messages. */
  function ActiveMessages(db: GroupDb, groupId: Id): seq<Doc<Message>> {
    db.messages.Select(ActiveMessageOf(groupId))
  }

  /** The 50 newest active messages of a group, oldest first. */
  function RecentActiveMessages(db: GroupDb, groupId: Id): (r: seq<Doc<Message>>)
    ensures |r| == if |ActiveMessages(db, groupId)| < ChatWindow then |ActiveMessages(db, groupId)| else ChatWindow
    ensures NonDecreasing(r, MessageTime)
    ensures forall j :: 0 <= j < |r| ==>
              (&& r[j].id in db.messages.rows
               && db.messages.rows[r[j].id] == r[j].data
               && r[j].data.groupId == groupId && r[j].data.isActive)
    ensures forall i, j ::
              (0 <= i < |ActiveMessages(db, groupId)| && 0 <= j < |r| && ActiveMessages(db, groupId)[i] !in r) ==>
              ActiveMessages(db, groupId)[i].data.createdAt <= r[j].data.createdAt
  {
    var all := ActiveMessages(db, groupId);
    var r := Latest(all, MessageTime, ChatWindow);
    RecentAreActive(db, groupId, r);
    r
  }

  lemma RecentAreActive(db: GroupDb, groupId: Id, r: seq<Doc<Message>>)
    requires forall j :: 0 <= j < |r| ==> r[j] in ActiveMessages(db, groupId)
    ensures forall j :: 0 <= j < |r| ==>
              (&& r[j].id in db.messages.rows
               && db.messages.rows[r[j].id] == r[j].data
               && r[j].data.groupId == groupId && r[j].data.isActive)
  {
    forall j | 0 <= j < |r|
      ensures r[j].id in db.messages.rows && db.messages.rows[r[j].id] == r[j].data
      ensures r[j].data.groupId == groupId && r[j].data.isActive
    {
      SelectHit(db.messages, ActiveMessageOf(groupId), r[j]);
    }
  }

  /** Membership is checked first (BadRequest), then the group (NotFound). */
  function GetGroupChat(db: GroupDb, userId: UserId, groupId: Id): (r: Result<Chat>)
    ensures Membership(db, groupId, userId).None? ==>
              r == Err(BadRequest("You are not a member of this group"))
    ensures Membership(db, groupId, userId).Some? && !Joinable(db, groupId) ==>
              r == Err(NotFound("Group not found"))
    ensures r.Ok? <==> Membership(db, groupId, userId).Some? && Joinable(db, groupId)
    ensures r.Ok? ==>
              && r.value.group == db.groups.rows[groupId]
              && r.value.myAnonymousName == Membership(db, groupId, userId).value.data.anonymousName
              && r.value.messages == RecentActiveMessages(db, groupId)
  {
    match Membership(db, groupId, userId)
    case None => Err(BadRequest("You are not a member of this group"))
    case Some(member) =>
      if !Joinable(db, groupId) then Err(NotFound("Group not found"))
      else Ok(Chat(db.groups.rows[groupId], RecentActiveMessages(db, groupId), member.data.anonymousName))
  }

  /** The chat read without the membership check. */
  function ListenToGroupMessages(db: GroupDb, groupId: Id): (r: Result<seq<Doc<Message>>>)
    ensures r.Err? <==> !Joinable(db, groupId)
    ensures r.Err? ==> r.error == NotFound("Group not found or inactive")
    ensures r.Ok? ==> r.value == RecentActiveMessages(db, groupId)
  {
    if !Joinable(db, groupId) then Err(NotFound("Group not found or inactive"))
    else Ok(RecentActiveMessages(db, groupId))
  }

  // ---------------------------------------------------------------------------
  // Listings
  // ---------------------------------------------------------------------------

  /** Every active group, largest `member_count` first. */
  function GetAvailableGroups(db: GroupDb): (r: seq<Doc<Group>>)
    ensures NonIncreasing(r, MemberCountOf)
    ensures multiset(r) == multiset(db.groups.Select(IsActiveGroup))
    ensures db.Valid() ==> forall d :: d in r <==>
              d.id in db.groups.rows && db.groups.rows[d.id] == d.data && d.data.isActive
  {
    var active := db.groups.Select(IsActiveGroup);
    var r := SortDesc(active, MemberCountOf);
    assert forall d :: d in r <==> d in active by {
      forall d ensures d in r <==> d in active {
        assert d in r <==> d in multiset(r);
        assert d in active <==> d in multiset(active);
      }
    }
    assert db.Valid() ==> forall d :: d in active <==>
              d.id in db.groups.rows && db.groups.rows[d.id] == d.data && d.data.isActive by {
      if db.Valid() {
        forall d ensures d in active <==> d.id in db.groups.rows && db.groups.rows[d.id] == d.data && d.data.isActive {
          SelectSpec(db.groups, IsActiveGroup, d);
        }
      }
    }
    r
  }

  /** Looks up the group each membership points at, dropping missing ones. */
  function FetchGroups(groups: Table<Group>, ms: seq<Doc<Member>>): (r: seq<Doc<Group>>)
    ensures |r| <= |ms|
    ensures forall i :: 0 <= i < |r| ==>
              && r[i].id in groups.rows && groups.rows[r[i].id] == r[i].data
              && exists j :: 0 <= j < |ms| && ms[j].data.groupId == r[i].id
    ensures forall j :: 0 <= j < |ms| && ms[j].data.groupId in groups.rows ==>
              Doc(ms[j].data.groupId, groups.rows[ms[j].data.groupId]) in r
  {
    if |ms| == 0 then []
    else
      var rest := FetchGroups(groups, ms[..|ms| - 1]);
      var g := ms[|ms| - 1].data.groupId;
      if g in groups.rows then rest + [Doc(g, groups.rows[g])] else rest
  }

  /** The groups of the caller's active memberships that still exist. Whether
      the group is active is not checked. */
  function GetUserGroups(db: GroupDb, userId: UserId): (r: seq<Doc<Group>>)
    ensures forall i :: 0 <= i < |r| ==>
              (&& r[i].id in db.groups.rows && db.groups.rows[r[i].id] == r[i].data
               && IsMember(db, r[i].id, userId))
    ensures db.Valid() ==> forall k ::
              (k in db.members.rows && ActiveMembershipsOf(userId)(db.members.rows[k])
               && db.members.rows[k].groupId in db.groups.rows) ==>
              Doc(db.members.rows[k].groupId, db.groups.rows[db.members.rows[k].groupId]) in r
  {
    var mine := db.members.Select(ActiveMembershipsOf(userId));
    var r := FetchGroups(db.groups, mine);
    UserGroupsSound(db, userId, mine, r);
    UserGroupsComplete(db, userId, mine, r);
    r
  }

  lemma UserGroupsSound(db: GroupDb, userId: UserId, mine: seq<Doc<Member>>, r: seq<Doc<Group>>)
    requires mine == db.members.Select(ActiveMembershipsOf(userId))
    requires forall i :: 0 <= i < |r| ==> exists j :: 0 <= j < |mine| && mine[j].data.groupId == r[i].id
    ensures forall i :: 0 <= i < |r| ==> IsMember(db, r[i].id, userId)
  {
    forall i | 0 <= i < |r| ensures IsMember(db, r[i].id, userId) {
      var j :| 0 <= j < |mine| && mine[j].data.groupId == r[i].id;
      var m := mine[j];
      assert m.id in db.members.rows && db.members.rows[m.id] == m.data;
      assert ActiveMembershipsOf(userId)(m.data);
      assert ActiveMembershipOf(r[i].id, userId)(db.members.rows[m.id]);
      var k := m.id;
      assert k in db.members.rows && ActiveMembershipOf(r[i].id, userId)(db.members.rows[k]);
    }
  }

  lemma UserGroupsComplete(db: GroupDb, userId: UserId, mine: seq<Doc<Member>>, r: seq<Doc<Group>>)
    requires mine == db.members.Select(ActiveMembershipsOf(userId))
    requires forall j :: 0 <= j < |mine| && mine[j].data.groupId in db.groups.rows ==>
               Doc(mine[j].data.groupId, db.groups.rows[mine[j].data.groupId]) in r
    ensures db.Valid() ==> forall k ::
              (k in db.members.rows && ActiveMembershipsOf(userId)(db.members.rows[k])
               && db.members.rows[k].groupId in db.groups.rows) ==>
              Doc(db.members.rows[k].groupId, db.groups.rows[db.members.rows[k].groupId]) in r
  {
    forall k | db.Valid() && k in db.members.rows && ActiveMembershipsOf(userId)(db.members.rows[k])
               && db.members.rows[k].groupId in db.groups.rows
      ensures Doc(db.members.rows[k].groupId, db.groups.rows[db.members.rows[k].groupId]) in r
    {
      assert Doc(k, db.members.rows[k]) in mine;
      var j :| 0 <= j < |mine| && mine[j] == Doc(k, db.members.rows[k]);
    }
  }
}

=== FILE: post_properties.dfy ===
/** Invariants of the post-side store that every operation keeps: records
    point at stored parents, a user likes a comment once and supports a
    post once per type, and the like and support counters equal the records
    they count. */
module PostProperties {

  import opened Wrappers
  import opened Store
  import opened PostStore
  import Posts
  import Comments
  import Supports
  import SupportStats

  /** Every support record belongs to a stored post. */
  ghost predicate SupportsAttached(db: PostDb) {
    forall s :: s in db.supports.rows ==> db.supports.rows[s].postId in db.posts.rows
  }

  ghost predicate Inv(db: PostDb) {
    && db.Valid()
    && Comments.CommentsAttached(db)
    && Comments.LikesAttached(db)
    && SupportsAttached(db)
    && Comments.OneLikePerUser(db)
    && Comments.LikeCountsMatch(db)
    && Supports.OneSupportPerKey(db)
    && Supports.SupportCountsMatch(db)
  }

  /** The empty store. */
  function Empty(): (db: PostDb)
    ensures Inv(db)
  {
    PostDb(Table(map[], 0), Table(map[], 0), Table(map[], 0), Table(map[], 0))
  }

  // ---------------------------------------------------------------------------
  // Frames: a change that leaves a counter's inputs alone keeps it in step
  // ---------------------------------------------------------------------------

  lemma SupportCountsFrame(db: PostDb, db': PostDb)
    requires Supports.SupportCountsMatch(db)
    requires db'.supports == db.supports && db'.posts.rows.Keys == db.posts.rows.Keys
    requires forall p :: p in db.posts.rows ==> OrZero(db'.posts.rows[p].supportCount) == OrZero(db.posts.rows[p].supportCount)
    ensures Supports.SupportCountsMatch(db')
  {
  }

  lemma LikeCountsFrame(db: PostDb, db': PostDb)
    requires Comments.LikeCountsMatch(db)
    requires db'.likes == db.likes && db'.comments.rows.Keys == db.comments.rows.Keys
    requires forall c :: c in db.comments.rows ==> OrZero(db'.comments.rows[c].likesCount) == OrZero(db.comments.rows[c].likesCount)
    ensures Comments.LikeCountsMatch(db')
  {
  }

  /** A change to post records alone that keeps every post and its support
      counter keeps the invariant. */
  lemma PostEditFrame(db: PostDb, db': PostDb)
    requires Inv(db) && db'.Valid()
    requires db'.comments == db.comments && db'.likes == db.likes && db'.supports == db.supports
    requires db'.posts.rows.Keys == db.posts.rows.Keys
    requires forall p :: p in db.posts.rows ==> OrZero(db'.posts.rows[p].supportCount) == OrZero(db.posts.rows[p].supportCount)
    ensures Inv(db')
  {
    SupportCountsFrame(db, db');
  }

  /** A change to comment records alone that keeps every comment, its post
      and its like counter keeps the invariant. */
  lemma CommentEditFrame(db: PostDb, db': PostDb)
    requires Inv(db) && db'.Valid()
    requires db'.posts == db.posts && db'.likes == db.likes && db'.supports == db.supports
    requires db'.comments.rows.Keys == db.comments.rows.Keys
    requires forall c :: c in db.comments.rows ==> db'.comments.rows[c].postId == db.comments.rows[c].postId
    requires forall c :: c in db.comments.rows ==> OrZero(db'.comments.rows[c].likesCount) == OrZero(db.comments.rows[c].likesCount)
    ensures Inv(db')
  {
    LikeCountsFrame(db, db');
  }

  // ---------------------------------------------------------------------------
  // One lemma per operation
  // ---------------------------------------------------------------------------

  lemma CreatePostKeepsInv(db: PostDb, userId: UserId, req: Posts.PostRequest, now: Millis)
    requires Inv(db)
    ensures Inv(Posts.CreatePost(db, userId, req, now).0)
  {
    var (db', doc) := Posts.CreatePost(db, userId, req, now);
    assert db.supports.MatchIds(SupportStats.SupportOfPost(doc.id)) == {};
  }

  lemma GetPostByIdKeepsInv(db: PostDb, postId: Id)
    requires Inv(db)
    ensures Inv(Posts.GetPostById(db, postId).db)
  {
    PostEditFrame(db, Posts.GetPostById(db, postId).db);
  }

  lemma UpdatePostKeepsInv(db: PostDb, postId: Id, userId: UserId, patch: Posts.PostPatch, now: Millis)
    requires Inv(db)
    ensures Inv(Posts.UpdatePost(db, postId, userId, patch, now).db)
  {
    PostEditFrame(db, Posts.UpdatePost(db, postId, userId, patch, now).db);
  }

  /** The author of a post can break the support invariant through the edit
      route: a support counter other than the number of supports is written
      as given. */
  lemma RawPostEditBreaksSupportCounts(db: PostDb, postId: Id, userId: UserId, patch: Posts.RawPostPatch, now: Millis)
    requires postId in db.posts.rows && db.posts.rows[postId].authorId == userId
    requires patch.supportCount.Some?
    requires OrZero(patch.supportCount) != |db.supports.MatchIds(SupportStats.SupportOfPost(postId))|
    ensures !Supports.SupportCountsMatch(Posts.UpdatePostAsWritten(db, postId, userId, patch, now).db)
  {
    var db' := Posts.UpdatePostAsWritten(db, postId, userId, patch, now).db;
    assert postId in db'.posts.rows;
    assert db'.supports == db.supports;
  }

  lemma DeletePostKeepsInv(db: PostDb, postId: Id, userId: UserId, now: Millis)
    requires Inv(db)
    ensures Inv(Posts.DeletePost(db, postId, userId, now).db)
  {
    var db' := Posts.DeletePost(db, postId, userId, now).db;
    SupportCountsFrame(db, db');
  }

  lemma CreateCommentKeepsInv(db: PostDb, userId: UserId, postId: Id, req: Comments.CommentRequest, now: Millis)
    requires Inv(db)
    ensures Inv(Comments.CreateComment(db, userId, postId, req, now).db)
  {
    var db' := Comments.CreateComment(db, userId, postId, req, now).db;
    Comments.CreateCommentKeepsLikeCounts(db, userId, postId, req, now);
    SupportCountsFrame(db, db');
  }

  lemma UpdateCommentKeepsInv(db: PostDb, commentId: Id, userId: UserId, patch: Comments.CommentPatch, now: Millis)
    requires Inv(db)
    ensures Inv(Comments.UpdateComment(db, commentId, userId, patch, now).db)
  {
    CommentEditFrame(db, Comments.UpdateComment(db, commentId, userId, patch, now).db);
  }

  lemma DeleteCommentKeepsInv(db: PostDb, commentId: Id, userId: UserId, now: Millis)
    requires Inv(db)
    ensures Inv(Comments.DeleteComment(db, commentId, userId, now).db)
  {
    var r := Comments.DeleteComment(db, commentId, userId, now);
    if commentId in db.comments.rows && db.comments.rows[commentId].authorId == userId {
      var soft := Comments.SoftDelete(db, commentId, now);
      SoftDeleteKeepsInv(db, commentId, now);
      if db.comments.rows[commentId].postId in db.posts.rows {
        assert r.db.comments == soft.comments && r.db.likes == soft.likes && r.db.supports == soft.supports;
        PostEditFrame(soft, r.db);
      }
    }
  }

  lemma SoftDeleteKeepsInv(db: PostDb, commentId: Id, now: Millis)
    requires Inv(db) && commentId in db.comments.rows
    ensures Inv(Comments.SoftDelete(db, commentId, now))
  {
    CommentEditFrame(db, Comments.SoftDelete(db, commentId, now));
  }

  lemma ToggleLikeKeepsInv(db: PostDb, commentId: Id, userId: UserId, now: Millis)
    requires Inv(db)
    ensures Inv(Comments.ToggleCommentLike(db, commentId, userId, now).db)
  {
    Comments.ToggleKeepsOneLike(db, commentId, userId, now);
    Comments.ToggleKeepsLikeCounts(db, commentId, userId, now);
  }

  lemma SupportPostKeepsInv(db: PostDb, userId: UserId, postId: Id, req: Supports.SupportRequest, now: Millis)
    requires Inv(db)
    ensures Inv(Supports.SupportPost(db, userId, postId, req, now).db)
  {
    Supports.SupportKeepsOneSupport(db, userId, postId, req, now);
    Supports.SupportKeepsCounts(db, userId, postId, req, now);
  }

  lemma RemoveSupportKeepsInv(db: PostDb, userId: UserId, postId: Id, supportType: string)
    requires Inv(db)
    ensures Inv(Supports.RemoveSupport(db, userId, postId, supportType).db)
  {
    Supports.RemoveKeepsOneSupport(db, userId, postId, supportType);
    Supports.RemoveKeepsCounts(db, userId, postId, supportType);
  }

  // ---------------------------------------------------------------------------
  // Any sequence of operations
  // ---------------------------------------------------------------------------

  /** The writing endpoints of the post services. */
  datatype Command =
    | NewPost(userId: UserId, post: Posts.PostRequest)
    | View(postId: Id)
    | EditPost(postId: Id, userId: UserId, postPatch: Posts.PostPatch)
    | RemovePost(postId: Id, userId: UserId)
    | NewComment(userId: UserId, postId: Id, comment: Comments.CommentRequest)
    | EditComment(commentId: Id, userId: UserId, commentPatch: Comments.CommentPatch)
    | RemoveComment(commentId: Id, userId: UserId)
    | ToggleLike(commentId: Id, userId: UserId)
    | Give(userId: UserId, postId: Id, support: Supports.SupportRequest)
    | Withdraw(userId: UserId, postId: Id, supportType: string)

  function Apply(db: PostDb, c: Command, now: Millis): PostDb {
    match c
    case NewPost(u, req) => Posts.CreatePost(db, u, req, now).0
    case View(p) => Posts.GetPostById(db, p).db
    case EditPost(p, u, patch) => Posts.UpdatePost(db, p, u, patch, now).db
    case RemovePost(p, u) => Posts.DeletePost(db, p, u, now).db
    case NewComment(u, p, req) => Comments.CreateComment(db, u, p, req, now).db
    case EditComment(k, u, patch) => Comments.UpdateComment(db, k, u, patch, now).db
    case RemoveComment(k, u) => Comments.DeleteComment(db, k, u, now).db
    case ToggleLike(k, u) => Comments.ToggleCommentLike(db, k, u, now).db
    case Give(u, p, req) => Supports.SupportPost(db, u, p, req, now).db
    case Withdraw(u, p, t) => Supports.RemoveSupport(db, u, p, t).db
  }

  lemma ApplyKeepsInv(db: PostDb, c: Command, now: Millis)
    requires Inv(db)
    ensures Inv(Apply(db, c, now))
  {
    if c.NewPost? || c.View? {
      ApplyReadOrCreateKeepsInv(db, c, now);
    } else if c.EditPost? || c.RemovePost? {
      ApplyPostEditKeepsInv(db, c, now);
    } else if c.NewComment? || c.EditComment? {
      ApplyCommentWriteKeepsInv(db, c, now);
    } else if c.RemoveComment? || c.ToggleLike? {
      ApplyCommentRemoveOrLikeKeepsInv(db, c, now);
    } else {
      ApplySupportKeepsInv(db, c, now);
    }
  }

  lemma ApplyReadOrCreateKeepsInv(db: PostDb, c: Command, now: Millis)
    requires Inv(db) && (c.NewPost? || c.View?)
    ensures Inv(Apply(db, c, now))
  {
    if c.NewPost? {
      CreatePostKeepsInv(db, c.userId, c.post, now);
    } else {
      GetPostByIdKeepsInv(db, c.postId);
    }
  }

  lemma ApplyPostEditKeepsInv(db: PostDb, c: Command, now: Millis)
    requires Inv(db) && (c.EditPost? || c.RemovePost?)
    ensures Inv(Apply(db, c, now))
  {
    if c.EditPost? {
      UpdatePostKeepsInv(db, c.postId, c.userId, c.postPatch, now);
    } else {
      DeletePostKeepsInv(db, c.postId, c.userId, now);
    }
  }

  lemma ApplyCommentWriteKeepsInv(db: PostDb, c: Command, now: Millis)
    requires Inv(db) && (c.NewComment? || c.EditComment?)
    ensures Inv(Apply(db, c, now))
  {
    if c.NewComment? {
      CreateCommentKeepsInv(db, c.userId, c.postId, c.comment, now);
    } else {
      UpdateCommentKeepsInv(db, c.commentId, c.userId, c.commentPatch, now);
    }
  }

  lemma ApplyCommentRemoveOrLikeKeepsInv(db: PostDb, c: Command, now: Millis)
    requires Inv(db) && (c.RemoveComment? || c.ToggleLike?)
    ensures Inv(Apply(db, c, now))
  {
    if c.RemoveComment? {
      DeleteCommentKeepsInv(db, c.commentId, c.userId, now);
    } else {
      ToggleLikeKeepsInv(db, c.commentId, c.userId, now);
    }
  }

  lemma ApplySupportKeepsInv(db: PostDb, c: Command, now: Millis)
    requires Inv(db) && (c.Give? || c.Withdraw?)
    ensures Inv(Apply(db, c, now))
  {
    if c.Give? {
      SupportPostKeepsInv(db, c.userId, c.postId, c.support, now);
    } else {
      RemoveSupportKeepsInv(db, c.userId, c.postId, c.supportType);
    }
  }

  function ApplyAll(db: PostDb, cs: seq<(Command, Millis)>): PostDb
    decreases |cs|
  {
    if |cs| == 0 then db else ApplyAll(Apply(db, cs[0].0, cs[0].1), cs[1..])
  }

  /** From the empty store, any run of the writing endpoints keeps the
      invariant, so like and support counters are never negative. */
  lemma {:induction false} ApplyAllKeepsInv(db: PostDb, cs: seq<(Command, Millis)>)
    requires Inv(db)
    ensures Inv(ApplyAll(db, cs))
    ensures var db' := ApplyAll(db, cs);
            && (forall p :: p in db'.posts.rows ==> OrZero(db'.posts.rows[p].supportCount) >= 0)
            && (forall c :: c in db'.comments.rows ==> OrZero(db'.comments.rows[c].likesCount) >= 0)
    decreases |cs|
  {
    if |cs| > 0 {
      ApplyKeepsInv(db, cs[0].0, cs[0].1);
      ApplyAllKeepsInv(Apply(db, cs[0].0, cs[0].1), cs[1..]);
    }
  }
}

=== FILE: post_store.dfy ===
/** The records behind posts: the `posts`, `post_comments`,
    `comment_likes` and `post_support` collections, and the page cut the
    listing endpoints share. */
module PostStore {

  import opened Wrappers
  import opened Store

  type UserId = string

  /** Milliseconds since the epoch. */
  type Millis = int

  /** `status` of a post or comment: 'active', 'deleted' or 'hidden'. */
  datatype Status = Active | Deleted | Hidden

  /** A counter field read as `(field || 0)`: an absent counter reads as zero. */
  function OrZero(c: Option<int>): (r: int)
    ensures c.None? ==> r == 0
    ensures c.Some? ==> r == c.value
  {
    match c
    case None => 0
    case Some(n) => n
  }

  /** A post. Optional fields may be absent from a stored document; the
      counters are optional because a document written elsewhere may lack them. */
  datatype Post = Post(
    authorId: UserId,
    content: Option<string>,
    mood: Option<string>,
    category: Option<string>,
    tags: Option<seq<string>>,
    createdAt: Millis,
    updatedAt: Millis,
    likesCount: Option<int>,
    commentsCount: Option<int>,
    supportCount: Option<int>,
    viewsCount: Option<int>,
    isAnonymous: bool,
    status: Status)

  datatype Comment = Comment(
    postId: Id,
    authorId: UserId,
    content: string,
    supportType: Option<string>,
    createdAt: Millis,
    updatedAt: Millis,
    likesCount: Option<int>,
    isAnonymous: bool,
    status: Status)

  datatype Like = Like(commentId: Id, userId: UserId, createdAt: Millis)

  datatype Support = Support(
    postId: Id,
    userId: UserId,
    supportType: Option<string>,
    message: Option<string>,
    createdAt: Millis,
    isAnonymous: bool)

  datatype PostDb = PostDb(
    posts: Table<Post>,
    comments: Table<Comment>,
    likes: Table<Like>,
    supports: Table<Support>)
  {
    predicate Valid() {
      posts.Valid() && comments.Valid() && likes.Valid() && supports.Valid()
    }
  }

  /** The database after an operation together with what it returned or
      threw. A throw after a write keeps the write. */
  datatype Reply<T> = Reply(db: PostDb, result: Result<T>)

  /** The comments a post's `comments_count` is meant to count. */
  function ActiveCommentOn(postId: Id): Comment -> bool {
    (c: Comment) => c.postId == postId && c.status == Active
  }

  function CreatedAtOfPost(p: Post): int { p.createdAt }
  function CreatedAtOfComment(c: Comment): int { c.createdAt }
  function CreatedAtOfSupport(s: Support): int { s.createdAt }

  // ---------------------------------------------------------------------------
  // Pages
  // ---------------------------------------------------------------------------

  /** `{ items, page, limit, total: items.length, hasMore: items.length === limit }`. */
  datatype Listing<T> = Listing(items: seq<T>, page: int, limit: int, total: nat, hasMore: bool)

  function Min(a: int, b: int): int { if a <= b then a else b }

  /** The sign of the offset `(page - 1) * limit`. */
  lemma OffsetSign(page: int, limit: int)
    requires limit >= 0
    ensures (page - 1) * limit < 0 <==> limit > 0 && page < 1
  {
    if limit > 0 && page < 1 {
      assert (page - 1) * limit <= -limit;
    }
    if page >= 1 {
      assert (page - 1) * limit >= 0;
    }
  }

  /** `.limit(limit).offset((page - 1) * limit)` over an ordered result. The
      store refuses a negative limit or offset; the service turns that into
      a BadRequest carrying its own `failure` text. */
  function Paginate<T>(all: seq<T>, page: int, limit: int, failure: string): (r: Result<Listing<T>>)
    ensures r.Err? <==> limit < 0 || (limit > 0 && page < 1)
    ensures r.Err? ==> r.error == BadRequest(failure)
    ensures r.Ok? ==> r.value.page == page && r.value.limit == limit && (page - 1) * limit >= 0
    ensures r.Ok? ==>
              var o := (page - 1) * limit;
              |r.value.items| == (if |all| <= o then 0 else Min(limit, |all| - o))
    ensures r.Ok? ==> forall i :: 0 <= i < |r.value.items| ==> r.value.items[i] == all[(page - 1) * limit + i]
    ensures r.Ok? ==> r.value.total == |r.value.items|
    ensures r.Ok? ==> (r.value.hasMore <==> |r.value.items| == limit)
  {
    if limit < 0 then Err(BadRequest(failure))
    else
      OffsetSign(page, limit);
      var offset := (page - 1) * limit;
      if offset < 0 then Err(BadRequest(failure))
      else
        var items := Window(all, offset, limit);
        Ok(Listing(items, page, limit, |items|, |items| == limit))
  }

  /** A page without `hasMore` is the last one: the next page is empty. */
  lemma ShortPageIsLast<T>(all: seq<T>, page: int, limit: int, failure: string)
    requires limit > 0
    requires Paginate(all, page, limit, failure).Ok? && !Paginate(all, page, limit, failure).value.hasMore
    ensures Paginate(all, page + 1, limit, failure).Ok?
    ensures Paginate(all, page + 1, limit, failure).value.items == []
  {
    assert (page + 1 - 1) * limit == (page - 1) * limit + limit;
  }

  /** Consecutive pages are adjacent slices: the first item of page `p + 1`
      follows the last item of a full page `p`. */
  lemma PagesAreAdjacent<T>(all: seq<T>, page: int, limit: int, failure: string)
    requires limit > 0
    requires Paginate(all, page, limit, failure).Ok? && Paginate(all, page, limit, failure).value.hasMore
    requires |all| > page * limit
    ensures Paginate(all, page + 1, limit, failure).Ok?
    ensures Paginate(all, page + 1, limit, failure).value.items[0] == all[page * limit]
  {
    assert (page + 1 - 1) * limit == page * limit;
  }

  /** The listing endpoints: a filtered query, newest first, cut to one page. */
  function ListNewest<T>(t: Table<T>, p: T -> bool, createdAt: T -> int, page: int, limit: int, failure: string)
    : (r: Result<Listing<Doc<T>>>)
    ensures r.Err? <==> limit < 0 || (limit > 0 && page < 1)
    ensures r.Err? ==> r.error == BadRequest(failure)
    ensures r.Ok? ==> forall i :: 0 <= i < |r.value.items| ==>
              var d := r.value.items[i]; d.id in t.rows && t.rows[d.id] == d.data && p(d.data)
    ensures r.Ok? ==> NonIncreasing(r.value.items, DocKey(createdAt))
    ensures r.Ok? ==> r.value.total == |r.value.items| <= (if limit < 0 then 0 else limit)
    ensures r.Ok? ==> (r.value.hasMore <==> |r.value.items| == limit)
    ensures r.Ok? ==> (page - 1) * limit >= 0
    ensures r.Ok? ==> r.value.items == Window(SelectDesc(t, p, createdAt), (page - 1) * limit, limit)
  {
    var all := SelectDesc(t, p, createdAt);
    var r := Paginate(all, page, limit, failure);
    if r.Ok? then
      assert forall i :: 0 <= i < |r.value.items| ==> r.value.items[i] == all[(page - 1) * limit + i];
      assert forall i, j :: 0 <= i < j < |r.value.items| ==>
        r.value.items[i] == all[(page - 1) * limit + i] && r.value.items[j] == all[(page - 1) * limit + j];
      r
    else r
  }

  /** Paging never loses a record: with a positive limit, every stored
      record the query matches is on some page, at the page its position in
      the newest-first order puts it on. */
  lemma EveryHitOnSomePage<T>(t: Table<T>, p: T -> bool, createdAt: T -> int, limit: int, failure: string, k: Id)
    requires t.Valid() && limit > 0 && k in t.rows && p(t.rows[k])
    ensures exists page :: page >= 1
              && ListNewest(t, p, createdAt, page, limit, failure).Ok?
              && Doc(k, t.rows[k]) in ListNewest(t, p, createdAt, page, limit, failure).value.items
  {
    var all := SelectDesc(t, p, createdAt);
    var i :| 0 <= i < |all| && all[i] == Doc(k, t.rows[k]);
    var page := PageOfIndex(i, limit);
    PageHolds(t, p, createdAt, page, limit, failure, i);
  }

  /** The page that position `i` falls on, counting pages from 1. */
  lemma PageOfIndex(i: nat, limit: int) returns (page: int)
    requires limit > 0
    ensures page >= 1 && 0 <= (page - 1) * limit <= i < (page - 1) * limit + limit
  {
    page := i / limit + 1;
    assert (page - 1) * limit == (i / limit) * limit;
  }

  /** Page `page` holds every record whose position falls within it. */
  lemma PageHolds<T>(t: Table<T>, p: T -> bool, createdAt: T -> int, page: int, limit: int, failure: string, i: nat)
    requires page >= 1 && limit > 0
    requires 0 <= (page - 1) * limit <= i < (page - 1) * limit + limit
    requires i < |SelectDesc(t, p, createdAt)|
    ensures ListNewest(t, p, createdAt, page, limit, failure).Ok?
    ensures SelectDesc(t, p, createdAt)[i] in ListNewest(t, p, createdAt, page, limit, failure).value.items
  {
    WindowHolds(SelectDesc(t, p, createdAt), (page - 1) * limit, limit, i);
  }

  lemma WindowHolds<X>(s: seq<X>, offset: nat, n: nat, i: nat)
    requires offset <= i < offset + n && i < |s|
    ensures s[i] in Window(s, offset, n)
  {
    assert Window(s, offset, n)[i - offset] == s[i];
  }

}

=== FILE: posts.dfy ===
/** `PostService`: creating, listing, reading, editing, soft-deleting and
    searching posts. */
module Posts {

  import opened Wrappers
  import opened Store
  import opened PostStore
  import SupportStats
  import Text

  /** Comments returned with a single post. */
  const CommentPreview: nat := 50
  /** Newest active posts a search looks at. */
  const SearchScan: nat := 100

  /** The body of a create-post request. */
  datatype PostRequest = PostRequest(
    content: Option<string>,
    mood: Option<string>,
    category: Option<string>,
    tags: Option<seq<string>>)

  /** `createPost`: the request's fields plus the author, both timestamps,
      zeroed counters, the anonymous flag and status 'active'. */
  function CreatePost(db: PostDb, userId: UserId, req: PostRequest, now: Millis): (r: (PostDb, Doc<Post>))
    ensures r.1.data.authorId == userId && r.1.data.status == Active && r.1.data.isAnonymous
    ensures r.1.data.likesCount == Some(0) && r.1.data.commentsCount == Some(0)
    ensures r.1.data.supportCount == Some(0) && r.1.data.viewsCount == Some(0)
    ensures r.1.data.createdAt == now && r.1.data.updatedAt == now
    ensures r.1.data.content == req.content && r.1.data.mood == req.mood
    ensures r.1.data.category == req.category && r.1.data.tags == req.tags
    ensures db.Valid() ==> r.0.Valid() && r.1.id !in db.posts.rows
    ensures r.0.posts.rows == db.posts.rows[r.1.id := r.1.data]
    ensures r.0.comments == db.comments && r.0.likes == db.likes && r.0.supports == db.supports
  {
    var post := Post(userId, req.content, req.mood, req.category, req.tags, now, now,
                     Some(0), Some(0), Some(0), Some(0), true, Active);
    var (posts, id) := db.posts.Insert(post);
    (db.(posts := posts), Doc(id, post))
  }

  // ---------------------------------------------------------------------------
  // Listings
  // ---------------------------------------------------------------------------

  /** A filter argument applies when it is a non-empty string (`if (category)`). */
  predicate Given(o: Option<string>) {
    o.Some? && o.value != ""
  }

  function FeedFilter(category: Option<string>, mood: Option<string>): Post -> bool {
    (p: Post) =>
      p.status == Active
      && (Given(category) ==> p.category == category)
      && (Given(mood) ==> p.mood == mood)
  }

  /** `getAllPosts`: active posts, optionally of one category and one mood,
      newest first, one page. */
  function GetAllPosts(db: PostDb, page: int, limit: int, category: Option<string>, mood: Option<string>)
    : (r: Result<Listing<Doc<Post>>>)
    ensures r.Err? <==> limit < 0 || (limit > 0 && page < 1)
    ensures r.Err? ==> r.error == BadRequest("Failed to fetch posts")
    ensures r.Ok? ==> forall i :: 0 <= i < |r.value.items| ==>
              var d := r.value.items[i];
              && d.id in db.posts.rows && db.posts.rows[d.id] == d.data
              && d.data.status == Active
              && (Given(category) ==> d.data.category == category)
              && (Given(mood) ==> d.data.mood == mood)
    ensures r.Ok? ==> NonIncreasing(r.value.items, DocKey(CreatedAtOfPost))
    ensures r.Ok? ==> (r.value.hasMore <==> |r.value.items| == limit)
    ensures r.Ok? ==> (page - 1) * limit >= 0
    ensures r.Ok? ==> r.value.items == Window(SelectDesc(db.posts, FeedFilter(category, mood), CreatedAtOfPost), (page - 1) * limit, limit)
  {
    ListNewest(db.posts, FeedFilter(category, mood), CreatedAtOfPost, page, limit, "Failed to fetch posts")
  }

  /** Every active post that passes the filters is on some page of the feed. */
  lemma EveryFeedPostListed(db: PostDb, category: Option<string>, mood: Option<string>, limit: int, k: Id)
    requires db.Valid() && limit > 0 && k in db.posts.rows
    requires db.posts.rows[k].status == Active
    requires Given(category) ==> db.posts.rows[k].category == category
    requires Given(mood) ==> db.posts.rows[k].mood == mood
    ensures exists page :: page >= 1
              && GetAllPosts(db, page, limit, category, mood).Ok?
              && Doc(k, db.posts.rows[k]) in GetAllPosts(db, page, limit, category, mood).value.items
  {
    var f := FeedFilter(category, mood);
    EveryHitOnSomePage(db.posts, f, CreatedAtOfPost, limit, "Failed to fetch posts", k);
    var page :| page >= 1
      && ListNewest(db.posts, f, CreatedAtOfPost, page, limit, "Failed to fetch posts").Ok?
      && Doc(k, db.posts.rows[k]) in ListNewest(db.posts, f, CreatedAtOfPost, page, limit, "Failed to fetch posts").value.items;
    assert GetAllPosts(db, page, limit, category, mood) == ListNewest(db.posts, f, CreatedAtOfPost, page, limit, "Failed to fetch posts");
  }

  function ActivePostBy(userId: UserId): Post -> bool {
    (p: Post) => p.authorId == userId && p.status == Active
  }

  /** `getPostsByUser`: the user's active posts, newest first, one page. */
  function GetPostsByUser(db: PostDb, userId: UserId, page: int, limit: int): (r: Result<Listing<Doc<Post>>>)
    ensures r.Err? <==> limit < 0 || (limit > 0 && page < 1)
    ensures r.Err? ==> r.error == BadRequest("Failed to fetch user posts")
    ensures r.Ok? ==> forall i :: 0 <= i < |r.value.items| ==>
              var d := r.value.items[i];
              d.id in db.posts.rows && db.posts.rows[d.id] == d.data && d.data.authorId == userId && d.data.status == Active
    ensures r.Ok? ==> NonIncreasing(r.value.items, DocKey(CreatedAtOfPost))
    ensures r.Ok? ==> (r.value.hasMore <==> |r.value.items| == limit)
    ensures r.Ok? ==> (page - 1) * limit >= 0
    ensures r.Ok? ==> r.value.items == Window(SelectDesc(db.posts, ActivePostBy(userId), CreatedAtOfPost), (page - 1) * limit, limit)
  {
    ListNewest(db.posts, ActivePostBy(userId), CreatedAtOfPost, page, limit, "Failed to fetch user posts")
  }

  /** Every active post of the user is on some page of their posts. */
  lemma EveryUserPostListed(db: PostDb, userId: UserId, limit: int, k: Id)
    requires db.Valid() && limit > 0 && k in db.posts.rows
    requires db.posts.rows[k].authorId == userId && db.posts.rows[k].status == Active
    ensures exists page :: page >= 1
              && GetPostsByUser(db, userId, page, limit).Ok?
              && Doc(k, db.posts.rows[k]) in GetPostsByUser(db, userId, page, limit).value.items
  {
    var f := ActivePostBy(userId);
    EveryHitOnSomePage(db.posts, f, CreatedAtOfPost, limit, "Failed to fetch user posts", k);
    var page :| page >= 1
      && ListNewest(db.posts, f, CreatedAtOfPost, page, limit, "Failed to fetch user posts").Ok?
      && Doc(k, db.posts.rows[k]) in ListNewest(db.posts, f, CreatedAtOfPost, page, limit, "Failed to fetch user posts").value.items;
    assert GetPostsByUser(db, userId, page, limit) == ListNewest(db.posts, f, CreatedAtOfPost, page, limit, "Failed to fetch user posts");
  }

  // ---------------------------------------------------------------------------
  // Reading one post
  // ---------------------------------------------------------------------------

  /** What a single-post read returns. */
  datatype PostView = PostView(id: Id, post: Post, comments: seq<Doc<Comment>>, supportStats: SupportStats.Summary)

  /** The comments shown with a post: its active comments, newest first, at most 50. */
  function Preview(db: PostDb, postId: Id): (cs: seq<Doc<Comment>>)
    ensures |cs| == Min(CommentPreview, |db.comments.Select(ActiveCommentOn(postId))|)
    ensures NonIncreasing(cs, DocKey(CreatedAtOfComment))
    ensures var hits := db.comments.Select(ActiveCommentOn(postId));
            forall i, j :: 0 <= i < |hits| && 0 <= j < |cs| && hits[i] !in cs ==>
              hits[i].data.createdAt <= cs[j].data.createdAt
    ensures forall i :: 0 <= i < |cs| ==>
              cs[i].id in db.comments.rows && db.comments.rows[cs[i].id] == cs[i].data
              && cs[i].data.postId == postId && cs[i].data.status == Active
  {
    var hits := db.comments.Select(ActiveCommentOn(postId));
    var key := DocKey(CreatedAtOfComment);
    var top := TopN(hits, key, CommentPreview);
    TopFromHits(db.comments, ActiveCommentOn(postId), top);
    TopIsNewest(hits, CreatedAtOfComment, CommentPreview);
    top
  }

  /** Every element drawn from a query's hits is a stored hit. */
  lemma TopFromHits<T>(t: Table<T>, p: T -> bool, top: seq<Doc<T>>)
    requires multiset(top) <= multiset(t.Select(p))
    ensures forall i :: 0 <= i < |top| ==> top[i].id in t.rows && t.rows[top[i].id] == top[i].data && p(top[i].data)
  {
    var hits := t.Select(p);
    forall i | 0 <= i < |top|
      ensures top[i].id in t.rows && t.rows[top[i].id] == top[i].data && p(top[i].data)
    {
      assert top[i] in multiset(top);
      assert top[i] in hits;
      var j :| 0 <= j < |hits| && hits[j] == top[i];
    }
  }

  /** What the newest `n` of some documents leave out is no newer than what they keep. */
  lemma TopIsNewest<T>(hits: seq<Doc<T>>, createdAt: T -> int, n: nat)
    ensures var top := TopN(hits, DocKey(createdAt), n);
            forall i, j :: 0 <= i < |hits| && 0 <= j < |top| && hits[i] !in top ==>
              createdAt(hits[i].data) <= createdAt(top[j].data)
  {
    var key := DocKey(createdAt);
    var top := TopN(hits, key, n);
    forall i, j | 0 <= i < |hits| && 0 <= j < |top| && hits[i] !in top
      ensures createdAt(hits[i].data) <= createdAt(top[j].data)
    {
      assert key(hits[i]) <= key(top[j]);
    }
  }

  /** The preview holds every active comment of the post, or 50 of them. */
  lemma PreviewSize(db: PostDb, postId: Id)
    requires db.Valid()
    ensures |Preview(db, postId)| == Min(CommentPreview, |db.comments.MatchIds(ActiveCommentOn(postId))|)
  {
    SelectCountIsMatchCount(db.comments, ActiveCommentOn(postId));
  }

  /** The comments shown are the newest active ones: an active comment of
      the post is left out only when 50 are shown, each no older than it. */
  lemma PreviewHasNewest(db: PostDb, postId: Id, k: Id)
    requires db.Valid() && k in db.comments.rows
    requires db.comments.rows[k].postId == postId && db.comments.rows[k].status == Active
    ensures var cs := Preview(db, postId);
            Doc(k, db.comments.rows[k]) !in cs ==>
              |cs| == CommentPreview
              && forall j :: 0 <= j < |cs| ==> db.comments.rows[k].createdAt <= cs[j].data.createdAt
  {
    var key := DocKey(CreatedAtOfComment);
    var cs := TopN(db.comments.Select(ActiveCommentOn(postId)), key, CommentPreview);
    assert cs == Preview(db, postId);
    if Doc(k, db.comments.rows[k]) !in cs {
      TopOfSelect(db.comments, ActiveCommentOn(postId), key, CommentPreview, k);
      forall j | 0 <= j < |cs| ensures db.comments.rows[k].createdAt <= cs[j].data.createdAt {
        assert key(Doc(k, db.comments.rows[k])) <= key(cs[j]);
      }
    }
  }

  /** `getPostById`: the post as read, its newest active comments and its
      support statistics; the stored view counter goes up by one. */
  function GetPostById(db: PostDb, postId: Id): (r: Reply<PostView>)
    ensures r.result.Err? <==> postId !in db.posts.rows
    ensures r.result.Err? ==> r.result.error == NotFound("Post not found") && r.db == db
    ensures r.db.posts.rows.Keys == db.posts.rows.Keys
    ensures r.result.Ok? ==>
              var old_ := db.posts.rows[postId];
              var new_ := r.db.posts.rows[postId];
              && OrZero(new_.viewsCount) == OrZero(old_.viewsCount) + 1
              && new_.(viewsCount := old_.viewsCount) == old_
              && r.result.value.post == old_
              && r.result.value.comments == Preview(db, postId)
              && r.result.value.supportStats == SupportStats.GetPostSupportStats(db, postId)
    ensures forall k :: k in db.posts.rows && k != postId ==> r.db.posts.rows[k] == db.posts.rows[k]
    ensures r.db.comments == db.comments && r.db.likes == db.likes && r.db.supports == db.supports
    ensures db.Valid() ==> r.db.Valid()
  {
    if postId !in db.posts.rows then Reply(db, Err(NotFound("Post not found")))
    else
      var post := db.posts.rows[postId];
      var stats := SupportStats.GetPostSupportStats(db, postId);
      var viewed := post.(viewsCount := Some(OrZero(post.viewsCount) + 1));
      Reply(db.(posts := db.posts.Put(postId, viewed)), Ok(PostView(postId, post, Preview(db, postId), stats)))
  }

  // ---------------------------------------------------------------------------
  // Editing and deleting
  // ---------------------------------------------------------------------------

  /** The fields an edit may carry; `None` leaves the field as it is. */
  datatype PostPatch = PostPatch(
    content: Option<string>,
    mood: Option<string>,
    category: Option<string>,
    tags: Option<seq<string>>)

  /** `{ ...postData, ...updateData, updated_at: now }`. */
  function Overlay(p: Post, patch: PostPatch, now: Millis): (r: Post)
    ensures patch.content.Some? ==> r.content == patch.content
    ensures patch.mood.Some? ==> r.mood == patch.mood
    ensures patch.category.Some? ==> r.category == patch.category
    ensures patch.tags.Some? ==> r.tags == patch.tags
    ensures patch.content.None? ==> r.content == p.content
    ensures patch.mood.None? ==> r.mood == p.mood
    ensures patch.category.None? ==> r.category == p.category
    ensures patch.tags.None? ==> r.tags == p.tags
    ensures r.updatedAt == now
    ensures r.(content := p.content, mood := p.mood, category := p.category, tags := p.tags, updatedAt := p.updatedAt) == p
  {
    p.(content := if patch.content.Some? then patch.content else p.content,
       mood := if patch.mood.Some? then patch.mood else p.mood,
       category := if patch.category.Some? then patch.category else p.category,
       tags := if patch.tags.Some? then patch.tags else p.tags,
       updatedAt := now)
  }

  /** `updatePost`: only the author may edit; the stored post and the reply
      are the old post overlaid with the edit. */
  function UpdatePost(db: PostDb, postId: Id, userId: UserId, patch: PostPatch, now: Millis): (r: Reply<Doc<Post>>)
    ensures r.result.Err? <==> postId !in db.posts.rows || db.posts.rows[postId].authorId != userId
    ensures postId !in db.posts.rows ==> r.result == Err(NotFound("Post not found"))
    ensures postId in db.posts.rows && db.posts.rows[postId].authorId != userId ==>
              r.result == Err(BadRequest("You can only edit your own posts"))
    ensures r.result.Err? ==> r.db == db
    ensures r.db.posts.rows.Keys == db.posts.rows.Keys
    ensures r.result.Ok? ==>
              && r.result.value.id == postId
              && r.db.posts.rows[postId] == r.result.value.data
              && r.result.value.data == Overlay(db.posts.rows[postId], patch, now)
    ensures forall k :: k in db.posts.rows && k != postId ==> r.db.posts.rows[k] == db.posts.rows[k]
    ensures r.db.comments == db.comments && r.db.likes == db.likes && r.db.supports == db.supports
    ensures db.Valid() ==> r.db.Valid()
  {
    if postId !in db.posts.rows then Reply(db, Err(NotFound("Post not found")))
    else
      var post := db.posts.rows[postId];
      if post.authorId != userId then Reply(db, Err(BadRequest("You can only edit your own posts")))
      else
        var updated := Overlay(post, patch, now);
        Reply(db.(posts := db.posts.Put(postId, updated)), Ok(Doc(postId, updated)))
  }

  /** The body `updatePost` actually receives. Its route parameter is typed
      `any`, so no validation or whitelisting applies and the body may carry
      stored fields besides the editable ones; the spread writes them as
      given. Of those, the support counter and the status are modelled. */
  datatype RawPostPatch = RawPostPatch(fields: PostPatch, supportCount: Option<int>, status: Option<Status>)

  /** A raw edit that carries only editable fields. */
  predicate EditableOnly(patch: RawPostPatch) {
    patch.supportCount.None? && patch.status.None?
  }

  /** `{ ...postData, ...updateData, updated_at: now }` for a raw body. */
  function OverlayRaw(p: Post, patch: RawPostPatch, now: Millis): (r: Post)
    ensures patch.supportCount.Some? ==> r.supportCount == patch.supportCount
    ensures patch.status.Some? ==> r.status == patch.status.value
    ensures r.(supportCount := p.supportCount, status := p.status) == Overlay(p, patch.fields, now)
  {
    var o := Overlay(p, patch.fields, now);
    o.(supportCount := if patch.supportCount.Some? then patch.supportCount else o.supportCount,
       status := if patch.status.Some? then patch.status.value else o.status)
  }

  /** `updatePost` as written: the same checks as Posts.UpdatePost, but the
      raw body is stored, stored fields included. */
  function UpdatePostAsWritten(db: PostDb, postId: Id, userId: UserId, patch: RawPostPatch, now: Millis): (r: Reply<Doc<Post>>)
    ensures r.result.Err? <==> postId !in db.posts.rows || db.posts.rows[postId].authorId != userId
    ensures r.result.Err? ==> r.db == db
    ensures r.db.posts.rows.Keys == db.posts.rows.Keys
    ensures r.result.Ok? ==>
              && r.result.value.id == postId
              && r.db.posts.rows[postId] == r.result.value.data
              && r.result.value.data == OverlayRaw(db.posts.rows[postId], patch, now)
    ensures EditableOnly(patch) ==> r == UpdatePost(db, postId, userId, patch.fields, now)
    ensures forall k :: k in db.posts.rows && k != postId ==> r.db.posts.rows[k] == db.posts.rows[k]
    ensures r.db.comments == db.comments && r.db.likes == db.likes && r.db.supports == db.supports
  {
    if postId !in db.posts.rows then Reply(db, Err(NotFound("Post not found")))
    else
      var post := db.posts.rows[postId];
      if post.authorId != userId then Reply(db, Err(BadRequest("You can only edit your own posts")))
      else
        var updated := OverlayRaw(post, patch, now);
        Reply(db.(posts := db.posts.Put(postId, updated)), Ok(Doc(postId, updated)))
  }

  /** An edit repeated later stores the same post apart from the timestamp. */
  lemma UpdateTwiceIsOnce(db: PostDb, postId: Id, userId: UserId, patch: PostPatch, now1: Millis, now2: Millis)
    requires UpdatePost(db, postId, userId, patch, now1).result.Ok?
    ensures var r1 := UpdatePost(db, postId, userId, patch, now1);
            var r2 := UpdatePost(r1.db, postId, userId, patch, now2);
            r2.result.Ok? && r2.result.value.data == r1.result.value.data.(updatedAt := now2)
  {
  }

  /** `deletePost`: only the author may delete; the post stays, marked 'deleted'. */
  function DeletePost(db: PostDb, postId: Id, userId: UserId, now: Millis): (r: Reply<()>)
    ensures r.result.Err? <==> postId !in db.posts.rows || db.posts.rows[postId].authorId != userId
    ensures postId !in db.posts.rows ==> r.result == Err(NotFound("Post not found"))
    ensures postId in db.posts.rows && db.posts.rows[postId].authorId != userId ==>
              r.result == Err(BadRequest("You can only delete your own posts"))
    ensures r.result.Err? ==> r.db == db
    ensures r.db.posts.rows.Keys == db.posts.rows.Keys
    ensures r.result.Ok? ==>
              && r.db.posts.rows[postId].status == Deleted
              && r.db.posts.rows[postId].updatedAt == now
              && r.db.posts.rows[postId].(status := Active, updatedAt := 0)
                 == db.posts.rows[postId].(status := Active, updatedAt := 0)
    ensures forall k :: k in db.posts.rows && k != postId ==> r.db.posts.rows[k] == db.posts.rows[k]
    ensures r.db.comments == db.comments && r.db.likes == db.likes && r.db.supports == db.supports
    ensures db.Valid() ==> r.db.Valid()
  {
    if postId !in db.posts.rows then Reply(db, Err(NotFound("Post not found")))
    else
      var post := db.posts.rows[postId];
      if post.authorId != userId then Reply(db, Err(BadRequest("You can only delete your own posts")))
      else Reply(db.(posts := db.posts.Put(postId, post.(status := Deleted, updatedAt := now))), Ok(()))
  }

  /** A deleted post drops out of every page of the feed under any filters,
      of any user's posts and of any search, but stays readable by id. */
  lemma DeletedPostLeavesFeeds(db: PostDb, postId: Id, userId: UserId, now: Millis, page: int, limit: int,
                               category: Option<string>, mood: Option<string>, owner: UserId, query: string)
    requires DeletePost(db, postId, userId, now).result.Ok?
    ensures var db' := DeletePost(db, postId, userId, now).db;
            GetPostById(db', postId).result.Ok?
    ensures var feed := GetAllPosts(DeletePost(db, postId, userId, now).db, page, limit, category, mood);
            feed.Ok? ==> forall i :: 0 <= i < |feed.value.items| ==> feed.value.items[i].id != postId
    ensures var mine := GetPostsByUser(DeletePost(db, postId, userId, now).db, owner, page, limit);
            mine.Ok? ==> forall i :: 0 <= i < |mine.value.items| ==> mine.value.items[i].id != postId
    ensures var found := SearchPosts(DeletePost(db, postId, userId, now).db, query, page, limit);
            forall i :: 0 <= i < |found.items| ==> found.items[i].id != postId
  {
  }

  // ---------------------------------------------------------------------------
  // Search
  // ---------------------------------------------------------------------------

  /** `field?.toLowerCase() || ''`. */
  function FieldText(o: Option<string>): string {
    if o.Some? then Text.Lower(o.value) else ""
  }

  /** The search test, for a query already lower-cased. */
  predicate Matches(p: Post, q: string) {
    || Text.Includes(FieldText(p.content), q)
    || (p.tags.Some? && exists i :: 0 <= i < |p.tags.value| && Text.Includes(Text.Lower(p.tags.value[i]), q))
    || Text.Includes(FieldText(p.category), q)
    || Text.Includes(FieldText(p.mood), q)
  }

  ghost predicate IsSubstring(needle: string, hay: string) {
    exists i :: Text.OccursAt(hay, needle, i)
  }

  /** A post matches exactly when the lower-cased query is a substring of
      its lower-cased content, category, mood or one of its tags. */
  lemma MatchesIffSubstring(p: Post, query: string)
    ensures var q := Text.Lower(query);
            Matches(p, q) <==>
              || IsSubstring(q, FieldText(p.content))
              || (p.tags.Some? && exists i :: 0 <= i < |p.tags.value| && IsSubstring(q, Text.Lower(p.tags.value[i])))
              || IsSubstring(q, FieldText(p.category))
              || IsSubstring(q, FieldText(p.mood))
  {
    var q := Text.Lower(query);
    Text.IncludesIffOccurs(FieldText(p.content), q);
    Text.IncludesIffOccurs(FieldText(p.category), q);
    Text.IncludesIffOccurs(FieldText(p.mood), q);
    if p.tags.Some? {
      var tags := p.tags.value;
      forall i | 0 <= i < |tags|
        ensures Text.Includes(Text.Lower(tags[i]), q) <==> IsSubstring(q, Text.Lower(tags[i]))
      {
        Text.IncludesIffOccurs(Text.Lower(tags[i]), q);
      }
    }
  }

  /** The scan loop: tests items in order and stops as soon as `limit`
      hits are collected (checked after every item, hit or not). */
  function Scan<X>(docs: seq<X>, hit: X -> bool, limit: int, found: seq<X>): seq<X>
    decreases |docs|
  {
    if |docs| == 0 then found
    else
      var found' := if hit(docs[0]) then found + [docs[0]] else found;
      if |found'| >= limit then found' else Scan(docs[1..], hit, limit, found')
  }

  /** The hits among `docs`, in order: what a scan without a stop collects. */
  function MatchingIn<X>(docs: seq<X>, hit: X -> bool): (r: seq<X>)
    ensures |r| <= |docs|
    ensures forall i :: 0 <= i < |r| ==> r[i] in docs && hit(r[i])
    decreases |docs|
  {
    if |docs| == 0 then []
    else (if hit(docs[0]) then [docs[0]] else []) + MatchingIn(docs[1..], hit)
  }

  lemma {:induction false} MatchingInPrefix<X>(docs: seq<X>, hit: X -> bool, k: nat)
    requires k <= |docs|
    ensures |MatchingIn(docs[..k], hit)| <= |MatchingIn(docs, hit)|
    decreases |docs|
  {
    if k > 0 {
      assert docs[..k][1..] == docs[1..][..k - 1];
      MatchingInPrefix(docs[1..], hit, k - 1);
    }
  }

  /** How many items the scan tests before it stops. */
  function ScanStop<X>(docs: seq<X>, hit: X -> bool, limit: int, found: seq<X>): (k: nat)
    ensures k <= |docs|
    decreases |docs|
  {
    if |docs| == 0 then 0
    else
      var found' := if hit(docs[0]) then found + [docs[0]] else found;
      if |found'| >= limit then 1 else 1 + ScanStop(docs[1..], hit, limit, found')
  }

  /** The hits of a non-empty prefix: the first item's, then the rest's. */
  lemma MatchingInCons<X>(docs: seq<X>, hit: X -> bool, k: nat)
    requires 0 < k <= |docs|
    ensures MatchingIn(docs[..k], hit)
            == (if hit(docs[0]) then [docs[0]] else []) + MatchingIn(docs[1..][..k - 1], hit)
  {
    assert docs[..k][0] == docs[0];
    assert docs[..k][1..] == docs[1..][..k - 1];
  }

  /** The scan collects exactly the hits of the prefix it tests. */
  lemma {:induction false} ScanIsPrefixMatches<X>(docs: seq<X>, hit: X -> bool, limit: int, found: seq<X>)
    ensures Scan(docs, hit, limit, found) == found + MatchingIn(docs[..ScanStop(docs, hit, limit, found)], hit)
    decreases |docs|
  {
    if |docs| == 0 {
      assert docs[..0] == [];
    } else {
      var found' := if hit(docs[0]) then found + [docs[0]] else found;
      if |found'| >= limit {
        ScanStopsHere(docs, hit, limit, found);
      } else {
        ScanIsPrefixMatches(docs[1..], hit, limit, found');
        ScanGoesOn(docs, hit, limit, found);
      }
    }
  }

  /** The scan step that reaches `limit`: only the first item is examined. */
  lemma ScanStopsHere<X>(docs: seq<X>, hit: X -> bool, limit: int, found: seq<X>)
    requires |docs| > 0
    requires |if hit(docs[0]) then found + [docs[0]] else found| >= limit
    ensures Scan(docs, hit, limit, found) == found + MatchingIn(docs[..ScanStop(docs, hit, limit, found)], hit)
  {
    var head := if hit(docs[0]) then [docs[0]] else [];
    assert ScanStop(docs, hit, limit, found) == 1;
    MatchingInCons(docs, hit, 1);
    assert docs[1..][..0] == [];
    assert MatchingIn(docs[..1], hit) == head + [];
  }

  /** A scan step below `limit`: the first item's hit, then the rest's scan. */
  lemma ScanGoesOn<X>(docs: seq<X>, hit: X -> bool, limit: int, found: seq<X>)
    requires |docs| > 0
    requires var found' := if hit(docs[0]) then found + [docs[0]] else found;
             && |found'| < limit
             && Scan(docs[1..], hit, limit, found')
                == found' + MatchingIn(docs[1..][..ScanStop(docs[1..], hit, limit, found')], hit)
    ensures Scan(docs, hit, limit, found) == found + MatchingIn(docs[..ScanStop(docs, hit, limit, found)], hit)
  {
    var head := if hit(docs[0]) then [docs[0]] else [];
    var found' := if hit(docs[0]) then found + [docs[0]] else found;
    var k' := ScanStop(docs[1..], hit, limit, found');
    var rest := MatchingIn(docs[1..][..k'], hit);
    assert Scan(docs, hit, limit, found) == found' + rest;
    assert ScanStop(docs, hit, limit, found) == 1 + k';
    assert MatchingIn(docs[..1 + k'], hit) == head + rest by {
      MatchingInCons(docs, hit, 1 + k');
    }
    assert found' == found + head;
    ConcatAssoc(found, head, rest);
  }

  lemma ConcatAssoc<X>(a: seq<X>, b: seq<X>, c: seq<X>)
    ensures (a + b) + c == a + (b + c)
  {
  }

  /** The scan stops before the end only once it holds `limit` hits. */
  lemma {:induction false} ScanStopsAtLimit<X>(docs: seq<X>, hit: X -> bool, limit: int, found: seq<X>)
    ensures ScanStop(docs, hit, limit, found) < |docs| ==> |Scan(docs, hit, limit, found)| >= limit
    decreases |docs|
  {
    if |docs| > 0 {
      var found' := if hit(docs[0]) then found + [docs[0]] else found;
      if |found'| < limit {
        ScanStopsAtLimit(docs[1..], hit, limit, found');
      }
    }
  }

  /** Everything a scan collects was in hand already or is a hit among the items. */
  lemma {:induction false} ScanSound<X>(docs: seq<X>, hit: X -> bool, limit: int, found: seq<X>)
    ensures forall x :: x in Scan(docs, hit, limit, found) ==> x in found || (x in docs && hit(x))
    decreases |docs|
  {
    if |docs| > 0 {
      var found' := if hit(docs[0]) then found + [docs[0]] else found;
      if |found'| < limit {
        ScanSound(docs[1..], hit, limit, found');
      }
    }
  }

  /** With fewer than `limit` in hand, a scan never collects more than `limit`. */
  lemma {:induction false} ScanBound<X>(docs: seq<X>, hit: X -> bool, limit: int, found: seq<X>)
    requires |found| < limit
    ensures |Scan(docs, hit, limit, found)| <= limit
    decreases |docs|
  {
    if |docs| > 0 {
      var found' := if hit(docs[0]) then found + [docs[0]] else found;
      if |found'| < limit {
        ScanBound(docs[1..], hit, limit, found');
      }
    }
  }

  function PostHit(q: string): Doc<Post> -> bool {
    (d: Doc<Post>) => Matches(d.data, q)
  }

  /** `posts.slice(start, end)`: negative positions count from the end and
      positions past the end are clamped. */
  function JsIndex(i: int, len: nat): (r: nat)
    ensures r <= len
    ensures 0 <= i <= len ==> r == i
  {
    if i < 0 then (if len + i < 0 then 0 else len + i) else if i > len then len else i
  }

  function JsSlice<X>(s: seq<X>, start: int, end: int): (r: seq<X>)
    ensures |r| <= |s|
    ensures 0 <= start <= end <= |s| ==> r == s[start..end]
    ensures start >= |s| ==> r == []
    ensures 0 <= start <= |s| <= end ==> r == s[start..]
    ensures forall i :: 0 <= i < |r| ==> r[i] in s
  {
    var a := JsIndex(start, |s|);
    var b := JsIndex(end, |s|);
    if b <= a then [] else s[a..b]
  }

  predicate IsActivePost(p: Post) {
    p.status == Active
  }

  /** The 100 newest active posts, newest first. */
  function SearchCandidates(db: PostDb): (r: seq<Doc<Post>>)
    ensures |r| == Min(SearchScan, |db.posts.Select(IsActivePost)|)
    ensures NonIncreasing(r, DocKey(CreatedAtOfPost))
    ensures forall i :: 0 <= i < |r| ==> r[i].id in db.posts.rows && db.posts.rows[r[i].id] == r[i].data && r[i].data.status == Active
    ensures var hits := db.posts.Select(IsActivePost);
            forall i, j :: 0 <= i < |hits| && 0 <= j < |r| && hits[i] !in r ==>
              hits[i].data.createdAt <= r[j].data.createdAt
  {
    var hits := db.posts.Select(IsActivePost);
    var top := TopN(hits, DocKey(CreatedAtOfPost), SearchScan);
    TopFromHits(db.posts, IsActivePost, top);
    TopIsNewest(hits, CreatedAtOfPost, SearchScan);
    top
  }

  /** The search examines every active post, or 100 of them. */
  lemma SearchCandidatesSize(db: PostDb)
    requires db.Valid()
    ensures |SearchCandidates(db)| == Min(SearchScan, |db.posts.MatchIds(IsActivePost)|)
  {
    SelectCountIsMatchCount(db.posts, IsActivePost);
  }

  /** The search examines the newest active posts: an active post is left
      out only when 100 are examined, each no older than it. */
  lemma SearchCandidatesAreNewest(db: PostDb, k: Id)
    requires db.Valid() && k in db.posts.rows && db.posts.rows[k].status == Active
    ensures var r := SearchCandidates(db);
            Doc(k, db.posts.rows[k]) !in r ==>
              |r| == SearchScan
              && forall j :: 0 <= j < |r| ==> db.posts.rows[k].createdAt <= r[j].data.createdAt
  {
    var key := DocKey(CreatedAtOfPost);
    var r := TopN(db.posts.Select(IsActivePost), key, SearchScan);
    assert r == SearchCandidates(db);
    if Doc(k, db.posts.rows[k]) !in r {
      TopOfSelect(db.posts, IsActivePost, key, SearchScan, k);
      forall j | 0 <= j < |r| ensures db.posts.rows[k].createdAt <= r[j].data.createdAt {
        assert key(Doc(k, db.posts.rows[k])) <= key(r[j]);
      }
    }
  }

  /** `searchPosts`: scans the newest active posts for the query, stopping
      at `limit` matches, then slices out the requested page of what it found. */
  function SearchPosts(db: PostDb, query: string, page: int, limit: int): (r: Listing<Doc<Post>>)
    ensures r.page == page && r.limit == limit
    ensures r.total == |Scan(SearchCandidates(db), PostHit(Text.Lower(query)), limit, [])|
    ensures page == 1 && limit >= 1 ==> r.items == Scan(SearchCandidates(db), PostHit(Text.Lower(query)), limit, [])
    ensures forall i :: 0 <= i < |r.items| ==>
              r.items[i].id in db.posts.rows && db.posts.rows[r.items[i].id] == r.items[i].data
              && r.items[i].data.status == Active && Matches(r.items[i].data, Text.Lower(query))
  {
    var q := PostHit(Text.Lower(query));
    var candidates := SearchCandidates(db);
    var found := Scan(candidates, q, limit, []);
    ScanSound(candidates, q, limit, []);
    var items := JsSlice(found, (page - 1) * limit, page * limit);
    assert page == 1 && limit >= 1 ==> items == found by {
      if page == 1 && limit >= 1 {
        ScanBound(candidates, q, limit, []);
        FirstPageIsAll(found, page, limit);
      }
    }
    Listing(items, page, limit, |found|, |found| > page * limit)
  }

  /** Page 1 of at most `limit` items is all of them. */
  lemma FirstPageIsAll<X>(s: seq<X>, page: int, limit: int)
    requires page == 1 && 1 <= limit && |s| <= limit
    ensures JsSlice(s, (page - 1) * limit, page * limit) == s
  {
    assert (page - 1) * limit == 0 && page * limit == limit;
  }

  /** Because the scan stops at `limit` matches, a search never reports more
      and every page after the first is empty. */
  lemma SearchHasOnePage(db: PostDb, query: string, page: int, limit: int)
    requires limit >= 1 && page >= 1
    ensures !SearchPosts(db, query, page, limit).hasMore
    ensures page >= 2 ==> SearchPosts(db, query, page, limit).items == []
  {
    var q := PostHit(Text.Lower(query));
    var found := Scan(SearchCandidates(db), q, limit, []);
    ScanBound(SearchCandidates(db), q, limit, []);
    PageBounds(page, limit);
  }

  lemma PageBounds(page: int, limit: int)
    requires limit >= 1 && page >= 1
    ensures page * limit >= limit
    ensures page >= 2 ==> (page - 1) * limit >= limit
  {
    assert page * limit == (page - 1) * limit + limit;
    assert (page - 1) * limit >= 0;
    if page >= 2 {
      assert (page - 1) * limit == (page - 2) * limit + limit;
      assert (page - 2) * limit >= 0;
    }
  }

  /** When fewer than `limit` candidates match, page 1 lists all of them, in
      candidate order. */
  lemma SearchFindsAllWhenFew(db: PostDb, query: string, limit: int)
    requires |MatchingIn(SearchCandidates(db), PostHit(Text.Lower(query)))| < limit
    ensures SearchPosts(db, query, 1, limit).items == MatchingIn(SearchCandidates(db), PostHit(Text.Lower(query)))
  {
    var q := PostHit(Text.Lower(query));
    var candidates := SearchCandidates(db);
    ScanIsPrefixMatches(candidates, q, limit, []);
    ScanStopsAtLimit(candidates, q, limit, []);
    var k := ScanStop(candidates, q, limit, []);
    MatchingInPrefix(candidates, q, k);
    assert k == |candidates|;
    assert candidates[..k] == candidates;
    var found := Scan(candidates, q, limit, []);
    assert (1 - 1) * limit == 0 && 1 * limit == limit;
    assert SearchPosts(db, query, 1, limit).items == JsSlice(found, 0, limit);
  }
}

=== FILE: store.dfy ===
/** An in-memory stand-in for one document-store collection.

    A collection is a finite map from document id to record plus the id the
    next insertion receives. Queries enumerate documents in ascending id
    order, filter them, and optionally sort and cut them. Ascending id is
    the store's order for an equality-only query without `orderBy`; a query
    with a range filter is ordered by the filtered field first, which this
    model does not follow. */
module Store {

  import opened Wrappers

  type Id = nat

  /** A query hit: the document id together with the stored record. */
  datatype Doc<T> = Doc(id: Id, data: T)

  datatype Table<T> = Table(rows: map<Id, T>, next: Id) {

    /** Every stored id was handed out before `next`. */
    predicate Valid() {
      forall k :: k in rows ==> k < next
    }

    /** `add`: stores `v` under a fresh id. */
    function Insert(v: T): (r: (Table<T>, Id))
      ensures Valid() ==> r.1 !in rows && r.0.Valid()
      ensures r.0.rows == rows[r.1 := v]
    {
      (Table(rows[next := v], next + 1), next)
    }

    /** `doc(id).update(...)` / `doc(id).set(...)` on an existing document. */
    function Put(id: Id, v: T): (r: Table<T>)
      requires id in rows
      ensures Valid() ==> r.Valid()
      ensures r.rows.Keys == rows.Keys && r.rows[id] == v
      ensures forall k :: k in rows && k != id ==> r.rows[k] == rows[k]
    {
      Table(rows[id := v], next)
    }

    /** Deletes every document whose record satisfies `p`. */
    function DeleteWhere(p: T -> bool): (r: Table<T>)
      ensures Valid() ==> r.Valid()
      ensures forall k :: k in r.rows <==> k in rows && !p(rows[k])
      ensures forall k :: k in r.rows ==> r.rows[k] == rows[k]
    {
      Table(map k | k in rows && !p(rows[k]) :: rows[k], next)
    }

    /** `doc(id).delete()`: removes the document if present, and succeeds either way. */
    function Remove(id: Id): (r: Table<T>)
      ensures Valid() ==> r.Valid()
      ensures forall k :: k in r.rows <==> k in rows && k != id
      ensures forall k :: k in r.rows ==> r.rows[k] == rows[k]
    {
      Table(rows - {id}, next)
    }

    /** The documents with id below `n` whose record satisfies `p`, by ascending id. */
    function SelectBelow(n: nat, p: T -> bool): (r: seq<Doc<T>>)
      ensures forall i :: 0 <= i < |r| ==>
                r[i].id < n && r[i].id in rows && r[i].data == rows[r[i].id] && p(r[i].data)
      ensures forall k :: k < n && k in rows && p(rows[k]) ==> Doc(k, rows[k]) in r
      ensures IdsAscending(r)
    {
      if n == 0 then []
      else
        var prefix := SelectBelow(n - 1, p);
        if n - 1 in rows && p(rows[n - 1]) then prefix + [Doc(n - 1, rows[n - 1])] else prefix
    }

    /** The ids of the stored records satisfying `p`. */
    function MatchIds(p: T -> bool): set<Id> {
      set k | k in rows && p(rows[k])
    }

    /** `where(p).get()`: every document satisfying `p`, by ascending id. */
    function Select(p: T -> bool): seq<Doc<T>>
    {
      SelectBelow(next, p)
    }

    /** The first hit of `where(p).limit(1).get()`, if any: the matching
        document with the smallest id. */
    function First(p: T -> bool): (r: Option<Doc<T>>)
      ensures r.Some? ==> r.value.id in rows && rows[r.value.id] == r.value.data && p(r.value.data)
      ensures r.Some? ==> forall k :: k in rows && k < next && p(rows[k]) ==> r.value.id <= k
      ensures Valid() ==> (r.None? <==> forall k :: k in rows ==> !p(rows[k]))
    {
      var hits := Select(p);
      if |hits| == 0 then None
      else
        assert forall k :: k in rows && k < next && p(rows[k]) ==> hits[0].id <= k by {
          forall k | k in rows && k < next && p(rows[k]) ensures hits[0].id <= k {
            assert Doc(k, rows[k]) in hits;
            var i :| 0 <= i < |hits| && hits[i] == Doc(k, rows[k]);
          }
        }
        Some(hits[0])
    }
  }

  predicate IdsAscending<T>(s: seq<Doc<T>>) {
    forall i, j :: 0 <= i < j < |s| ==> s[i].id < s[j].id
  }

  /** The set of document ids a query returned. */
  function IdSet<T>(s: seq<Doc<T>>): set<Id> {
    set i | 0 <= i < |s| :: s[i].id
  }

  /** A hit of a valid table's `Select` is exactly a stored record satisfying `p`. */
  lemma SelectSpec<T>(t: Table<T>, p: T -> bool, d: Doc<T>)
    requires t.Valid()
    ensures d in t.Select(p) <==> d.id in t.rows && t.rows[d.id] == d.data && p(d.data)
  {
    if d in t.Select(p) {
      var i :| 0 <= i < |t.Select(p)| && t.Select(p)[i] == d;
    }
  }

  /** Every hit of `Select` is a stored record satisfying `p`. */
  lemma SelectHit<T>(t: Table<T>, p: T -> bool, d: Doc<T>)
    requires d in t.Select(p)
    ensures d.id in t.rows && t.rows[d.id] == d.data && p(d.data)
  {
    var i :| 0 <= i < |t.Select(p)| && t.Select(p)[i] == d;
  }

  /** Distinct ids make the number of hits the number of matching documents. */
  lemma {:induction false} AscendingCard<T>(s: seq<Doc<T>>)
    requires IdsAscending(s)
    ensures |IdSet(s)| == |s|
  {
    if |s| > 0 {
      var init := s[..|s| - 1];
      AscendingCard(init);
      assert IdSet(s) == IdSet(init) + {s[|s| - 1].id} by {
        forall x | x in IdSet(s) ensures x in IdSet(init) + {s[|s| - 1].id} {
          var i :| 0 <= i < |s| && s[i].id == x;
          if i < |s| - 1 { assert init[i] == s[i]; }
        }
      }
      assert s[|s| - 1].id !in IdSet(init);
    }
  }

  /** The number of hits of a query equals the number of stored records it matches. */
  lemma SelectCountIsMatchCount<T>(t: Table<T>, p: T -> bool)
    requires t.Valid()
    ensures |t.Select(p)| == |t.MatchIds(p)|
  {
    var hits := t.Select(p);
    AscendingCard(hits);
    assert IdSet(hits) == t.MatchIds(p) by {
      forall k | k in t.rows && p(t.rows[k]) ensures k in IdSet(hits) {
        assert Doc(k, t.rows[k]) in hits;
        var i :| 0 <= i < |hits| && hits[i] == Doc(k, t.rows[k]);
      }
    }
  }

  lemma InsertMatchIds<T>(t: Table<T>, v: T, p: T -> bool)
    requires t.Valid()
    ensures t.Insert(v).0.MatchIds(p) == t.MatchIds(p) + (if p(v) then {t.next} else {})
    ensures t.next !in t.MatchIds(p)
  {
    var t' := t.Insert(v).0;
    forall k | k in t'.MatchIds(p) ensures k in t.MatchIds(p) + (if p(v) then {t.next} else {}) {
      if k != t.next { assert t'.rows[k] == t.rows[k]; }
    }
    forall k | k in t.MatchIds(p) ensures k in t'.MatchIds(p) {
      assert k != t.next && t'.rows[k] == t.rows[k];
    }
  }

  /** An insertion adds one hit to exactly the queries its record matches. */
  lemma InsertCount<T>(t: Table<T>, v: T, p: T -> bool)
    requires t.Valid()
    ensures |t.Insert(v).0.Select(p)| == |t.Select(p)| + (if p(v) then 1 else 0)
  {
    SelectCountIsMatchCount(t, p);
    SelectCountIsMatchCount(t.Insert(v).0, p);
    InsertMatchIds(t, v, p);
  }

  lemma PutMatchIds<T>(t: Table<T>, id: Id, v: T, p: T -> bool)
    requires id in t.rows
    ensures t.Put(id, v).MatchIds(p) == (t.MatchIds(p) - {id}) + (if p(v) then {id} else {})
  {
    var t' := t.Put(id, v);
    forall k | k in t'.MatchIds(p) ensures k in (t.MatchIds(p) - {id}) + (if p(v) then {id} else {}) {
      if k != id { assert t'.rows[k] == t.rows[k]; }
    }
    forall k | k in t.MatchIds(p) - {id} ensures k in t'.MatchIds(p) {
      assert t'.rows[k] == t.rows[k];
    }
  }

  /** A table that differs from `t` only at `id` (added or replaced there)
      has the same hits except possibly `id`. */
  lemma ChangedRowMatchIds<T>(t: Table<T>, t': Table<T>, id: Id, p: T -> bool)
    requires t'.rows.Keys == t.rows.Keys + {id}
    requires forall k :: k in t.rows && k != id ==> t'.rows[k] == t.rows[k]
    ensures t'.MatchIds(p) == (t.MatchIds(p) - {id}) + (if p(t'.rows[id]) then {id} else {})
  {
    forall k | k in t'.MatchIds(p) ensures k in (t.MatchIds(p) - {id}) + (if p(t'.rows[id]) then {id} else {}) {
      if k != id { assert t'.rows[k] == t.rows[k]; }
    }
    forall k | k in t.MatchIds(p) - {id} ensures k in t'.MatchIds(p) {
      assert t'.rows[k] == t.rows[k];
    }
  }

  /** Overwriting one record moves it in or out of a query's hits. */
  lemma PutCount<T>(t: Table<T>, id: Id, v: T, p: T -> bool)
    requires t.Valid() && id in t.rows
    ensures |t.Put(id, v).Select(p)|
      == |t.Select(p)| - (if p(t.rows[id]) then 1 else 0) + (if p(v) then 1 else 0)
  {
    SelectCountIsMatchCount(t, p);
    SelectCountIsMatchCount(t.Put(id, v), p);
    PutMatchIds(t, id, v, p);
    assert id in t.MatchIds(p) <==> p(t.rows[id]);
    CardReplace(t.MatchIds(p), id, p(v));
  }

  /** Taking `x` out of a set and then putting it back or not moves its size
      by at most one. */
  lemma CardReplace<X>(s: set<X>, x: X, back: bool)
    ensures |(s - {x}) + (if back then {x} else {})|
      == |s| - (if x in s then 1 else 0) + (if back then 1 else 0)
  {
    var rest := s - {x};
    if x in s {
      assert s == rest + {x};
    } else {
      assert rest == s;
    }
    if back {
      assert x !in rest;
    } else {
      assert rest + {} == rest;
    }
  }

  lemma RemoveMatchIds<T>(t: Table<T>, id: Id, p: T -> bool)
    ensures t.Remove(id).MatchIds(p) == t.MatchIds(p) - {id}
  {
  }

  /** A weaker filter never yields more hits. */
  lemma {:induction false} SelectBelowMono<T>(t: Table<T>, n: nat, p: T -> bool, q: T -> bool)
    requires forall x :: p(x) ==> q(x)
    ensures |t.SelectBelow(n, p)| <= |t.SelectBelow(n, q)|
  {
    if n > 0 {
      SelectBelowMono(t, n - 1, p, q);
    }
  }

  /** A query matching everything returns every stored document. */
  lemma SelectAllCount<T>(t: Table<T>, p: T -> bool)
    requires t.Valid()
    requires forall x :: p(x)
    ensures |t.Select(p)| == |t.rows|
  {
    SelectCountIsMatchCount(t, p);
    assert t.MatchIds(p) == t.rows.Keys;
  }

  // ---------------------------------------------------------------------------
  // Ordering and cutting query results
  // ---------------------------------------------------------------------------

  predicate NonIncreasing<X>(s: seq<X>, key: X -> int) {
    forall i, j :: 0 <= i < j < |s| ==> key(s[i]) >= key(s[j])
  }

  predicate NonDecreasing<X>(s: seq<X>, key: X -> int) {
    forall i, j :: 0 <= i < j < |s| ==> key(s[i]) <= key(s[j])
  }

  /** Places `x` in front of the first element whose key is not larger. */
  function InsertDesc<X>(x: X, s: seq<X>, key: X -> int): (r: seq<X>)
    requires NonIncreasing(s, key)
    ensures multiset(r) == multiset(s) + multiset{x}
    ensures NonIncreasing(r, key)
  {
    if |s| == 0 then [x]
    else if key(s[0]) <= key(x) then
      ConsDesc(x, s, key);
      [x] + s
    else
      var tail := InsertDesc(x, s[1..], key);
      assert s == [s[0]] + s[1..];
      BoundedByMultiset(tail, s[1..], x, key(s[0]), key);
      ConsDesc(s[0], tail, key);
      [s[0]] + tail
  }

  /** A head no smaller than every element keeps a sequence non-increasing. */
  lemma ConsDesc<X>(h: X, t: seq<X>, key: X -> int)
    requires NonIncreasing(t, key)
    requires |t| > 0 ==> key(t[0]) <= key(h)
    ensures NonIncreasing([h] + t, key)
  {
    var r := [h] + t;
    forall i, j | 0 <= i < j < |r| ensures key(r[i]) >= key(r[j]) {
      if i == 0 {
        assert r[j] == t[j - 1];
        if j > 1 { assert key(t[0]) >= key(t[j - 1]); }
      } else {
        assert r[i] == t[i - 1] && r[j] == t[j - 1];
      }
    }
  }

  /** A bound on every element of `u` and on `x` bounds every element of a
      sequence holding the elements of `u` and `x`. */
  lemma BoundedByMultiset<X>(t: seq<X>, u: seq<X>, x: X, b: int, key: X -> int)
    requires multiset(t) == multiset(u) + multiset{x}
    requires NonIncreasing(u, key) && (|u| > 0 ==> key(u[0]) <= b) && key(x) <= b
    ensures |t| > 0 ==> key(t[0]) <= b
  {
    if |t| > 0 {
      assert t[0] in multiset(t);
      if t[0] != x {
        assert t[0] in multiset(u);
        var j :| 0 <= j < |u| && u[j] == t[0];
        if j > 0 { assert key(u[0]) >= key(u[j]); }
      }
    }
  }

  /** `orderBy(key, 'desc')`: a stable insertion sort, largest key first. */
  function SortDesc<X>(s: seq<X>, key: X -> int): (r: seq<X>)
    ensures multiset(r) == multiset(s)
    ensures NonIncreasing(r, key)
  {
    if |s| == 0 then []
    else
      assert s == [s[0]] + s[1..];
      InsertDesc(s[0], SortDesc(s[1..], key), key)
  }

  /** `limit(n)`: at most the first `n` elements. */
  function Take<X>(s: seq<X>, n: nat): (r: seq<X>)
    ensures |r| == if n < |s| then n else |s|
    ensures r == s[..|r|]
  {
    if n < |s| then s[..n] else s
  }

  function Reverse<X>(s: seq<X>): (r: seq<X>)
    ensures |r| == |s|
    ensures forall i :: 0 <= i < |s| ==> r[i] == s[|s| - 1 - i]
  {
    if |s| == 0 then [] else Reverse(s[1..]) + [s[0]]
  }

  /** `offset(o).limit(n)`: skip `o` results, then keep at most `n`. */
  function Window<X>(s: seq<X>, offset: nat, n: nat): (r: seq<X>)
    ensures |r| <= n
    ensures offset <= |s| ==> r == Take(s[offset..], n)
    ensures offset >= |s| ==> r == []
  {
    if offset >= |s| then [] else Take(s[offset..], n)
  }

  /** Orders query hits by a key of their record. */
  function DocKey<T>(key: T -> int): Doc<T> -> int {
    (d: Doc<T>) => key(d.data)
  }

  /** `where(p).orderBy(key, 'desc').get()`: the hits of `p`, largest key first. */
  function SelectDesc<T>(t: Table<T>, p: T -> bool, key: T -> int): (r: seq<Doc<T>>)
    ensures NonIncreasing(r, DocKey(key))
    ensures multiset(r) == multiset(t.Select(p))
    ensures forall i :: 0 <= i < |r| ==> r[i].id in t.rows && t.rows[r[i].id] == r[i].data && p(r[i].data)
    ensures t.Valid() ==> forall k :: k in t.rows && p(t.rows[k]) ==> Doc(k, t.rows[k]) in r
  {
    var r := SortDesc(t.Select(p), DocKey(key));
    SameHits(t, p, r);
    r
  }

  /** A reordering of a query's hits holds exactly the same documents. */
  lemma SameHits<T>(t: Table<T>, p: T -> bool, r: seq<Doc<T>>)
    requires multiset(r) == multiset(t.Select(p))
    ensures forall i :: 0 <= i < |r| ==> r[i].id in t.rows && t.rows[r[i].id] == r[i].data && p(r[i].data)
    ensures t.Valid() ==> forall k :: k in t.rows && p(t.rows[k]) ==> Doc(k, t.rows[k]) in r
  {
    var hits := t.Select(p);
    forall i | 0 <= i < |r|
      ensures r[i].id in t.rows && t.rows[r[i].id] == r[i].data && p(r[i].data)
    {
      assert r[i] in multiset(r);
      assert r[i] in hits;
      var j :| 0 <= j < |hits| && hits[j] == r[i];
    }
    if t.Valid() {
      forall k | k in t.rows && p(t.rows[k]) ensures Doc(k, t.rows[k]) in r {
        assert Doc(k, t.rows[k]) in hits;
        assert Doc(k, t.rows[k]) in multiset(hits);
      }
    }
  }

  /** `orderBy(key, 'desc').limit(n)`: the `n` elements with the largest
      keys, largest first. */
  function TopN<X>(s: seq<X>, key: X -> int, n: nat): (r: seq<X>)
    ensures |r| == if n < |s| then n else |s|
    ensures NonIncreasing(r, key)
    ensures multiset(r) <= multiset(s)
    ensures forall i, j :: 0 <= i < |s| && 0 <= j < |r| && s[i] !in r ==> key(s[i]) <= key(r[j])
  {
    var sorted := SortDesc(s, key);
    var top := Take(sorted, n);
    TopFacts(s, key, sorted, top);
    top
  }

  lemma TopFacts<X>(s: seq<X>, key: X -> int, sorted: seq<X>, top: seq<X>)
    requires multiset(sorted) == multiset(s) && NonIncreasing(sorted, key)
    requires |top| <= |sorted| && top == sorted[..|top|]
    ensures NonIncreasing(top, key)
    ensures multiset(top) <= multiset(s)
    ensures forall i, j :: 0 <= i < |s| && 0 <= j < |top| && s[i] !in top ==> key(s[i]) <= key(top[j])
  {
    assert sorted == top + sorted[|top|..];
    assert multiset(sorted) == multiset(top) + multiset(sorted[|top|..]);
    forall i, j | 0 <= i < |s| && 0 <= j < |top| && s[i] !in top ensures key(s[i]) <= key(top[j]) {
      var x := s[i];
      assert x in multiset(s);
      assert x in sorted;
      var a :| 0 <= a < |sorted| && sorted[a] == x;
      assert top[j] == sorted[j];
      assert a >= |top|;
    }
  }

  /** A sub-multiset as large as its super-multiset is all of it. */
  lemma SubMultisetSameSize<X>(a: multiset<X>, b: multiset<X>)
    requires a <= b && |a| == |b|
    ensures a == b
  {
    assert b == a + (b - a);
  }

  /** The top `n` leave an element out only when they number `n`. */
  lemma TopLeavesOutOnlyWhenFull<X>(s: seq<X>, key: X -> int, n: nat, x: X)
    requires x in s && x !in TopN(s, key, n)
    ensures |TopN(s, key, n)| == n
  {
    var r := TopN(s, key, n);
    assert x in multiset(s);
    if |r| < n {
      SubMultisetSameSize(multiset(r), multiset(s));
      assert false;
    }
  }

  /** The top `n` hits of a query on a valid table leave a matching record
      out only when there are `n` of them, all at least as large. */
  lemma TopOfSelect<T>(t: Table<T>, p: T -> bool, key: Doc<T> -> int, n: nat, k: Id)
    requires t.Valid() && k in t.rows && p(t.rows[k])
    requires Doc(k, t.rows[k]) !in TopN(t.Select(p), key, n)
    ensures |TopN(t.Select(p), key, n)| == n
    ensures forall j :: 0 <= j < |TopN(t.Select(p), key, n)| ==>
              key(Doc(k, t.rows[k])) <= key(TopN(t.Select(p), key, n)[j])
  {
    var hits := t.Select(p);
    var d := Doc(k, t.rows[k]);
    SelectSpec(t, p, d);
    var i :| 0 <= i < |hits| && hits[i] == d;
    TopLeavesOutOnlyWhenFull(hits, key, n, d);
  }

  /** `orderBy(key, 'desc').limit(n)` followed by `reverse()`: the `n` latest
      elements, oldest first. */
  function Latest<X>(s: seq<X>, key: X -> int, n: nat): (r: seq<X>)
    ensures |r| == if n < |s| then n else |s|
    ensures NonDecreasing(r, key)
    ensures forall j :: 0 <= j < |r| ==> r[j] in s
    ensures forall i, j :: 0 <= i < |s| && 0 <= j < |r| && s[i] !in r ==> key(s[i]) <= key(r[j])
  {
    var top := TopN(s, key, n);
    LatestFacts(s, key, top);
    Reverse(top)
  }

  lemma LatestFacts<X>(s: seq<X>, key: X -> int, top: seq<X>)
    requires NonIncreasing(top, key) && multiset(top) <= multiset(s)
    requires forall i, j :: 0 <= i < |s| && 0 <= j < |top| && s[i] !in top ==> key(s[i]) <= key(top[j])
    ensures NonDecreasing(Reverse(top), key)
    ensures forall j :: 0 <= j < |top| ==> Reverse(top)[j] in s
    ensures forall i, j :: 0 <= i < |s| && 0 <= j < |top| && s[i] !in Reverse(top) ==>
              key(s[i]) <= key(Reverse(top)[j])
  {
    var r := Reverse(top);
    ReverseMembers(top);
    ReverseAscends(top, key);
    forall j | 0 <= j < |top| ensures r[j] in s {
      assert r[j] in multiset(top);
    }
    forall i, j | 0 <= i < |s| && 0 <= j < |top| && s[i] !in r ensures key(s[i]) <= key(r[j]) {
      assert r[j] == top[|top| - 1 - j];
    }
  }

  /** Reversing keeps the elements. */
  lemma ReverseMembers<X>(s: seq<X>)
    ensures forall x :: x in Reverse(s) <==> x in s
  {
    var r := Reverse(s);
    forall x | x in r ensures x in s {
      var i :| 0 <= i < |r| && r[i] == x;
      assert s[|s| - 1 - i] == x;
    }
    forall x | x in s ensures x in r {
      var i :| 0 <= i < |s| && s[i] == x;
      assert r[|s| - 1 - i] == x;
    }
  }

  /** Reversing a non-increasing sequence gives a non-decreasing one. */
  lemma ReverseAscends<X>(s: seq<X>, key: X -> int)
    requires NonIncreasing(s, key)
    ensures NonDecreasing(Reverse(s), key)
  {
    var r := Reverse(s);
    forall i, j | 0 <= i < j < |r| ensures key(r[i]) <= key(r[j]) {
      assert r[i] == s[|s| - 1 - i] && r[j] == s[|s| - 1 - j];
    }
  }
}

=== FILE: support_stats.dfy ===
/** Counting support records by type. The per-post statistics and the
    trending report both fold the records into an object keyed by type, in
    the order each type first appears; an absent or empty type counts as
    'other'. */
module SupportStats {

  import opened Wrappers
  import opened Store
  import opened PostStore

  /** Records kept in `recent_support`. */
  const RecentCap: nat := 10

  /** `support_type || 'other'`. */
  function TypeName(t: Option<string>): (r: string)
    ensures r != ""
    ensures t.Some? && t.value != "" ==> r == t.value
    ensures t.None? || t.value == "" ==> r == "other"
  {
    if t.Some? && t.value != "" then t.value else "other"
  }

  /** An object from type to count, in insertion order. */
  type Tally = seq<(string, nat)>

  function Keys(t: Tally): seq<string> {
    seq(|t|, i requires 0 <= i < |t| => t[i].0)
  }

  predicate DistinctKeys(t: Tally) {
    forall i, j :: 0 <= i < j < |t| ==> t[i].0 != t[j].0
  }

  function Sum(t: Tally): nat {
    if |t| == 0 then 0 else Sum(t[..|t| - 1]) + t[|t| - 1].1
  }

  /** `counts[k] = (counts[k] || 0) + 1`. */
  function Bump(t: Tally, k: string): (r: Tally)
    requires DistinctKeys(t)
    ensures DistinctKeys(r)
    ensures |r| == if k in Keys(t) then |t| else |t| + 1
    ensures forall i :: 0 <= i < |t| ==> r[i].0 == t[i].0
    ensures forall i :: 0 <= i < |t| ==> r[i].1 == t[i].1 + (if t[i].0 == k then 1 else 0)
    ensures k !in Keys(t) ==> r[|t|] == (k, 1)
    decreases |t|
  {
    if |t| == 0 then [(k, 1)]
    else if t[0].0 == k then
      assert Keys(t)[0] == k;
      [(k, t[0].1 + 1)] + t[1..]
    else
      assert Keys(t[1..]) == Keys(t)[1..];
      var tail := Bump(t[1..], k);
      assert forall i :: 0 <= i < |tail| ==> tail[i].0 != t[0].0 by {
        forall i | 0 <= i < |tail| ensures tail[i].0 != t[0].0 {
          if i < |t[1..]| {
            assert tail[i].0 == t[i + 1].0;
          }
        }
      }
      [t[0]] + tail
  }

  /** Folds the keys, left to right, into counts. */
  function TallyOf(keys: seq<string>): (r: Tally)
    ensures DistinctKeys(r)
    decreases |keys|
  {
    if |keys| == 0 then [] else Bump(TallyOf(keys[..|keys| - 1]), keys[|keys| - 1])
  }

  lemma {:induction false} SumConcat(a: Tally, b: Tally)
    ensures Sum(a + b) == Sum(a) + Sum(b)
    decreases |b|
  {
    if |b| == 0 {
      assert a + b == a;
    } else {
      assert (a + b)[..|a + b| - 1] == a + b[..|b| - 1];
      SumConcat(a, b[..|b| - 1]);
    }
  }

  /** The sum splits around any entry. */
  lemma SumSplitLast(t: Tally, i: nat)
    requires i < |t|
    ensures Sum(t) == Sum(t[..i]) + t[i].1 + Sum(t[i + 1..])
  {
    var front := t[..i] + [t[i]];
    assert t == front + t[i + 1..];
    assert front[..|front| - 1] == t[..i];
    SumConcat(front, t[i + 1..]);
  }

  /** Tallies with the same counts position by position have the same sum. */
  lemma {:induction false} SumPointwise(a: Tally, b: Tally)
    requires |a| == |b|
    requires forall i :: 0 <= i < |a| ==> a[i].1 == b[i].1
    ensures Sum(a) == Sum(b)
    decreases |a|
  {
    if |a| > 0 {
      SumPointwise(a[..|a| - 1], b[..|b| - 1]);
    }
  }

  /** Bumping one key adds exactly one to the total. */
  lemma BumpSum(t: Tally, k: string)
    requires DistinctKeys(t)
    ensures Sum(Bump(t, k)) == Sum(t) + 1
  {
    if k in Keys(t) {
      var i :| 0 <= i < |t| && Keys(t)[i] == k;
      BumpSumAt(t, k, i);
    } else {
      BumpSumFresh(t, k);
    }
  }

  lemma BumpSumAt(t: Tally, k: string, i: nat)
    requires DistinctKeys(t) && i < |t| && t[i].0 == k
    ensures Sum(Bump(t, k)) == Sum(t) + 1
  {
    BumpAt(t, k, i);
    SumUpdate(t, Bump(t, k), i);
  }

  /** Raising one count by one raises the sum by one. */
  lemma {:induction false} SumUpdate(t: Tally, r: Tally, i: nat)
    requires |r| == |t| && i < |t| && r[i].1 == t[i].1 + 1
    requires forall j :: 0 <= j < |t| && j != i ==> r[j].1 == t[j].1
    ensures Sum(r) == Sum(t) + 1
    decreases |t|
  {
    var n := |t| - 1;
    if i == n {
      SumPointwise(t[..n], r[..n]);
    } else {
      SumUpdate(t[..n], r[..n], i);
    }
  }

  /** Bumping a present key changes its entry alone, by one. */
  lemma BumpAt(t: Tally, k: string, i: nat)
    requires DistinctKeys(t) && i < |t| && t[i].0 == k
    ensures var r := Bump(t, k);
            && |r| == |t| && r[i].1 == t[i].1 + 1
            && forall j :: 0 <= j < |t| && j != i ==> r[j].1 == t[j].1
  {
    assert Keys(t)[i] == k;
  }

  lemma BumpSumFresh(t: Tally, k: string)
    requires DistinctKeys(t) && k !in Keys(t)
    ensures Sum(Bump(t, k)) == Sum(t) + 1
  {
    var r := Bump(t, k);
    SumPointwise(t, r[..|t|]);
    assert r[..|r| - 1] == r[..|t|];
  }

  /** The counts add up to the number of keys folded. */
  lemma {:induction false} TallySum(keys: seq<string>)
    ensures Sum(TallyOf(keys)) == |keys|
    decreases |keys|
  {
    if |keys| > 0 {
      TallySum(keys[..|keys| - 1]);
      BumpSum(TallyOf(keys[..|keys| - 1]), keys[|keys| - 1]);
    }
  }

  /** `t` counts the keys in `ms`: one entry per key, each with its
      multiplicity, and no key left out. */
  ghost predicate Counts(t: Tally, ms: multiset<string>) {
    && DistinctKeys(t)
    && (forall i :: 0 <= i < |t| ==> t[i].1 == ms[t[i].0] && t[i].1 >= 1)
    && (forall x :: x in ms ==> x in Keys(t))
  }

  lemma BumpCounts(t: Tally, ms: multiset<string>, k: string)
    requires Counts(t, ms)
    ensures Counts(Bump(t, k), ms + multiset{k})
  {
    BumpCountsEntries(t, ms, k);
    BumpCountsCover(t, ms, k);
  }

  lemma BumpCountsEntries(t: Tally, ms: multiset<string>, k: string)
    requires Counts(t, ms)
    ensures var r := Bump(t, k);
            forall i :: 0 <= i < |r| ==> r[i].1 == (ms + multiset{k})[r[i].0] && r[i].1 >= 1
  {
    var r := Bump(t, k);
    var ms' := ms + multiset{k};
    forall i | 0 <= i < |r| ensures r[i].1 == ms'[r[i].0] && r[i].1 >= 1 {
      if i < |t| {
        assert r[i].0 == t[i].0;
      } else {
        assert k !in Keys(t);
        assert k !in ms;
      }
    }
  }

  lemma BumpCountsCover(t: Tally, ms: multiset<string>, k: string)
    requires Counts(t, ms)
    ensures forall x :: x in ms + multiset{k} ==> x in Keys(Bump(t, k))
  {
    var r := Bump(t, k);
    forall x | x in ms + multiset{k} ensures x in Keys(r) {
      if x in ms {
        var i :| 0 <= i < |t| && Keys(t)[i] == x;
        assert Keys(r)[i] == x;
      } else {
        assert x == k;
        assert forall i :: 0 <= i < |t| ==> Keys(t)[i] in ms;
        assert Keys(r)[|t|] == k;
      }
    }
  }

  /** Each type appears once, every folded key appears, and each entry's
      count is the number of times its type occurs. */
  lemma {:induction false} TallyCounts(keys: seq<string>)
    ensures Counts(TallyOf(keys), multiset(keys))
    decreases |keys|
  {
    if |keys| > 0 {
      var init := keys[..|keys| - 1];
      TallyCounts(init);
      assert keys == init + [keys[|keys| - 1]];
      BumpCounts(TallyOf(init), multiset(init), keys[|keys| - 1]);
    }
  }

  // ---------------------------------------------------------------------------
  // Per-post statistics
  // ---------------------------------------------------------------------------

  /** An entry of `recent_support`. */
  datatype Recent = Recent(kind: string, message: Option<string>, createdAt: Millis)

  datatype Summary = Summary(total: nat, byType: Tally, recent: seq<Recent>)

  function TypeNames(records: seq<Support>): (r: seq<string>)
    ensures |r| == |records|
    ensures forall i :: 0 <= i < |r| ==> r[i] == TypeName(records[i].supportType)
  {
    seq(|records|, i requires 0 <= i < |records| => TypeName(records[i].supportType))
  }

  function RecentOf(s: Support): Recent {
    Recent(TypeName(s.supportType), s.message, s.createdAt)
  }

  /** `calculateSupportStats` / `getPostSupportStats`: the record count, the
      count per type and the first ten records, in the order given. */
  function Summarise(records: seq<Support>): (r: Summary)
    ensures r.total == |records|
    ensures Sum(r.byType) == r.total
    ensures DistinctKeys(r.byType)
    ensures forall i :: 0 <= i < |r.byType| ==> r.byType[i].1 == multiset(TypeNames(records))[r.byType[i].0]
    ensures forall j :: 0 <= j < |records| ==> TypeName(records[j].supportType) in Keys(r.byType)
    ensures |r.recent| == Min(RecentCap, |records|)
    ensures forall i :: 0 <= i < |r.recent| ==> r.recent[i] == RecentOf(records[i])
  {
    TallyOfTypes(records);
    var n := Min(RecentCap, |records|);
    Summary(|records|, TallyOf(TypeNames(records)), seq(n, i requires 0 <= i < n => RecentOf(records[i])))
  }

  /** The tally of the records' types counts each type exactly. */
  lemma TallyOfTypes(records: seq<Support>)
    ensures var t := TallyOf(TypeNames(records));
            && Sum(t) == |records|
            && DistinctKeys(t)
            && (forall i :: 0 <= i < |t| ==> t[i].1 == multiset(TypeNames(records))[t[i].0])
            && (forall j :: 0 <= j < |records| ==> TypeName(records[j].supportType) in Keys(t))
  {
    var names := TypeNames(records);
    TallySum(names);
    TallyCounts(names);
    forall j | 0 <= j < |records| ensures TypeName(records[j].supportType) in Keys(TallyOf(names)) {
      assert names[j] in multiset(names);
    }
  }

  /** The data of a query's hits, in hit order. */
  function Records(docs: seq<Doc<Support>>): (r: seq<Support>)
    ensures |r| == |docs|
    ensures forall i :: 0 <= i < |r| ==> r[i] == docs[i].data
  {
    seq(|docs|, i requires 0 <= i < |docs| => docs[i].data)
  }

  function SupportOfPost(postId: Id): Support -> bool {
    (s: Support) => s.postId == postId
  }

  /** `getPostSupportStats`: the statistics over every support record of one
      post, in the store's default order. */
  function GetPostSupportStats(db: PostDb, postId: Id): (r: Summary)
    ensures db.Valid() ==> r.total == |db.supports.MatchIds(SupportOfPost(postId))|
    ensures Sum(r.byType) == r.total
    ensures |r.recent| <= RecentCap
  {
    var r := Summarise(Records(db.supports.Select(SupportOfPost(postId))));
    if db.Valid() then
      SelectCountIsMatchCount(db.supports, SupportOfPost(postId));
      r
    else r
  }
}

=== FILE: supports.dfy ===
/** `SupportService`: anonymous support records on posts, at most one per
    (post, user, type), the post's `support_count`, a user's history and the
    trending report. */
module Supports {

  import opened Wrappers
  import opened Store
  import opened PostStore
  import opened SupportStats

  const DayMillis: int := 86400000
  /** Entries kept in `trending_types`. */
  const TrendingCap: nat := 10

  /** The body of a support request: `support_type` is required, `message` optional. */
  datatype SupportRequest = SupportRequest(supportType: string, message: Option<string>)

  function SupportKey(postId: Id, userId: UserId, supportType: string): Support -> bool {
    (s: Support) => s.postId == postId && s.userId == userId && s.supportType == Some(supportType)
  }

  // ---------------------------------------------------------------------------
  // Invariants
  // ---------------------------------------------------------------------------

  /** At most one record per (post, user, type). */
  ghost predicate OneSupportPerKey(db: PostDb) {
    forall i, j ::
      (&& i in db.supports.rows && j in db.supports.rows
       && db.supports.rows[i].postId == db.supports.rows[j].postId
       && db.supports.rows[i].userId == db.supports.rows[j].userId
       && db.supports.rows[i].supportType == db.supports.rows[j].supportType) ==> i == j
  }

  /** Every post's support counter equals the number of its support records. */
  ghost predicate SupportCountsMatch(db: PostDb) {
    forall p :: p in db.posts.rows ==>
      OrZero(db.posts.rows[p].supportCount) == |db.supports.MatchIds(SupportOfPost(p))|
  }

  // ---------------------------------------------------------------------------
  // Operations
  // ---------------------------------------------------------------------------

  /** `supportPost`: the post must exist and be active and the user must not
      have supported it with this type yet; one anonymous record is stored
      and the post's support counter goes up by one. */
  function SupportPost(db: PostDb, userId: UserId, postId: Id, req: SupportRequest, now: Millis): (r: Reply<Doc<Support>>)
    ensures postId !in db.posts.rows ==> r.result == Err(NotFound("Post not found"))
    ensures postId in db.posts.rows && db.posts.rows[postId].status != Active ==>
              r.result == Err(BadRequest("Cannot support inactive post"))
    ensures db.Valid() && postId in db.posts.rows && db.posts.rows[postId].status == Active ==>
              (r.result.Err? <==> db.supports.MatchIds(SupportKey(postId, userId, req.supportType)) != {})
    ensures r.result.Err? ==> r.db == db && (r.result.error.NotFound? || r.result.error.BadRequest?)
    ensures r.db.posts.rows.Keys == db.posts.rows.Keys
    ensures r.result.Ok? ==>
              var s := r.result.value;
              && s.data == Support(postId, userId, Some(req.supportType), req.message, now, true)
              && r.db.supports.rows == db.supports.rows[s.id := s.data]
              && (db.Valid() ==> s.id !in db.supports.rows)
    ensures r.result.Ok? ==>
              var before := db.posts.rows[postId];
              var after := r.db.posts.rows[postId];
              && before.status == Active
              && OrZero(after.supportCount) == OrZero(before.supportCount) + 1
              && after.updatedAt == now
              && after.(supportCount := before.supportCount, updatedAt := before.updatedAt) == before
    ensures forall k :: k in db.posts.rows && k != postId ==> r.db.posts.rows[k] == db.posts.rows[k]
    ensures r.db.comments == db.comments && r.db.likes == db.likes
    ensures db.Valid() ==> r.db.Valid()
  {
    if postId !in db.posts.rows then Reply(db, Err(NotFound("Post not found")))
    else
      var post := db.posts.rows[postId];
      if post.status != Active then Reply(db, Err(BadRequest("Cannot support inactive post")))
      else
        var key := SupportKey(postId, userId, req.supportType);
        var existing := db.supports.First(key);
        if existing.Some? then
          assert existing.value.id in db.supports.MatchIds(key);
          Reply(db, Err(BadRequest("You have already supported this post with this type")))
        else
          var record := Support(postId, userId, Some(req.supportType), req.message, now, true);
          var (supports, id) := db.supports.Insert(record);
          var counted := post.(supportCount := Some(OrZero(post.supportCount) + 1), updatedAt := now);
          Reply(PostDb(db.posts.Put(postId, counted), db.comments, db.likes, supports), Ok(Doc(id, record)))
  }

  /** `removeSupport`: deletes the first matching record, then decrements the
      post's support counter without a floor. A missing post makes the
      decrement throw after the record is gone. */
  function RemoveSupport(db: PostDb, userId: UserId, postId: Id, supportType: string): (r: Reply<()>)
    ensures db.Valid() ==>
              (r.result == Err(NotFound("Support not found"))
               <==> db.supports.MatchIds(SupportKey(postId, userId, supportType)) == {})
    ensures r.result == Err(NotFound("Support not found")) ==> r.db == db
    ensures r.result != Err(NotFound("Support not found")) ==>
              exists id :: id in db.supports.rows && SupportKey(postId, userId, supportType)(db.supports.rows[id])
                && r.db.supports == db.supports.Remove(id)
    ensures r.result.Ok? <==> postId in db.posts.rows && r.result != Err(NotFound("Support not found"))
    ensures r.result.Err? && r.result != Err(NotFound("Support not found")) ==>
              r.result == Err(BadRequest("Failed to remove support")) && r.db.posts == db.posts
    ensures r.db.posts.rows.Keys == db.posts.rows.Keys
    ensures r.result.Ok? ==>
              var before := db.posts.rows[postId];
              var after := r.db.posts.rows[postId];
              && OrZero(after.supportCount) == OrZero(before.supportCount) - 1
              && after.(supportCount := before.supportCount) == before
    ensures forall k :: k in db.posts.rows && k != postId ==> r.db.posts.rows[k] == db.posts.rows[k]
    ensures r.db.comments == db.comments && r.db.likes == db.likes
    ensures db.Valid() ==> r.db.Valid()
  {
    var key := SupportKey(postId, userId, supportType);
    match db.supports.First(key)
    case None => Reply(db, Err(NotFound("Support not found")))
    case Some(found) =>
      assert found.id in db.supports.MatchIds(key);
      var supports := db.supports.Remove(found.id);
      if postId !in db.posts.rows then
        Reply(db.(supports := supports), Err(BadRequest("Failed to remove support")))
      else
        var post := db.posts.rows[postId];
        var counted := post.(supportCount := Some(OrZero(post.supportCount) - 1));
        Reply(PostDb(db.posts.Put(postId, counted), db.comments, db.likes, supports), Ok(()))
  }

  function SupportBy(userId: UserId): Support -> bool {
    (s: Support) => s.userId == userId
  }

  /** `getUserSupportHistory`: the user's support records, newest first, one page. */
  function GetUserSupportHistory(db: PostDb, userId: UserId, page: int, limit: int): (r: Result<Listing<Doc<Support>>>)
    ensures r.Err? <==> limit < 0 || (limit > 0 && page < 1)
    ensures r.Err? ==> r.error == BadRequest("Failed to fetch support history")
    ensures r.Ok? ==> forall i :: 0 <= i < |r.value.items| ==>
              var d := r.value.items[i];
              d.id in db.supports.rows && db.supports.rows[d.id] == d.data && d.data.userId == userId
    ensures r.Ok? ==> NonIncreasing(r.value.items, DocKey(CreatedAtOfSupport))
    ensures r.Ok? ==> (r.value.hasMore <==> |r.value.items| == limit)
    ensures r.Ok? ==> (page - 1) * limit >= 0
    ensures r.Ok? ==> r.value.items == Window(SelectDesc(db.supports, SupportBy(userId), CreatedAtOfSupport), (page - 1) * limit, limit)
  {
    ListNewest(db.supports, SupportBy(userId), CreatedAtOfSupport, page, limit, "Failed to fetch support history")
  }

  /** Every support record of the user is on some page of their history. */
  lemma EverySupportListed(db: PostDb, userId: UserId, limit: int, k: Id)
    requires db.Valid() && limit > 0 && k in db.supports.rows && db.supports.rows[k].userId == userId
    ensures exists page :: page >= 1
              && GetUserSupportHistory(db, userId, page, limit).Ok?
              && Doc(k, db.supports.rows[k]) in GetUserSupportHistory(db, userId, page, limit).value.items
  {
    var f := SupportBy(userId);
    EveryHitOnSomePage(db.supports, f, CreatedAtOfSupport, limit, "Failed to fetch support history", k);
    var page :| page >= 1
      && ListNewest(db.supports, f, CreatedAtOfSupport, page, limit, "Failed to fetch support history").Ok?
      && Doc(k, db.supports.rows[k]) in ListNewest(db.supports, f, CreatedAtOfSupport, page, limit, "Failed to fetch support history").value.items;
    assert GetUserSupportHistory(db, userId, page, limit) == ListNewest(db.supports, f, CreatedAtOfSupport, page, limit, "Failed to fetch support history");
  }

  // ---------------------------------------------------------------------------
  // Trending
  // ---------------------------------------------------------------------------

  function Since(cutoff: int): Support -> bool {
    (s: Support) => s.createdAt >= cutoff
  }

  /** `cutoffDate.setDate(cutoffDate.getDate() - days)`, as whole days of milliseconds. */
  function Cutoff(now: Millis, days: int): int {
    now - days * DayMillis
  }

  function CountOf(e: (string, nat)): int { e.1 }

  datatype TrendingReport = TrendingReport(trendingTypes: Tally, periodDays: int, totalSupports: nat)

  /** The support records inside the window, in store order. */
  function WindowRecords(db: PostDb, now: Millis, days: int): seq<Support> {
    Records(db.supports.Select(Since(Cutoff(now, days))))
  }

  /** `getTrendingSupportTypes`: the records since the cutoff counted by
      type, most frequent first, at most ten types. */
  function GetTrendingSupportTypes(db: PostDb, days: int, now: Millis): (r: TrendingReport)
    ensures |r.trendingTypes| <= TrendingCap
    ensures NonIncreasing(r.trendingTypes, CountOf)
    ensures r.periodDays == days
    ensures r.totalSupports == |WindowRecords(db, now, days)|
    ensures db.Valid() ==> r.totalSupports == |db.supports.MatchIds(Since(Cutoff(now, days)))|
  {
    var window := WindowRecords(db, now, days);
    if db.Valid() then
      SelectCountIsMatchCount(db.supports, Since(Cutoff(now, days)));
      TrendingReport(TopN(TallyOf(TypeNames(window)), CountOf, TrendingCap), days, |window|)
    else
      TrendingReport(TopN(TallyOf(TypeNames(window)), CountOf, TrendingCap), days, |window|)
  }

  /** Each reported type appears once and carries exactly the number of
      records of that type in the window; the counts shown never exceed the total. */
  lemma TrendingCountsAreExact(db: PostDb, days: int, now: Millis)
    ensures var r := GetTrendingSupportTypes(db, days, now);
            var names := multiset(TypeNames(WindowRecords(db, now, days)));
            && DistinctKeys(r.trendingTypes)
            && (forall i :: 0 <= i < |r.trendingTypes| ==> r.trendingTypes[i].1 == names[r.trendingTypes[i].0])
            && Sum(r.trendingTypes) <= r.totalSupports
  {
    var window := WindowRecords(db, now, days);
    var names := TypeNames(window);
    var tally := TallyOf(names);
    var top := TopN(tally, CountOf, TrendingCap);
    TallyCounts(names);
    TallySum(names);
    assert top == Take(SortDesc(tally, CountOf), TrendingCap);
    TakeOfSorted(tally, names);
  }

  /** The top entries of a tally keep its exactness: distinct types, exact
      counts, and a sum bounded by the whole. */
  lemma TakeOfSorted(tally: Tally, names: seq<string>)
    requires tally == TallyOf(names)
    requires Counts(tally, multiset(names)) && Sum(tally) == |names|
    ensures var top := Take(SortDesc(tally, CountOf), TrendingCap);
            && DistinctKeys(top)
            && (forall i :: 0 <= i < |top| ==> top[i].1 == multiset(names)[top[i].0])
            && Sum(top) <= |names|
  {
    var sorted := SortDesc(tally, CountOf);
    var top := Take(sorted, TrendingCap);
    PermutedCounts(tally, sorted, multiset(names));
    PermutedSum(tally, sorted);
    PrefixCounts(sorted, |top|, multiset(names));
    PrefixSum(sorted, |top|);
  }

  /** A reordering of a tally that counts `ms` also counts `ms`, entry by entry. */
  lemma PermutedCounts(t: Tally, u: Tally, ms: multiset<string>)
    requires Counts(t, ms) && multiset(u) == multiset(t)
    ensures DistinctKeys(u)
    ensures forall i :: 0 <= i < |u| ==> u[i].1 == ms[u[i].0]
  {
    forall i | 0 <= i < |u| ensures u[i].1 == ms[u[i].0] {
      assert u[i] in multiset(t);
    }
    forall i, j | 0 <= i < j < |u| ensures u[i].0 != u[j].0 {
      assert u[i] in multiset(t);
      var a :| 0 <= a < |t| && t[a] == u[i];
      MultiplicityOne(t, a);
      TwiceIn(u, i, j);
    }
  }

  /** An entry at two positions occurs at least twice. */
  lemma TwiceIn<X>(u: seq<X>, i: nat, j: nat)
    requires i < j < |u|
    ensures u[i] == u[j] ==> multiset(u)[u[i]] >= 2
  {
    assert u == u[..i] + [u[i]] + u[i + 1..j] + [u[j]] + u[j + 1..];
  }

  /** In a tally with distinct keys, each entry occurs once. */
  lemma MultiplicityOne(t: Tally, a: nat)
    requires DistinctKeys(t) && a < |t|
    ensures multiset(t)[t[a]] == 1
  {
    assert t == t[..a] + [t[a]] + t[a + 1..];
    forall i | 0 <= i < |t| && i != a ensures t[i] != t[a] {
      assert t[i].0 != t[a].0;
    }
    assert t[a] !in t[..a];
    assert t[a] !in t[a + 1..];
  }

  /** Reordering a tally keeps its sum. */
  lemma {:induction false} PermutedSum(t: Tally, u: Tally)
    requires multiset(u) == multiset(t)
    ensures Sum(u) == Sum(t)
    decreases |t|
  {
    if |t| > 0 {
      var last := t[|t| - 1];
      assert last in multiset(t);
      var j :| 0 <= j < |u| && u[j] == last;
      var rest := u[..j] + u[j + 1..];
      DropMatched(t, u, j);
      PermutedSum(t[..|t| - 1], rest);
      SumSplitLast(u, j);
      SumConcat(u[..j], u[j + 1..]);
    }
  }

  /** Taking the last element of `t` out of a permutation `u` of `t` leaves a
      permutation of the rest of `t`. */
  lemma DropMatched(t: Tally, u: Tally, j: nat)
    requires multiset(u) == multiset(t) && |t| > 0 && j < |u| && u[j] == t[|t| - 1]
    ensures multiset(u[..j] + u[j + 1..]) == multiset(t[..|t| - 1])
  {
    var last := t[|t| - 1];
    var rest := u[..j] + u[j + 1..];
    assert t == t[..|t| - 1] + [last];
    assert u == u[..j] + [last] + u[j + 1..];
    assert multiset(u) == multiset(u[..j]) + multiset{last} + multiset(u[j + 1..]);
    assert multiset(t) == multiset(t[..|t| - 1]) + multiset{last};
    assert multiset(rest) == multiset(u[..j]) + multiset(u[j + 1..]);
    forall x ensures multiset(rest)[x] == multiset(t[..|t| - 1])[x] {
      assert multiset(u)[x] == multiset(rest)[x] + multiset{last}[x];
      assert multiset(t)[x] == multiset(t[..|t| - 1])[x] + multiset{last}[x];
    }
  }

  lemma PrefixCounts(u: Tally, n: nat, ms: multiset<string>)
    requires n <= |u| && DistinctKeys(u)
    requires forall i :: 0 <= i < |u| ==> u[i].1 == ms[u[i].0]
    ensures DistinctKeys(u[..n])
    ensures forall i :: 0 <= i < n ==> u[..n][i].1 == ms[u[..n][i].0]
  {
  }

  lemma PrefixSum(u: Tally, n: nat)
    requires n <= |u|
    ensures Sum(u[..n]) <= Sum(u)
  {
    assert u == u[..n] + u[n..];
    SumConcat(u[..n], u[n..]);
  }

  /** A type missing from the report is no more frequent than any type shown,
      and when at most ten types occur, all of them are shown. */
  lemma TrendingHasTop(db: PostDb, days: int, now: Millis)
    ensures var r := GetTrendingSupportTypes(db, days, now);
            var tally := TallyOf(TypeNames(WindowRecords(db, now, days)));
            && (forall i, j :: 0 <= i < |tally| && 0 <= j < |r.trendingTypes| && tally[i] !in r.trendingTypes ==>
                  tally[i].1 <= r.trendingTypes[j].1)
            && (|tally| <= TrendingCap ==> |r.trendingTypes| == |tally|)
  {
    var tally := TallyOf(TypeNames(WindowRecords(db, now, days)));
    var top := TopN(tally, CountOf, TrendingCap);
    forall i, j | 0 <= i < |tally| && 0 <= j < |top| && tally[i] !in top ensures tally[i].1 <= top[j].1 {
      assert CountOf(tally[i]) <= CountOf(top[j]);
    }
  }

  // ---------------------------------------------------------------------------
  // What the operations do to the invariants
  // ---------------------------------------------------------------------------

  /** Supporting keeps one record per (post, user, type). */
  lemma SupportKeepsOneSupport(db: PostDb, userId: UserId, postId: Id, req: SupportRequest, now: Millis)
    requires db.Valid() && OneSupportPerKey(db)
    ensures OneSupportPerKey(SupportPost(db, userId, postId, req, now).db)
  {
    var r := SupportPost(db, userId, postId, req, now);
    if r.result.Ok? {
      var n := r.result.value.id;
      var key := SupportKey(postId, userId, req.supportType);
      forall i | i in r.db.supports.rows && i != n
        ensures !key(r.db.supports.rows[i])
      {
        assert i !in db.supports.MatchIds(key);
      }
    }
  }

  /** Removing keeps one record per (post, user, type). */
  lemma RemoveKeepsOneSupport(db: PostDb, userId: UserId, postId: Id, supportType: string)
    requires OneSupportPerKey(db)
    ensures OneSupportPerKey(RemoveSupport(db, userId, postId, supportType).db)
  {
  }

  /** Supporting keeps every post's support counter in step. */
  lemma SupportKeepsCounts(db: PostDb, userId: UserId, postId: Id, req: SupportRequest, now: Millis)
    requires db.Valid() && SupportCountsMatch(db)
    ensures SupportCountsMatch(SupportPost(db, userId, postId, req, now).db)
  {
    var r := SupportPost(db, userId, postId, req, now);
    if r.result.Ok? {
      var record := r.result.value.data;
      forall p | p in r.db.posts.rows
        ensures OrZero(r.db.posts.rows[p].supportCount) == |r.db.supports.MatchIds(SupportOfPost(p))|
      {
        InsertMatchIds(db.supports, record, SupportOfPost(p));
      }
    }
  }

  /** Removing keeps every post's support counter in step, even when the
      post is gone: then no counter counted the record. */
  lemma RemoveKeepsCounts(db: PostDb, userId: UserId, postId: Id, supportType: string)
    requires db.Valid() && SupportCountsMatch(db)
    ensures SupportCountsMatch(RemoveSupport(db, userId, postId, supportType).db)
  {
    var key := SupportKey(postId, userId, supportType);
    if db.supports.First(key).Some? {
      var found := db.supports.First(key).value;
      var r := RemoveSupport(db, userId, postId, supportType);
      assert r.db.supports == db.supports.Remove(found.id);
      RemovedSupportCounts(db, r.db, found.id, postId);
    }
  }

  /** Dropping one support record of `postId` while taking one off that
      post's counter (when the post exists) keeps every counter in step. */
  lemma RemovedSupportCounts(db: PostDb, db': PostDb, id: Id, postId: Id)
    requires SupportCountsMatch(db)
    requires id in db.supports.rows && db.supports.rows[id].postId == postId
    requires db'.supports == db.supports.Remove(id)
    requires db'.posts.rows.Keys == db.posts.rows.Keys
    requires forall k :: k in db.posts.rows && k != postId ==> db'.posts.rows[k] == db.posts.rows[k]
    requires postId in db.posts.rows ==>
               OrZero(db'.posts.rows[postId].supportCount) == OrZero(db.posts.rows[postId].supportCount) - 1
    ensures SupportCountsMatch(db')
  {
    forall p | p in db'.posts.rows
      ensures OrZero(db'.posts.rows[p].supportCount) == |db'.supports.MatchIds(SupportOfPost(p))|
    {
      RemoveMatchIds(db.supports, id, SupportOfPost(p));
      assert id in db.supports.MatchIds(SupportOfPost(p)) <==> p == postId;
      CardReplace(db.supports.MatchIds(SupportOfPost(p)), id, false);
    }
  }

  /** Supporting and then removing the same type restores the support
      records and the post's counter (read as a number). */
  lemma SupportThenRemoveRestores(db: PostDb, userId: UserId, postId: Id, req: SupportRequest, now: Millis)
    requires db.Valid()
    requires SupportPost(db, userId, postId, req, now).result.Ok?
    ensures var r1 := SupportPost(db, userId, postId, req, now);
            var r2 := RemoveSupport(r1.db, userId, postId, req.supportType);
            && r2.result.Ok?
            && r2.db.supports.rows == db.supports.rows
            && OrZero(r2.db.posts.rows[postId].supportCount) == OrZero(db.posts.rows[postId].supportCount)
            && r2.db.posts.rows[postId].(supportCount := db.posts.rows[postId].supportCount,
                                         updatedAt := db.posts.rows[postId].updatedAt)
               == db.posts.rows[postId]
  {
    var r1 := SupportPost(db, userId, postId, req, now);
    var key := SupportKey(postId, userId, req.supportType);
    var n := r1.result.value.id;
    InsertMatchIds(db.supports, r1.result.value.data, key);
    assert db.supports.MatchIds(key) == {};
    assert r1.db.supports.MatchIds(key) == {n};
    var second := r1.db.supports.First(key);
    assert second.Some? && second.value.id == n;
    assert r1.db.supports.Remove(n).rows == db.supports.rows;
  }
}

=== FILE: text.dfy ===
/** The string operations the services rely on: case mapping, substring
    search and decimal rendering of counters. Case mapping covers the ASCII
    letters only. */
module Text {

  function UpperChar(c: char): (r: char)
    ensures 'a' <= c <= 'z' ==> 'A' <= r <= 'Z'
    ensures !('a' <= c <= 'z') ==> r == c
  {
    if 'a' <= c <= 'z' then (c as int - 32) as char else c
  }

  function LowerChar(c: char): (r: char)
    ensures 'A' <= c <= 'Z' ==> 'a' <= r <= 'z'
    ensures !('A' <= c <= 'Z') ==> r == c
  {
    if 'A' <= c <= 'Z' then (c as int + 32) as char else c
  }

  /** `toLowerCase()`. */
  function Lower(s: string): (r: string)
    ensures |r| == |s|
    ensures forall i :: 0 <= i < |s| ==> r[i] == LowerChar(s[i])
  {
    seq(|s|, i requires 0 <= i < |s| => LowerChar(s[i]))
  }

  /** `s.charAt(0).toUpperCase() + s.slice(1)`. */
  function Capitalise(s: string): (r: string)
    ensures |r| == |s|
    ensures |s| > 0 ==> r[0] == UpperChar(s[0]) && r[1..] == s[1..]
  {
    if |s| == 0 then "" else [UpperChar(s[0])] + s[1..]
  }

  /** `hay.startsWith(needle)`. */
  predicate StartsWith(hay: string, needle: string) {
    |needle| <= |hay| && hay[..|needle|] == needle
  }

  /** `hay.includes(needle)`, scanning start positions left to right. */
  predicate Includes(hay: string, needle: string)
    decreases |hay|
  {
    StartsWith(hay, needle) || (|hay| > 0 && Includes(hay[1..], needle))
  }

  /** The substring relation the scan decides: `needle` occurs at some position. */
  ghost predicate OccursAt(hay: string, needle: string, i: int) {
    0 <= i && i + |needle| <= |hay| && hay[i..i + |needle|] == needle
  }

  /** An occurrence past the first position is an occurrence in the tail. */
  lemma OccursShift(hay: string, needle: string, i: int)
    requires |hay| > 0 && i >= 1
    ensures OccursAt(hay, needle, i) <==> OccursAt(hay[1..], needle, i - 1)
  {
    if i + |needle| <= |hay| {
      assert hay[1..][i - 1..i - 1 + |needle|] == hay[i..i + |needle|];
    }
  }

  /** The scan is exact: it succeeds precisely when the needle occurs somewhere. */
  lemma {:induction false} IncludesIffOccurs(hay: string, needle: string)
    ensures Includes(hay, needle) <==> exists i :: OccursAt(hay, needle, i)
    decreases |hay|
  {
    if exists i :: OccursAt(hay, needle, i) {
      var i :| OccursAt(hay, needle, i);
      if i == 0 {
        assert StartsWith(hay, needle);
      } else {
        OccursShift(hay, needle, i);
        IncludesIffOccurs(hay[1..], needle);
      }
    }
    if Includes(hay, needle) {
      if StartsWith(hay, needle) {
        assert OccursAt(hay, needle, 0);
      } else {
        IncludesIffOccurs(hay[1..], needle);
        var j :| OccursAt(hay[1..], needle, j);
        OccursShift(hay, needle, j + 1);
      }
    }
  }

  /** The empty needle occurs in every string. */
  lemma IncludesEmpty(hay: string)
    ensures Includes(hay, "")
  {
    assert StartsWith(hay, "");
  }

  function DigitChar(d: nat): (c: char)
    requires d < 10
    ensures '0' <= c <= '9'
  {
    ('0' as int + d) as char
  }

  /** `String(n)` for a natural number: decimal digits, no leading zeros. */
  function NatToString(n: nat): (r: string)
    ensures |r| >= 1
    ensures n >= 10 <==> |r| >= 2
    ensures forall i :: 0 <= i < |r| ==> '0' <= r[i] <= '9'
    decreases n
  {
    if n < 10 then [DigitChar(n)] else NatToString(n / 10) + [DigitChar(n % 10)]
  }

  /** Different numbers render differently. */
  lemma {:induction false} NatToStringInjective(a: nat, b: nat)
    requires NatToString(a) == NatToString(b)
    ensures a == b
    decreases a
  {
    var s := NatToString(a);
    if a < 10 {
      assert b < 10;
      assert DigitChar(a) == DigitChar(b);
    } else {
      assert b >= 10;
      assert DigitChar(a % 10) == s[|s| - 1] == DigitChar(b % 10);
      assert NatToString(a / 10) == s[..|s| - 1] == NatToString(b / 10);
      NatToStringInjective(a / 10, b / 10);
    }
  }
}

=== FILE: wrappers.dfy ===
/** Failure-compatible result types shared by every service of the model. */
module Wrappers {

  datatype Option<+T> = None | Some(value: T)

  /** The exceptions the services raise. NotFound and BadRequest are the
      framework's HTTP exceptions; StoreError is anything the document store
      itself throws (for instance an update of a document that is missing). */
  datatype Error =
    | NotFound(message: string)
    | BadRequest(message: string)
    | StoreError(message: string)

  datatype Result<+T> = Ok(value: T) | Err(error: Error) {
    predicate IsFailure() { Err? }

    function PropagateFailure<U>(): Result<U>
      requires Err?
    {
      Err(error)
    }

    function Extract(): T
      requires Ok?
    {
      value
    }
  }
}
